=== FILE: README.md ===
# pyezsh command spine and its Tk-free decisions, in Dafny

This project models the part of pyezsh that decides things without a
toolkit: the command registry with its shortcut normaliser, the key-binding
table and its translation of Tk key sequences, the layered key router, the
default commands and key bindings and how the application wires them
together at start-up, the declarative menu model with the menu bar's
normalising, filtering and population steps, the application's component
index, window geometry and key-event disposition, the main layout's
splitter arithmetic, the sidebar's directory-listing step, and the status
service.

Every Python object with state becomes an immutable datatype and every
method a pure function from the old state to the new one. An exception that
escapes after partial work is an `Update(state, Raised(error))`; a query
that can raise returns a `Result`. Widgets, handlers and callbacks are
names or numbers: executing a command yields the `Call` record of the one
handler invocation, and the status service records what it sends to its
sink and its change callback as an output trace.

Modules, one per source file or concern:

- `Base`: `Option`, `Result`, `Update` and the exception kinds.
- `Text`: ASCII `strip`, `split`, `join`, `upper`, `lower`, substring test and string order.
- `Sorting`: a sort by a comparison, standing for Python's `sorted` and `list.sort`.
- `Commands`: `src/pyezsh/app/commands.py`.
- `Keys`: `src/pyezsh/app/keys.py`.
- `KeyRouter`: `src/pyezsh/app/keyrouter.py`.
- `Defaults`: `src/pyezsh/app/default_commands.py` and `src/pyezsh/app/default_keys.py`.
- `Startup`: the command and keymap wiring of `App.__init__` in `src/pyezsh/app/app.py`.
- `MenuDefs` and `MenuBar`: `src/pyezsh/ui/menu_defs.py` and `src/pyezsh/ui/menubar.py`.
- `App`: the component index, `_apply_geometry` and `_route_keyseq` of `src/pyezsh/app/app.py`.
- `MainLayout`: the splitter drag of `src/pyezsh/ui/mainlayout.py`.
- `Sidebar`: `_is_dotfile` and `_safe_iterdir` of `src/pyezsh/ui/sidebar_treeview.py`.
- `Status`: `src/pyezsh/services/status.py`.

The platform (`sys.platform == "darwin"`) is a boolean parameter.

## Behaviour of the code worth knowing

- There is no table of named punctuation keys. `<Command-comma>` translates to `CMD+COMMA`, while the registry's default shortcut is `CMD+,`. After start-up both keys are in the shortcut index (`Startup.StartupSucceeds`).
- `bind_shortcut` checks the command id before it normalises the shortcut, so an unknown id raises `CommandNotFound` even for a malformed shortcut. It refuses an existing key without `replace` even when the key is already bound to the same id.
- The duplicate-registration error is `CommandAlreadyRegistered`.
- `KeyRouter` is a slots dataclass with no `telemetry` field (`src/pyezsh/app/keyrouter.py:46-64`). `App.__init__` passes it `telemetry=` (`src/pyezsh/app/app.py:145-149`), and that call raises `TypeError`. This start-up path beyond the command and keymap wiring is not modelled. The model's router has no telemetry.
- `KeyRouter` asks its keymaps for `resolve_keyseq`, but `KeyMap` only offers `resolve`, an exact lookup with no translation. The router is therefore modelled over an abstract resolver, a function from key sequence to optional id. `KeyRouter.ExactResolver` wraps `Keys.Resolve` for scenarios. There is no translate-on-miss fallback.

## Model

| member | source | states |
|---|---|---|
| Text.Trim | src/pyezsh/app/commands.py:101-103 | `str.strip`: the result is one contiguous slice of the input with only whitespace cut off on each side (`StrippedAt`), and no whitespace is left at either end of it, an already stripped string is returned as is, and the result is empty exactly when the input is all whitespace |
| Text.SplitJoin | src/pyezsh/app/commands.py:105 | splitting a join recovers the parts when none contains the separator (the partner of `Split`) |
| Text.UpperFacts | src/pyezsh/app/commands.py:113 | upper-casing is idempotent, keeps every non-letter (so `'+'` and `'-'`), adds no non-capital character and keeps a stripped string stripped |
| Sorting.SortBy | src/pyezsh/app/commands.py:228 | the sorted list is a permutation of the input |
| Sorting.SortBySorted | src/pyezsh/ui/sidebar_treeview.py:139 | for a total, transitive comparison the sorted list is in order |
| Commands.NormalizeShortcut | src/pyezsh/app/commands.py:89-136 | raises ValueError exactly when the count of non-modifier parts is not one, which covers empty and whitespace-only input; otherwise returns the modifiers named, each once, in the order CTRL, ALT, SHIFT, CMD, then the one upper-cased key, joined by `'+'` |
| Commands.NormalizeNullable | src/pyezsh/app/commands.py:98-99 | `None` raises ValueError; a string is normalised |
| Commands.Pieces | src/pyezsh/app/commands.py:105 | every part left after splitting on `'+'` is non-empty, stripped and free of `'+'` |
| Commands.KeyTokens | src/pyezsh/app/commands.py:112-128 | a part lands among the key tokens, upper-cased, exactly when it names no modifier, and every token comes from such a part; a single part gives itself or nothing |
| Commands.KeyTokensAppend | src/pyezsh/app/commands.py:112-128 | tokens are collected part by part in input order: the tokens of two lists of parts joined are the two token lists joined |
| Commands.ModifiersOf | src/pyezsh/app/commands.py:112-130 | a modifier is in the set exactly when some part spells it (CONTROL/CTRL, OPTION/ALT, SHIFT, COMMAND/CMD/META, any case) |
| Commands.InOrder | src/pyezsh/app/commands.py:131 | the ordered list holds exactly the modifiers of the fixed order that are present |
| Commands.KeepStrippedValid | src/pyezsh/app/commands.py:105 | parts that are already stripped and non-empty pass the strip-and-drop step unchanged |
| Commands.CanonicalParts | src/pyezsh/app/commands.py:105-136 | splitting a canonical shortcut gives back its modifier names in fixed order, then its key |
| Commands.ModifiersOfCanonicalParts | src/pyezsh/app/commands.py:130-131 | the parts of a canonical shortcut name exactly its modifiers |
| Commands.CanonicalIsFixedPoint | src/pyezsh/app/commands.py:89-136 | a canonical shortcut whose key is a valid token normalises to itself, punctuation such as `,` included |
| Commands.NormalizeIdempotent | src/pyezsh/app/commands.py:89-136 | normalising a normaliser's output returns it unchanged |
| Commands.KeyTokensCanonical | src/pyezsh/app/commands.py:112-128 | every key token of well-formed parts can itself stand as the key of a canonical shortcut |
| Commands.NewCommand | src/pyezsh/app/commands.py:142-173 | a command built with only id, label and handler has no description, tags or shortcut, is statically enabled and visible (so in every context), and has order 1000 |
| Commands.EmptyRegistryValid | src/pyezsh/app/commands.py:186-188 | a fresh registry meets the invariant (unique stored ids, every shortcut names a registered id) and has only canonical keys |
| Commands.WithoutBindingsTo | src/pyezsh/app/commands.py:316-319 | exactly the index entries that point at the id are removed; the others keep their values |
| Commands.BindShortcut | src/pyezsh/app/commands.py:233-242 | an unknown id raises CommandNotFound before the shortcut is parsed; a malformed shortcut raises ValueError; an existing canonical key without `replace` raises ShortcutAlreadyBound, even for the same id; each error leaves the state unchanged; success holds exactly when none applies, and then the shortcut resolves to the id, the commands are unchanged and every other key keeps its entry |
| Commands.BindShortcutValid | src/pyezsh/app/commands.py:233-242 | binding keeps every index value a registered id |
| Commands.BindShortcutCanonical | src/pyezsh/app/commands.py:237-242 | the index stays keyed by canonical shortcuts only |
| Commands.UnbindShortcut | src/pyezsh/app/commands.py:244-246 | a malformed shortcut raises ValueError; otherwise only its canonical key is removed, absent or not, and the invariants are kept |
| Commands.ResolveShortcut | src/pyezsh/app/commands.py:248-250 | ValueError exactly for a malformed shortcut; otherwise the id filed under the canonical key, or nothing when the key is absent |
| Commands.Register | src/pyezsh/app/commands.py:193-206 | an empty id raises ValueError; an existing id without `replace` raises CommandAlreadyRegistered with the state unchanged; otherwise the command is stored first, so even when binding its default shortcut then fails (ValueError or ShortcutAlreadyBound, possible only for a non-empty shortcut) the command stays registered, appended to the ids when new and in place when replaced; it succeeds exactly when there is no default shortcut or the shortcut parses and its key is free or `replace` is given; ValueError is raised exactly when the shortcut does not parse, ShortcutAlreadyBound exactly when its key is taken and `replace` is not given; after a failed bind the index is the one left by storing (only the old command's entries dropped under `replace`), and on success the shortcut resolves to the id and every other key is as storing left it |
| Commands.RegisterReplaceDropsOld | src/pyezsh/app/commands.py:200-206 | after a replacing registration, only the new default shortcut can still point at the id |
| Commands.RegisterValid | src/pyezsh/app/commands.py:193-206 | registration keeps the invariant and the canonical keys, whether it completes or raises |
| Commands.Store | src/pyezsh/app/commands.py:197-203 | the command is stored under its id; with `replace` the old command's shortcuts are dropped and nothing else changes; a new id is appended to the id list and a replaced id keeps its place |
| Commands.Unregister | src/pyezsh/app/commands.py:208-213 | an unknown id raises CommandNotFound; otherwise the command and exactly the index entries that point at it are removed, keeping the invariant; the other ids keep their order |
| Commands.Get | src/pyezsh/app/commands.py:218-222 | CommandNotFound exactly for an unknown id; otherwise the command stored under the id, whose own id is that id |
| Commands.Ids | src/pyezsh/app/commands.py:224-225 | every registered id exactly once |
| Commands.IdsInRegistrationOrder | src/pyezsh/app/commands.py:197-213 | `ids()` is in registration order: registering a new id appends it, replacing keeps its place, unregistering removes it and keeps the others' order |
| Commands.IsVisible | src/pyezsh/app/commands.py:255-257 | CommandNotFound exactly for an unknown id; otherwise the command's visibility flag evaluated in the context |
| Commands.IsEnabled | src/pyezsh/app/commands.py:259-261 | CommandNotFound exactly for an unknown id; otherwise the command's enablement flag evaluated in the context |
| Commands.CanExecute | src/pyezsh/app/commands.py:263-264 | true exactly when `execute` with visibility required would run the handler |
| Commands.Execute | src/pyezsh/app/commands.py:269-278 | CommandNotFound, then CommandNotVisible (only when visibility is required), then CommandNotEnabled (always checked); otherwise exactly one call of the command's handler with the context |
| Commands.ExecuteShortcut | src/pyezsh/app/commands.py:280-284 | a malformed shortcut raises ValueError and an unbound one CommandNotFound; a bound one executes its id with visibility required |
| Commands.ListForMenu | src/pyezsh/app/commands.py:289-295 | CommandNotFound exactly when some id is unknown; otherwise only visible commands, no more than the ids given |
| Commands.ListForMenuSelects | src/pyezsh/app/commands.py:289-295 | each given id's command is in the menu list exactly when it is visible (the order is stated by `MenuBar.ListForMenuVisible`) |
| Commands.RankLeTransitive | src/pyezsh/app/commands.py:310 | the tuple order on (score, order, lower-cased label, id) is transitive |
| Commands.Ranked | src/pyezsh/app/commands.py:310 | sorting the candidates gives a permutation ordered by their keys |
| Commands.All | src/pyezsh/app/commands.py:227-228 | the registry's stored command records, each once, in the order of `AllIds` |
| Commands.AllIds | src/pyezsh/app/commands.py:227-228 | each registered id exactly once, ordered by order, then lower-cased label, then id |
| Commands.RankIds | src/pyezsh/app/commands.py:228-310 | a reordering of the given ids, sorted by their commands' keys, keeping distinctness |
| Commands.Score | src/pyezsh/app/commands.py:326-348 | the score is one of the nine values of the table; which condition yields which value is stated by `Commands.ScoreMeaning` |
| Commands.ScoreMeaning | src/pyezsh/app/commands.py:326-348 | the full tier table: 100 exactly for an equal id; at least 95 exactly for an equal id or label; at least 85 exactly for that or an id prefix; at least 80 exactly for a prefix of id or label; at least 60 exactly for that or an id substring; at least 55 exactly for that or a label substring; at least 30 exactly for that or a description substring; positive exactly when the query occurs in the id, label, description or space-joined tags |
| Commands.Filter | src/pyezsh/app/commands.py:303-308 | exactly the accepted ids, each from the input, distinct if the input was |
| Commands.SearchRanked | src/pyezsh/app/commands.py:302-310 | exactly the visible, positively scored commands, each once, best first in the order of the key |
| Commands.Search | src/pyezsh/app/commands.py:297-311 | the registry's stored records for the ids of `SearchIds`, in that order |
| Commands.SearchIds | src/pyezsh/app/commands.py:297-311 | nothing for a query that is empty after strip; otherwise a prefix of the ranked matches of length `max(0, limit)` or all of them |
| Commands.SearchSound | src/pyezsh/app/commands.py:297-311 | at most `max(0, limit)` results, each visible and matching, distinct, best first |
| Commands.SearchComplete | src/pyezsh/app/commands.py:302-311 | a visible match left out means the limit was reached and every result ranks no later than it |
| Commands.RankedPrefixSound | src/pyezsh/app/commands.py:310-311 | any prefix of the ranked candidates holds distinct matches in rank order |
| Commands.RankedPrefixComplete | src/pyezsh/app/commands.py:310-311 | a prefix that misses a match is shorter than the ranking and ranks no later than the match |
| Commands.Truncate | src/pyezsh/app/commands.py:311 | Python's `s[:max(0, limit)]`: a prefix of that length, or the whole list |
| Keys.TkParts | src/pyezsh/app/keys.py:51-57 | the tokens of a bracketed sequence are non-empty, stripped and free of `'-'` |
| Keys.TkToCanonical | src/pyezsh/app/keys.py:30-91 | input that is not `<...>` after strip is returned stripped |
| Keys.TkToCanonicalShape | src/pyezsh/app/keys.py:43-91 | without a non-modifier token the stripped input comes back; otherwise the ordered modifier names joined by `'+'` before the last key token, or that key alone without modifiers |
| Keys.TkTranslationIsCanonical | src/pyezsh/app/keys.py:83-91 | a translation whose key holds no `'+'` is already in the registry's canonical form |
| Keys.TkPartsOfJoin | src/pyezsh/app/keys.py:51-55 | `<t1-...-tn>` splits back into its tokens |
| Keys.TkIgnoresInnerTokens | src/pyezsh/app/keys.py:77-78 | a non-modifier token before the key, such as `KeyPress`, does not change the translation |
| Keys.TkSameTranslation | src/pyezsh/app/keys.py:59-91 | two sequences with the same modifiers and the same last key translate alike |
| Keys.TkModifierKey | src/pyezsh/app/keys.py:59-89 | `<Mod-key>` translates to the modifier's canonical name, `'+'`, and the upper-cased key |
| Keys.TkModifierPressKey | src/pyezsh/app/keys.py:77-89 | `<Mod-KeyPress-key>` translates like `<Mod-key>` |
| Keys.Resolve | src/pyezsh/app/keys.py:126-127 | an exact lookup: an id exactly when the sequence itself is bound |
| Keys.Bind | src/pyezsh/app/keys.py:112-121 | ValueError for an empty sequence or id, or an existing sequence without `overwrite`; otherwise the sequence resolves to the id, every other sequence keeps its binding, and a new sequence goes last in key order |
| Keys.Unbind | src/pyezsh/app/keys.py:123-124 | the sequence no longer resolves; every other binding is kept, and the remaining keys keep their order; an absent sequence changes nothing |
| Keys.Keys | src/pyezsh/app/keys.py:129-130 | the listed sequences are exactly the bound ones |
| Keys.Items | src/pyezsh/app/keys.py:132-133 | one pair per key in key order, each carrying the id its sequence resolves to |
| Keys.Clear | src/pyezsh/app/keys.py:135-136 | no sequence is left and none resolves |
| Keys.BindEach | src/pyezsh/app/keys.py:112-121 | binding pairs in turn with the default `overwrite` fails exactly when some pair has an empty sequence or id |
| Keys.BindEachItems | src/pyezsh/app/keys.py:121-133 | binding distinct new sequences lists them after the existing items, in order |
| Keys.Translated | src/pyezsh/app/keys.py:151-152 | each binding paired with its translated sequence, in order |
| Keys.BindAll | src/pyezsh/app/keys.py:151-153 | the loop of `apply` never changes the registered commands |
| Keys.Apply | src/pyezsh/app/keys.py:138-153 | TypeError exactly when there is no registry to bind into; otherwise no TypeError, and the registered commands are left unchanged whatever the binding loop does |
| Keys.BindAllValid | src/pyezsh/app/keys.py:151-153 | applying keeps the registry invariant, even when it stops early |
| Keys.BindAllCanonical | src/pyezsh/app/keys.py:151-153 | applying keeps every index key canonical |
| Keys.BindAllFrame | src/pyezsh/app/keys.py:151-153 | a key that no binding normalises to keeps its entry, or its absence |
| Keys.BindAllKeepsExisting | src/pyezsh/app/keys.py:151-153 | without `replace`, an existing index entry is never changed |
| Keys.BindAllDoneKeeps | src/pyezsh/app/keys.py:151-153 | without `replace`, a completed apply leaves every binding's shortcut resolving to its own id |
| Keys.BindAllNormalizes | src/pyezsh/app/keys.py:151-153 | a completed apply was given only well-formed shortcuts |
| Keys.BindAllLastWins | src/pyezsh/app/keys.py:151-153 | after a completed apply, a key holds the id of the last binding filed under it |
| Keys.BindAllDone | src/pyezsh/app/keys.py:151-153 | after a completed apply, each binding's shortcut resolves to its own id or to the id of a later binding |
| Keys.BindAllStopsAtFirstError | src/pyezsh/app/keys.py:151-153 | an apply that raises stopped at the first failing binding, with the earlier bindings applied and the error of that bind |
| Keys.BindAllReplace | src/pyezsh/app/keys.py:151-153 | with `replace`, binding canonical shortcuts of registered ids files each in turn and cannot raise |
| Keys.ApplyResolvesEveryKey | src/pyezsh/app/keys.py:138-153 | without `replace`, a completed apply leaves each sequence's translation resolving to its id |
| KeyRouter.NewRouter | src/pyezsh/app/keyrouter.py:46-64 | a new router has no mode, no focus provider and no layer keymaps |
| KeyRouter.SetMode | src/pyezsh/app/keyrouter.py:66-70 | the mode read back is the one set; the keymaps are untouched |
| KeyRouter.SetFocusProvider | src/pyezsh/app/keyrouter.py:72-73 | only the provider changes |
| KeyRouter.RegisterModeKeymap | src/pyezsh/app/keyrouter.py:75-76 | the mode's entry is set or overwritten; every other mode entry, the component layer and the mode are untouched |
| KeyRouter.UnregisterModeKeymap | src/pyezsh/app/keyrouter.py:78-79 | the mode's entry is gone, absent or not; nothing else changes |
| KeyRouter.RegisterComponentKeymap | src/pyezsh/app/keyrouter.py:81-82 | the component's entry is set or overwritten; nothing else changes |
| KeyRouter.UnregisterComponentKeymap | src/pyezsh/app/keyrouter.py:84-85 | the component's entry is gone, absent or not; nothing else changes |
| KeyRouter.Layer | src/pyezsh/app/keyrouter.py:119-133 | a layer answers exactly when its key is non-empty, has a keymap, and that keymap yields a non-empty id |
| KeyRouter.ResolveCommandId | src/pyezsh/app/keyrouter.py:106-136 | the focused component's answer if any, else the mode's, else the global keymap's answer as it is |
| KeyRouter.RouteKeyseq | src/pyezsh/app/keyrouter.py:87-104 | nothing executes and the result is false exactly when no non-empty id resolves; otherwise the registry's `execute` with visibility required, its error propagating |
| KeyRouter.ComponentShadows | src/pyezsh/app/keyrouter.py:118-125 | a focused component whose keymap binds the sequence wins over mode and global keymaps |
| KeyRouter.ModeShadowsGlobal | src/pyezsh/app/keyrouter.py:127-133 | without a focus match, a bound mode keymap wins over the global one |
| KeyRouter.AbsentModeLayerFallsThrough | src/pyezsh/app/keyrouter.py:127-136 | a mode keymap that yields nothing resolves like no mode keymap, and like a silent one |
| KeyRouter.AbsentComponentLayerFallsThrough | src/pyezsh/app/keyrouter.py:118-136 | a component keymap that yields nothing resolves like no keymap, a silent one, or no focus provider |
| KeyRouter.GlobalOnly | src/pyezsh/app/keyrouter.py:135-136 | with neither focus provider nor mode, only the global keymap answers |
| KeyRouter.RouteIsExecute | src/pyezsh/app/keyrouter.py:99-104 | a routed sequence is exactly one registry execution of the resolved id with visibility required |
| KeyRouter.ExactResolver | src/pyezsh/app/keys.py:126-127 | the key map used as a layer answers exactly as `resolve` |
| KeyRouter.ModeKeymapOverridesGlobal | src/pyezsh/app/keyrouter.py:127-136 | with exact keymaps and the mode set, a sequence bound in the mode keymap routes to the mode's id whatever the global keymap says |
| Defaults.RegisterEach | src/pyezsh/app/default_commands.py:87-111 | registering in turn never changes an existing command, and when all succeed each command is stored under its id |
| Defaults.DefaultShortcutsCanonical | src/pyezsh/app/default_commands.py:49-51 | the default shortcuts `CMD+Q`/`CTRL+Q` and `CMD+,`/`CTRL+,` are already canonical |
| Defaults.DefaultCommandsShape | src/pyezsh/app/default_commands.py:87-111 | app.about, app.preferences and app.quit in that order; only the last two carry a shortcut, and the two differ |
| Defaults.DefaultsOnFreshRegistry | src/pyezsh/app/default_commands.py:87-111 | on a fresh registry registration completes with exactly the three ids in order and exactly two shortcuts, preferences and quit |
| Defaults.RegisterEachValid | src/pyezsh/app/default_commands.py:87-111 | registering a list keeps the invariant and canonical keys, even when it stops early |
| Defaults.DefaultsRegistered | src/pyezsh/app/default_commands.py:48-111 | the platform's labels, the order values 10, 15 and 20, and each command's shortcut |
| Defaults.DefaultsTwiceRaise | src/pyezsh/app/default_commands.py:87-93 | a second registration raises CommandAlreadyRegistered at the first command and changes nothing |
| Defaults.DefaultKeysDistinct | src/pyezsh/app/default_keys.py:23-50 | no sequence of the default table is bound twice |
| Defaults.DefaultBindingsNonEmpty | src/pyezsh/app/default_keys.py:23-50 | every default binding has a sequence and names app.quit or app.preferences |
| Defaults.DefaultKeymapItems | src/pyezsh/app/default_keys.py:23-50 | building the default keymap never raises and lists the table's bindings in order: ten on macOS, four elsewhere |
| Defaults.SpellTranslates | src/pyezsh/app/keys.py:55-91 | a `<Mod-key>` or `<Mod-KeyPress-key>` spelling translates to the modifier's name, `'+'`, and the upper-cased key |
| Defaults.ExpectedCanonical | src/pyezsh/app/keys.py:83-91 | what such a spelling translates to is already canonical |
| Defaults.TranslatedSpecs | src/pyezsh/app/keys.py:151-152 | `apply` hands the registry each spelled binding's expected shortcut |
| Defaults.DefaultBindingsSpelled | src/pyezsh/app/default_keys.py:27-48 | every sequence of the table is a modifier, an optional `KeyPress`, and `q` or `comma`, in brackets |
| Defaults.DefaultSpecCommands | src/pyezsh/app/default_keys.py:27-48 | every binding of the table names app.quit or app.preferences |
| Defaults.DefaultTranslations | src/pyezsh/app/default_keys.py:27-48 | translating the table gives, binding by binding, `CMD+Q` or `CTRL+Q` for the quit sequences and `CMD+COMMA` or `CTRL+COMMA` for the preferences sequences, with the same ids |
| Startup.StartupBindsTable | src/pyezsh/app/app.py:135-139 | start-up is the binding loop over the translated default table, run on the freshly registered defaults |
| Startup.StartupSucceeds | src/pyezsh/app/app.py:135-139 | with `replace=True` start-up never raises; the three ids in order, and an index holding the two default shortcuts plus the translated table, canonical and naming registered ids |
| Startup.DefaultShortcutsReady | src/pyezsh/app/app.py:138-139 | every translated default binding is canonical and names a registered default command |
| Startup.StartupFiles | src/pyezsh/app/app.py:139 | filing the translated table over the two default shortcuts gives the start-up index |
| Startup.StartupWithoutReplaceRaises | src/pyezsh/app/commands.py:239-240 | with `replace=False` start-up would raise ShortcutAlreadyBound, because the first quit sequence translates to the quit command's own default shortcut |
| MenuBar.NormalizeItems | src/pyezsh/ui/menubar.py:254-271 | same length; `None` becomes a separator, a string a command with no overrides, and a typed item stays as it is |
| MenuBar.NormalizeLift | src/pyezsh/ui/menubar.py:254-271 | typed items normalise to themselves |
| MenuBar.CleanupSeparators | src/pyezsh/ui/menubar.py:273-293 | no leading, trailing or adjacent separators, and the non-separators kept in order |
| MenuBar.CleanupIsJoinedGroups | src/pyezsh/ui/menubar.py:277-291 | the clean-up is the maximal runs of non-separators joined by single separators |
| MenuBar.CleanupKeepsClean | src/pyezsh/ui/menubar.py:273-293 | a clean list is returned unchanged, so the clean-up is idempotent |
| MenuBar.CleanupIds | src/pyezsh/ui/menubar.py:273-293 | the clean-up keeps every command id, in order |
| MenuBar.FilterKeepsCommands | src/pyezsh/ui/menubar.py:425-448 | exactly the reserved ids are removed, at any depth, and the others keep their order |
| MenuBar.FilterIsTidy | src/pyezsh/ui/menubar.py:425-448 | whatever the input, the filtered items are typed, clean and have no empty submenu, at every depth |
| MenuBar.FilterKeepsTidy | src/pyezsh/ui/menubar.py:425-448 | filtering tidy items without reserved commands only normalises them |
| MenuBar.FilterIdempotent | src/pyezsh/ui/menubar.py:425-448 | filtering twice is filtering once |
| MenuBar.FilterMenusAppend | src/pyezsh/ui/menubar.py:450-457 | menus are filtered one by one: a menu survives with its label exactly when its filtered items are non-empty, in the original relative order |
| MenuBar.FilterMenusTidy | src/pyezsh/ui/menubar.py:450-457 | every surviving menu is non-empty and tidy |
| MenuBar.FilterMenusKeepsCommands | src/pyezsh/ui/menubar.py:415-457 | across all menus exactly the reserved ids disappear |
| MenuBar.FilterMenusIdempotent | src/pyezsh/ui/menubar.py:415-457 | filtering the menus twice is filtering them once |
| MenuBar.FilterMenusUnreserved | src/pyezsh/ui/menubar.py:415-457 | no filtered menu names a reserved command at any depth |
| MenuBar.EffectiveMenusIds | src/pyezsh/ui/menubar.py:404-413 | the menus are returned unchanged unless on macOS with the automatic application menu, where exactly the reserved command ids disappear |
| MenuBar.Populate | src/pyezsh/ui/menubar.py:304-307 | without a registry no entry is added; with one, each item is populated in turn |
| MenuBar.CommandEntries | src/pyezsh/ui/menubar.py:332-365 | one entry exactly for a registered, visible command; it invokes the command's id, is enabled exactly when the command is, uses the item's label and accelerator overrides, falling back to the command's label and shortcut or `""`, and extends the menu path by its label |
| MenuBar.PopulateIds | src/pyezsh/ui/menubar.py:295-365 | on a consistent registry the dropdown offers exactly the registered, visible commands named by the items, at every depth, in order |
| MenuBar.PopulateFrame | src/pyezsh/ui/menubar.py:309-330 | each separator item gives a separator entry and each submenu a cascade with its label, in order |
| MenuBar.PopulateAgreesWithListForMenu | src/pyezsh/ui/menubar.py:332-347 | a flat dropdown of registered ids offers the same commands as `list_for_menu` |
| MenuBar.ListForMenuVisible | src/pyezsh/app/commands.py:289-295 | `list_for_menu` keeps exactly the visible ids, in order |
| MenuBar.CommandExists | src/pyezsh/ui/menubar.py:367-373 | true exactly when there is a registry holding the id |
| MenuBar.AppleIds | src/pyezsh/ui/menubar.py:234-247 | exactly the standard ids that are registered |
| MenuBar.AppleItemsSeparated | src/pyezsh/ui/menubar.py:234-249 | the application menu lists the registered standard ids in standard order with one separator between each two, and is already clean |
| MenuBar.ReservedOnlyInAppleMenu | src/pyezsh/ui/menubar.py:197-216 | on macOS with the automatic application menu, the bar opens with the application menu offering the visible standard commands, and no other menu offers any of them |
| MenuBar.RebuildPlain | src/pyezsh/ui/menubar.py:207-216 | otherwise the bar is one dropdown per menu as given, in order |
| App.AddComponent | src/pyezsh/app/app.py:484-505 | ValueError exactly for a missing or already indexed id; otherwise the component is appended to the list and indexed by its id |
| App.RemoveComponent | src/pyezsh/app/app.py:510-528 | an unlisted component changes nothing; otherwise its first occurrence leaves the list |
| App.ClearComponents | src/pyezsh/app/app.py:532-541 | the list and both indexes end up empty |
| App.EmptyIndexed | src/pyezsh/app/app.py:170-172 | the empty index is consistent |
| App.AddKeepsIndexed | src/pyezsh/app/app.py:490-505 | a successful add keeps the list and both indexes consistent, makes the component findable by id, and puts it last under its name |
| App.RemoveKeepsIndexed | src/pyezsh/app/app.py:510-528 | a removal keeps the index consistent and forgets the component's id |
| App.AddThenRemove | src/pyezsh/app/app.py:484-528 | adding a component and removing it again restores the index |
| App.Lookups | src/pyezsh/app/app.py:563-581 | on a consistent index, lookup by id finds the listed component with that id, and lookup by name gives that name's components in list order, the first being the single lookup's answer |
| App.FitAxis | src/pyezsh/app/app.py:595-599 | a requested size kept between 1 and the screen size |
| App.Offset | src/pyezsh/app/app.py:601-602 | a non-negative offset that centres the window, rounding down |
| App.ApplyGeometry | src/pyezsh/app/app.py:587-604 | with no size requested the window fills the screen; otherwise a missing size defaults to the screen's and each is fitted; the offsets centre it |
| App.RouteEvent | src/pyezsh/app/app.py:378-404 | the app's mode is copied into the router, and the result is `"break"` exactly when a command ran, `""` otherwise |
| App.RouteEventBreaksIffHandled | src/pyezsh/app/app.py:385-392 | the event is consumed exactly when routing handled it |
| App.RouteEventSwallowsErrors | src/pyezsh/app/app.py:393-404 | a registry error never escapes: the result is `""` and nothing ran |
| MainLayout.Clamp | src/pyezsh/ui/mainlayout.py:290-295 | `lo` below the range, `hi` above it, the value otherwise; within `[lo, hi]` whenever `lo <= hi` |
| MainLayout.ClampMonotone | src/pyezsh/ui/mainlayout.py:290-295 | clamping preserves order |
| MainLayout.Mount | src/pyezsh/ui/mainlayout.py:109-111 | the properties row starts at the larger of its minimum and the configured height |
| MainLayout.PropsHeightNow | src/pyezsh/ui/mainlayout.py:255-277 | unmounted (no container, no frame), the minimum; mounted, a positive row size wins, otherwise the frame's height when it is above 1, else the minimum |
| MainLayout.StartDrag | src/pyezsh/ui/mainlayout.py:189-204 | the splitter, cursor and current sizes are remembered and no size changes |
| MainLayout.StopDrag | src/pyezsh/ui/mainlayout.py:209-213 | no drag is active afterwards and nothing else changes |
| MainLayout.MaxPropsHeight | src/pyezsh/ui/mainlayout.py:248 | never below the minimum: the room left by telemetry and splitter, or the minimum |
| MainLayout.SetSidebarWidth | src/pyezsh/ui/mainlayout.py:151-155 | ignored until mounted; otherwise the width is stored as given and nothing else changes |
| MainLayout.SetRightWidth | src/pyezsh/ui/mainlayout.py:157-161 | ignored until mounted; otherwise the width is stored as given and nothing else changes |
| MainLayout.SettersLastWins | src/pyezsh/ui/mainlayout.py:151-161 | a second set overrides the first, and the two widths are independent |
| MainLayout.SettersDoNotClamp | src/pyezsh/ui/mainlayout.py:151-161 | unlike a drag, the setters keep widths beyond the maximum |
| MainLayout.OnDrag | src/pyezsh/ui/mainlayout.py:215-217 | unmounted or without a drag nothing happens |
| MainLayout.LeftDrag | src/pyezsh/ui/mainlayout.py:222-227 | the sidebar takes the start width moved by the cursor, kept within its limits; nothing else changes |
| MainLayout.LeftDragFollows | src/pyezsh/ui/mainlayout.py:222-227 | moving the cursor right never narrows the sidebar |
| MainLayout.RightDragOpposite | src/pyezsh/ui/mainlayout.py:229-234 | the right pane takes the start width less the cursor's movement, kept within its limits, so moving the cursor right never widens it; nothing else changes |
| MainLayout.HorizontalDrag | src/pyezsh/ui/mainlayout.py:236-253 | nothing happens in a stack at most 1 pixel high; otherwise the properties row takes the start height moved by the cursor, kept between its minimum and the room left, and nothing else changes |
| MainLayout.DragBackRestores | src/pyezsh/ui/mainlayout.py:189-234 | dragging back to the start point restores sizes that were within the limits |
| MainLayout.StoppedDragIgnoresMotion | src/pyezsh/ui/mainlayout.py:209-217 | after the drag stops, cursor motion changes nothing |
| Sidebar.WithoutDotfiles | src/pyezsh/ui/sidebar_treeview.py:126-136 | no entry starts with `"."`, every entry comes from the listing, and every other child is kept |
| Sidebar.Slice | src/pyezsh/ui/sidebar_treeview.py:141-142 | Python's `items[:n]` is a prefix |
| Sidebar.KeyLeOrders | src/pyezsh/ui/sidebar_treeview.py:139 | the sort key (directories first, then lower-cased name) is a total preorder |
| Sidebar.FailedListingIsEmpty | src/pyezsh/ui/sidebar_treeview.py:130-133 | a listing that raises gives no entries |
| Sidebar.ListingOrdered | src/pyezsh/ui/sidebar_treeview.py:129-144 | a prefix of the sorted, filtered children: no dot-file when hidden, directories before files, and names in case-insensitive order within each group |
| Sidebar.ListingCapped | src/pyezsh/ui/sidebar_treeview.py:141-144 | a positive cap bounds the result and is reached when there are more children; without truncation the result is a permutation of the shown children; every entry comes from the listing |
| Status.PutLookup | src/pyezsh/services/status.py:99-100 | the section holds the new value, every other section keeps its own, and a new section goes last |
| Status.InitialState | src/pyezsh/services/status.py:56-60 | a fresh service has empty left, middle and right sections and empty last key sequence and command id |
| Status.Notify | src/pyezsh/services/status.py:143-148 | the callback, if any, receives the current snapshot once; nothing else changes |
| Status.AttachSink | src/pyezsh/services/status.py:70-75 | the sink is stored and the sections are unchanged; attaching none pushes nothing |
| Status.SetOnChange | src/pyezsh/services/status.py:77-83 | the callback is stored and, if present, called once with the current snapshot |
| Status.SetEffects | src/pyezsh/services/status.py:99-103 | only the named section changes; the sink gets the pair, then the callback a snapshot that already shows it |
| Status.SettersAgree | src/pyezsh/services/status.py:105-123 | `set_left`, `set_middle`, `set_right` and `clear` target their section or value; the last-seen setters change only their field and notify |
| Status.PublishNonEmpty | src/pyezsh/services/status.py:129-141 | the sink receives exactly the non-empty sections, in order |
| Status.AttachToFresh | src/pyezsh/services/status.py:56-75 | attaching a sink to a fresh service pushes nothing |
| Status.AttachSinkPushes | src/pyezsh/services/status.py:70-75 | attaching appends one push per non-empty section, after what was recorded |

## Left out

- Tk and Tcl: widget construction, `bind_all` and `bind_class`, menu cascades as widgets, the macOS `tk::mac::Quit` hook, debug key traps, scrolling and the mouse wheel. These are calls into a foreign toolkit. The menu bar's output is modelled as a value (`MenuBar.Entry`, `MenuBar.TopMenu`).
- Component `mount`, `layout`, `redraw` and `destroy`, which are toolkit calls. The index is modelled without them.
- `App.set_mode` and `App.set_focused_component_id`, which only write the application's state dictionary. `_route_keyseq` reads the mode from that dictionary, and the model takes it from the context.
- `_mac_quit`, which routes `<Command-q>` through `_route_keyseq`. It is an instance of `App.RouteEvent`.
- The menu bar's `_ctx`, `_get_registry` and `_invoke` (dispatch through an invoker or the application), and `_rebuild`'s early return when the bar is not mounted. The registry and context are parameters, and `MenuBar.Rebuild` describes a mounted bar.
- The joined menu path string. The path is kept as the list of labels that the code joins with `" > "`.
- The `cmd is None` test in `_populate_dropdown`. `get` raises rather than returning `None`, so the test cannot fire.
- Handler effects: the about and preferences dialogs, and quitting the application. A handler is a name, and execution yields the `Call` record.
- Predicate exceptions. The code does not guard them. Visibility and enablement are total functions of the context, so the "enablement check raises" branch of `_populate_dropdown` cannot occur.
- Python truthiness of a sink, a callback or a keymap object. These are modelled as presence.
- The `TypeError` that `App.__init__` meets when it passes `telemetry=` to `KeyRouter`. `Startup` models only the command and keymap wiring before that call.
- Telemetry and logging. These cover wall-clock time and sink plumbing, and the router emits none.
- The `int(px)` conversion in `set_sidebar_width` and `set_right_width`. Widths are integers in the model, so the conversion is the identity.
- Unicode. `strip`, `upper`, `lower` and whitespace are ASCII; Python's `str.isspace` is restricted to ASCII characters.
- The directory read of the sidebar, and path resolution against the working or home directory. The listing is a parameter: the children as (name, is-directory) pairs, or nothing when the read raised.
- Sorting.SortBy: stability is not stated. Stability matters only for sidebar children whose names differ in case alone.
- Keys.BindAll: its own contract states only that commands are unchanged. What happens to the index is stated by the `BindAll…` lemmas listed above.
- MainLayout.OnDrag: its own contract states only the no-op case. The three drag directions are stated by `LeftDrag`, `RightDragOpposite` and `HorizontalDrag`.

=== FILE: app.dfy ===
/** The Tk-free decisions of the `App` window: the index of top-level
    components by id and by name, the window geometry computed from the
    requested and screen sizes, and the event disposition of routed key
    sequences. */
module App {
  import opened Base
  import opened Commands
  import opened KeyRouter

  // ---------------------------------------------------------------------
  // Component index
  // ---------------------------------------------------------------------

  /** A top-level component as the index sees it. `handle` abstracts what
      distinguishes one component from another for the application: a
      dataclass compares its fields, and mounted components differ in their
      parent or root. `id` and `name` are the component's attributes. */
  datatype Component = Component(handle: nat, id: Option<string>, name: Option<string>)

  /** `components`, `_components_by_id` and `_components_by_name`. */
  datatype Components = Components(
    list: seq<Component>,
    byId: map<string, Component>,
    byName: map<string, seq<Component>>)

  const NoComponents: Components := Components([], map[], map[])

  /** The listed components carrying `name`, in list order. */
  function Named(xs: seq<Component>, name: string): seq<Component> {
    if |xs| == 0 then []
    else (if xs[0].name == Some(name) then [xs[0]] else []) + Named(xs[1..], name)
  }

  predicate Distinct(xs: seq<Component>) {
    forall i, j :: 0 <= i < j < |xs| ==> xs[i] != xs[j]
  }

  /** The index invariant: every listed component is listed once and is
      indexed under its id, the id index holds nothing else, and each name
      maps to the non-empty list of that name's components in list order. */
  ghost predicate Indexed(s: Components) {
    Distinct(s.list) && IdsIndexed(s) && NamesIndexed(s)
  }

  ghost predicate IdsIndexed(s: Components) {
    && (forall c :: c in s.list ==> c.id.Some? && c.id.value in s.byId && s.byId[c.id.value] == c)
    && (forall id :: id in s.byId ==> s.byId[id] in s.list && s.byId[id].id == Some(id))
  }

  ghost predicate NamesIndexed(s: Components) {
    && (forall n :: n in s.byName <==> Named(s.list, n) != [])
    && (forall n :: n in s.byName ==> s.byName[n] == Named(s.list, n))
  }

  /** `add_component`: a component without an id, or whose id is already
      indexed, raises ValueError and changes nothing; otherwise it is
      appended and indexed. (Mounting and laying it out is left to Tk.) */
  function AddComponent(s: Components, c: Component): (r: Result<Components>)
    ensures r.Err? <==> c.id.None? || c.id.value in s.byId
    ensures r.Err? ==> r.error == ValueError
    ensures r.Ok? ==> r.value.list == s.list + [c] && r.value.byId == s.byId[c.id.value := c]
  {
    match c.id
    case None => Err(ValueError)
    case Some(id) =>
      if id in s.byId then Err(ValueError)
      else
        var byName := match c.name
          case None => s.byName
          case Some(n) => s.byName[n := (if n in s.byName then s.byName[n] else []) + [c]];
        Ok(Components(s.list + [c], s.byId[id := c], byName))
  }

  /** `list.remove`: drops the first occurrence, if any. */
  function RemoveFirst(xs: seq<Component>, x: Component): seq<Component> {
    if |xs| == 0 then []
    else if xs[0] == x then xs[1..]
    else [xs[0]] + RemoveFirst(xs[1..], x)
  }

  /** `remove_component`: an unlisted component is ignored; otherwise it
      leaves the list, the id index and its name's list, and a name whose
      list becomes empty leaves the name index. (Destroying the component
      and re-laying out the others is left to Tk.) */
  function RemoveComponent(s: Components, c: Component): (r: Components)
    ensures c !in s.list ==> r == s
    ensures c in s.list ==> r.list == RemoveFirst(s.list, c)
  {
    if c !in s.list then s
    else
      var byId := match c.id case None => s.byId case Some(id) => s.byId - {id};
      var byName := match c.name
        case None => s.byName
        case Some(n) =>
          var items := if n in s.byName then s.byName[n] else [];
          if c !in items then s.byName
          else
            var rest := RemoveFirst(items, c);
            if rest == [] then s.byName - {n} else s.byName[n := rest];
      Components(RemoveFirst(s.list, c), byId, byName)
  }

  /** `clear_components`: the list and both indexes end up empty. */
  function ClearComponents(s: Components): (r: Components)
    ensures r.list == [] && r.byId == map[] && r.byName == map[]
    ensures Indexed(r)
  {
    NoComponents
  }

  /** `get_component`. */
  function GetComponent(s: Components, id: string): Option<Component> {
    if id in s.byId then Some(s.byId[id]) else None
  }

  /** `find_components_by_name`. */
  function FindComponents(s: Components, name: string): seq<Component> {
    if name in s.byName then s.byName[name] else []
  }

  /** `find_component_by_name`: the first of them, if any. */
  function FindComponent(s: Components, name: string): Option<Component> {
    var items := FindComponents(s, name);
    if |items| > 0 then Some(items[0]) else None
  }

  /** A component is in its name's list exactly when it is listed. */
  lemma {:induction false} NamedMembers(xs: seq<Component>, name: string)
    ensures forall c :: c in Named(xs, name) <==> c in xs && c.name == Some(name)
  {
    if |xs| > 0 {
      NamedMembers(xs[1..], name);
      assert forall c :: c in xs <==> c == xs[0] || c in xs[1..];
    }
  }

  lemma {:induction false} NamedAppend(xs: seq<Component>, ys: seq<Component>, name: string)
    ensures Named(xs + ys, name) == Named(xs, name) + Named(ys, name)
  {
    if |xs| > 0 {
      assert (xs + ys)[0] == xs[0];
      assert (xs + ys)[1..] == xs[1..] + ys;
      NamedAppend(xs[1..], ys, name);
      var h := if xs[0].name == Some(name) then [xs[0]] else [];
      assert Named(xs + ys, name) == h + (Named(xs[1..], name) + Named(ys, name));
      assert h + (Named(xs[1..], name) + Named(ys, name)) == (h + Named(xs[1..], name)) + Named(ys, name);
    } else {
      assert xs + ys == ys;
    }
  }

  /** Removing a component from the list removes it from its name's list
      and from no other. */
  lemma {:induction false} NamedRemove(xs: seq<Component>, c: Component, name: string)
    ensures Named(RemoveFirst(xs, c), name) ==
      if c.name == Some(name) then RemoveFirst(Named(xs, name), c) else Named(xs, name)
  {
    if |xs| > 0 {
      var h := if xs[0].name == Some(name) then [xs[0]] else [];
      assert Named(xs, name) == h + Named(xs[1..], name);
      if xs[0] != c {
        NamedRemove(xs[1..], c, name);
        var tail := RemoveFirst(xs[1..], c);
        assert RemoveFirst(xs, c) == [xs[0]] + tail;
        assert ([xs[0]] + tail)[1..] == tail;
        if h != [] {
          assert (h + Named(xs[1..], name))[1..] == Named(xs[1..], name);
        } else {
          assert h + Named(xs[1..], name) == Named(xs[1..], name);
        }
      } else if h != [] {
        assert (h + Named(xs[1..], name))[1..] == Named(xs[1..], name);
      } else {
        assert h + Named(xs[1..], name) == Named(xs[1..], name);
      }
    }
  }

  lemma DistinctTail(xs: seq<Component>)
    requires Distinct(xs) && |xs| > 0
    ensures Distinct(xs[1..])
    ensures xs[0] !in xs[1..]
  {
    forall i, j | 0 <= i < j < |xs[1..]| ensures xs[1..][i] != xs[1..][j] {
      assert xs[1..][i] == xs[i + 1] && xs[1..][j] == xs[j + 1];
    }
    forall j | 0 <= j < |xs[1..]| ensures xs[1..][j] != xs[0] {
      assert xs[1..][j] == xs[j + 1];
    }
  }

  /** On a list without repetitions, removal takes out exactly the one
      component and keeps the list free of repetitions. */
  lemma {:induction false} RemoveFirstDistinct(xs: seq<Component>, c: Component)
    requires Distinct(xs)
    ensures Distinct(RemoveFirst(xs, c))
    ensures forall y :: y in RemoveFirst(xs, c) <==> y in xs && y != c
  {
    if |xs| > 0 {
      DistinctTail(xs);
      RemoveFirstDistinct(xs[1..], c);
      assert forall y :: y in xs <==> y == xs[0] || y in xs[1..];
      if xs[0] != c {
        var tail := RemoveFirst(xs[1..], c);
        var r := [xs[0]] + tail;
        assert RemoveFirst(xs, c) == r;
        forall i, j | 0 <= i < j < |r| ensures r[i] != r[j] {
          assert r[j] == tail[j - 1];
          if i > 0 {
            assert r[i] == tail[i - 1];
          } else {
            assert r[j] in tail;
          }
        }
        assert forall y :: y in r <==> y == xs[0] || y in tail;
      }
    }
  }

  lemma EmptyIndexed()
    ensures Indexed(NoComponents)
  {
  }

  /** A successful add keeps the index consistent, and the new component
      is found by its id and ends its name's list. */
  lemma AddKeepsIndexed(s: Components, c: Component)
    requires Indexed(s)
    requires AddComponent(s, c).Ok?
    ensures Indexed(AddComponent(s, c).value)
    ensures GetComponent(AddComponent(s, c).value, c.id.value) == Some(c)
    ensures c.name.Some? ==>
      FindComponents(AddComponent(s, c).value, c.name.value) == FindComponents(s, c.name.value) + [c]
  {
    var r := AddComponent(s, c).value;
    assert c !in s.list;
    forall i, j | 0 <= i < j < |r.list| ensures r.list[i] != r.list[j] {
      if j == |s.list| { assert r.list[i] == s.list[i]; }
      else { assert r.list[i] == s.list[i] && r.list[j] == s.list[j]; }
    }
    AddKeepsIds(s, c);
    AddKeepsNames(s, c);
  }

  lemma AddKeepsIds(s: Components, c: Component)
    requires IdsIndexed(s)
    requires AddComponent(s, c).Ok?
    ensures IdsIndexed(AddComponent(s, c).value)
  {
    var r := AddComponent(s, c).value;
    assert c !in s.list;
    assert forall x :: x in r.list <==> x in s.list || x == c;
    forall x | x in r.list ensures x.id.Some? && x.id.value in r.byId && r.byId[x.id.value] == x {
      if x != c { assert x.id.value != c.id.value; }
    }
  }

  lemma AddKeepsNames(s: Components, c: Component)
    requires NamesIndexed(s)
    requires AddComponent(s, c).Ok?
    ensures NamesIndexed(AddComponent(s, c).value)
  {
    var r := AddComponent(s, c).value;
    forall n ensures Named(r.list, n) == Named(s.list, n) + (if c.name == Some(n) then [c] else []) {
      NamedAppend(s.list, [c], n);
      assert Named([c], n) == (if c.name == Some(n) then [c] else []) + Named([c][1..], n);
      assert [c][1..] == [];
    }
    forall n ensures n in r.byName <==> Named(r.list, n) != [] { }
    forall n | n in r.byName ensures r.byName[n] == Named(r.list, n) {
      if c.name == Some(n) {
        var before := if n in s.byName then s.byName[n] else [];
        assert before == Named(s.list, n);
        assert r.byName[n] == before + [c];
      } else {
        assert r.byName[n] == s.byName[n];
      }
    }
  }

  /** A removal keeps the index consistent and forgets the component's id. */
  lemma RemoveKeepsIndexed(s: Components, c: Component)
    requires Indexed(s)
    ensures Indexed(RemoveComponent(s, c))
    ensures c in s.list ==> GetComponent(RemoveComponent(s, c), c.id.value) == None
    ensures forall n :: FindComponents(RemoveComponent(s, c), n) == Named(RemoveFirst(s.list, c), n)
  {
    var r := RemoveComponent(s, c);
    RemoveFirstDistinct(s.list, c);
    if c in s.list {
      var id := c.id.value;
      assert r.byId == s.byId - {id};
      forall x | x in r.list ensures x.id.Some? && x.id.value in r.byId && r.byId[x.id.value] == x {
        assert x in s.list && x != c;
      }
      forall k | k in r.byId ensures r.byId[k] in r.list && r.byId[k].id == Some(k) {
        assert k != id;
      }
      NamesAfterRemove(s, c);
    } else {
      RemoveFirstAbsent(s.list, c);
    }
  }

  lemma {:induction false} RemoveFirstAbsent(xs: seq<Component>, c: Component)
    requires c !in xs
    ensures RemoveFirst(xs, c) == xs
  {
    if |xs| > 0 {
      RemoveFirstAbsent(xs[1..], c);
    }
  }

  /** The name index after a removal of a listed component. */
  lemma NamesAfterRemove(s: Components, c: Component)
    requires NamesIndexed(s) && c in s.list
    ensures NamesIndexed(RemoveComponent(s, c))
  {
    var r := RemoveComponent(s, c);
    forall n ensures Named(r.list, n) ==
      if c.name == Some(n) then RemoveFirst(Named(s.list, n), c) else Named(s.list, n)
    {
      NamedRemove(s.list, c, n);
    }
    if c.name.Some? {
      NamesAfterRemoveNamed(s, c);
    } else {
      assert r.byName == s.byName;
    }
  }

  /** The removal of a named component: only its name's entry changes. */
  lemma NamesAfterRemoveNamed(s: Components, c: Component)
    requires NamesIndexed(s) && c in s.list && c.name.Some?
    requires forall n :: (Named(RemoveComponent(s, c).list, n) ==
      if c.name == Some(n) then RemoveFirst(Named(s.list, n), c) else Named(s.list, n))
    ensures NamesIndexed(RemoveComponent(s, c))
  {
    var r := RemoveComponent(s, c);
    var m := c.name.value;
    NamedMembers(s.list, m);
    assert c in Named(s.list, m);
    assert m in s.byName;
    var rest := RemoveFirst(s.byName[m], c);
    assert r.byName == if rest == [] then s.byName - {m} else s.byName[m := rest];
    assert Named(r.list, m) == rest;
    NamesAfterRemoveOthers(s, r, m, rest);
  }

  /** An index whose entry for `m` alone is replaced by the new `Named`
      list (or dropped when it empties) matches the new list. */
  lemma NamesAfterRemoveOthers(s: Components, r: Components, m: string, rest: seq<Component>)
    requires NamesIndexed(s)
    requires r.byName == if rest == [] then s.byName - {m} else s.byName[m := rest]
    requires Named(r.list, m) == rest
    requires forall n :: n != m ==> Named(r.list, n) == Named(s.list, n)
    ensures NamesIndexed(r)
  {
    forall n ensures n in r.byName <==> Named(r.list, n) != [] {
      if n != m {
        assert n in r.byName <==> n in s.byName;
      }
    }
    forall n | n in r.byName ensures r.byName[n] == Named(r.list, n) {
      if n != m {
        assert r.byName[n] == s.byName[n];
      }
    }
  }

  /** Adding a component and removing it again restores the index. */
  lemma AddThenRemove(s: Components, c: Component)
    requires Indexed(s)
    requires AddComponent(s, c).Ok?
    ensures RemoveComponent(AddComponent(s, c).value, c) == s
  {
    var r := AddComponent(s, c).value;
    assert c !in s.list;
    var back := RemoveComponent(r, c);
    RemoveFirstAppended(s.list, c);
    assert back.list == s.list;
    assert back.byId == s.byId;
    AddThenRemoveNames(s, c);
  }

  lemma AddThenRemoveNames(s: Components, c: Component)
    requires Indexed(s)
    requires AddComponent(s, c).Ok?
    ensures RemoveComponent(AddComponent(s, c).value, c).byName == s.byName
  {
    var r := AddComponent(s, c).value;
    assert c !in s.list && c in r.list;
    if c.name.Some? {
      var n := c.name.value;
      var before := if n in s.byName then s.byName[n] else [];
      NamedMembers(s.list, n);
      assert c !in before;
      RemoveFirstAppended(before, c);
      assert r.byName[n] == before + [c];
      if before == [] {
        assert r.byName - {n} == s.byName;
      } else {
        assert r.byName[n := before] == s.byName;
      }
    }
  }

  lemma {:induction false} RemoveFirstAppended(xs: seq<Component>, c: Component)
    requires c !in xs
    ensures RemoveFirst(xs + [c], c) == xs
  {
    if |xs| > 0 {
      assert (xs + [c])[0] == xs[0];
      assert (xs + [c])[1..] == xs[1..] + [c];
      RemoveFirstAppended(xs[1..], c);
    } else {
      assert xs + [c] == [c];
    }
  }

  /** Lookups on a consistent index: by id, the listed component carrying
      that id; by name, that name's components in list order, the first of
      them for the single lookup. */
  lemma Lookups(s: Components, id: string, name: string)
    requires Indexed(s)
    ensures forall c :: GetComponent(s, id) == Some(c) <==> c in s.list && c.id == Some(id)
    ensures FindComponents(s, name) == Named(s.list, name)
    ensures FindComponent(s, name) == if Named(s.list, name) == [] then None else Some(Named(s.list, name)[0])
  {
  }

  // ---------------------------------------------------------------------
  // Window geometry
  // ---------------------------------------------------------------------

  /** A window size and its top-left offset on the screen. */
  datatype Geometry = Geometry(width: int, height: int, x: int, y: int)

  function Max(a: int, b: int): int { if a >= b then a else b }
  function Min(a: int, b: int): int { if a <= b then a else b }

  /** One axis of `_apply_geometry`: a request clamped to at least 1 and at
      most the screen. */
  function FitAxis(requested: int, screen: int): (n: int)
    ensures n >= 1
    ensures screen >= 1 ==> n <= screen
    ensures 1 <= requested <= screen ==> n == requested
    ensures requested > screen >= 1 ==> n == screen
    ensures requested < 1 ==> n == 1
  {
    Max(1, Min(requested, screen))
  }

  /** The centring offset; Python's `//` floors, as Dafny's `/` does for a
      positive divisor. */
  function Offset(screen: int, size: int): (o: int)
    ensures o >= 0
    ensures size <= screen ==> 2 * o <= screen - size <= 2 * o + 1
    ensures size >= screen ==> o == 0
  {
    Max(0, (screen - size) / 2)
  }

  /** `_apply_geometry`: with neither size requested the window fills the
      screen; otherwise a missing request stands for the screen size. */
  function ApplyGeometry(width: Option<int>, height: Option<int>, screenW: int, screenH: int): (g: Geometry)
    ensures width.None? && height.None? ==> g.width == screenW && g.height == screenH
    ensures !(width.None? && height.None?) ==>
      && g.width == FitAxis(if width.Some? then width.value else screenW, screenW)
      && g.height == FitAxis(if height.Some? then height.value else screenH, screenH)
    ensures g.x == Offset(screenW, g.width) && g.y == Offset(screenH, g.height)
  {
    var w := if width.None? && height.None? then screenW
      else FitAxis(match width case Some(v) => v case None => screenW, screenW);
    var h := if width.None? && height.None? then screenH
      else FitAxis(match height case Some(v) => v case None => screenH, screenH);
    Geometry(w, h, Offset(screenW, w), Offset(screenH, h))
  }

  /** On a real screen the window always fits and is centred. */
  lemma GeometryFits(width: Option<int>, height: Option<int>, screenW: int, screenH: int)
    requires screenW >= 1 && screenH >= 1
    ensures var g := ApplyGeometry(width, height, screenW, screenH);
      && 1 <= g.width <= screenW && 1 <= g.height <= screenH
      && 0 <= g.x && g.x + g.width <= screenW && 0 <= g.y && g.y + g.height <= screenH
      && g.x == (screenW - g.width) / 2 && g.y == (screenH - g.height) / 2
  {
  }

  // ---------------------------------------------------------------------
  // Key routing disposition
  // ---------------------------------------------------------------------

  /** The outcome of one routed key event: the router after the mode copy,
      the Tk disposition, and the handler call made, if any. */
  datatype Dispatch = Dispatch(router: Router, disposition: string, call: Option<Call>)

  /** `_route_keyseq`: the app's `state["mode"]` is copied into the router,
      the key sequence is routed with a context over the app's state, and
      the event is consumed ("break") exactly when a command ran; no id and
      any exception both give "" (the exception is swallowed). */
  function RouteEvent(rt: Router, reg: Registry, app: Context, keyseq: string): (d: Dispatch)
    ensures d.router == SetMode(rt, if "mode" in app.state then Some(app.state["mode"]) else None)
    ensures d.disposition == "break" || d.disposition == ""
    ensures d.disposition == "break" <==> d.call.Some?
  {
    var routed := SetMode(rt, if "mode" in app.state then Some(app.state["mode"]) else None);
    var ctx := Context(app.host, app.state, app.services, map[]);
    match RouteKeyseq(routed, reg, keyseq, ctx)
    case Err(_) => Dispatch(routed, "", None)
    case Ok(None) => Dispatch(routed, "", None)
    case Ok(Some(call)) => Dispatch(routed, "break", Some(call))
  }

  /** The event is consumed exactly when routing reports that it handled
      the sequence, and the call made is the registry's execution of the
      resolved id with visibility required. */
  lemma RouteEventBreaksIffHandled(rt: Router, reg: Registry, app: Context, keyseq: string)
    ensures var routed := SetMode(rt, if "mode" in app.state then Some(app.state["mode"]) else None);
      var ctx := Context(app.host, app.state, app.services, map[]);
      var d := RouteEvent(rt, reg, app, keyseq);
      && (d.disposition == "break" <==> RouteKeyseq(routed, reg, keyseq, ctx).Ok? && RouteKeyseq(routed, reg, keyseq, ctx).value.Some?)
      && (d.disposition == "break" ==>
            var id := ResolveCommandId(routed, keyseq).value;
            Execute(reg, id, ctx, true) == Ok(d.call.value))
  {
  }

  /** A registry error (unknown, hidden or disabled command) never reaches
      Tk: the event is simply not consumed. */
  lemma RouteEventSwallowsErrors(rt: Router, reg: Registry, app: Context, keyseq: string)
    requires var routed := SetMode(rt, if "mode" in app.state then Some(app.state["mode"]) else None);
      RouteKeyseq(routed, reg, keyseq, Context(app.host, app.state, app.services, map[])).Err?
    ensures RouteEvent(rt, reg, app, keyseq).disposition == ""
    ensures RouteEvent(rt, reg, app, keyseq).call == None
  {
  }
}

=== FILE: base.dfy ===
/** Failure-carrying wrappers shared by every part of the model.

    The application signals failure with Python exceptions. A query that can
    raise is modelled as a `Result`; an operation that mutates state and may
    raise half-way is modelled as an `Update`, which carries the state as it
    is when the exception leaves the operation together with the outcome.
 */
module Base {

  datatype Option<+T> = None | Some(value: T)

  /** The exception kinds the command spine raises, named as in the code. */
  datatype Error =
    | ValueError
    | TypeError
    | CommandNotFound
    | CommandAlreadyRegistered
    | ShortcutAlreadyBound
    | CommandNotEnabled
    | CommandNotVisible

  datatype Result<+T> = Ok(value: T) | Err(error: Error)

  /** Normal completion or an exception propagating out of an operation. */
  datatype Outcome = Done | Raised(error: Error)

  /** The state after a mutating operation, and how the operation ended. */
  datatype Update<+S> = Update(state: S, outcome: Outcome)
}

=== FILE: commands.dfy ===
/** The command spine of src/pyezsh/app/commands.py: shortcut
    normalisation, the `Command` record and the `CommandRegistry`, which
    keeps commands by id and an index from canonical shortcut to id. */
module Commands {
  import opened Base
  import opened Text
  import Sorting

  // ---------------------------------------------------------------------
  // Shortcut normalisation
  // ---------------------------------------------------------------------

  datatype Modifier = Ctrl | Alt | Shift | Cmd

  /** The modifier spellings both normalisers accept, already upper-cased. */
  function ModifierOf(up: string): Option<Modifier> {
    if up == "CONTROL" || up == "CTRL" then Some(Ctrl)
    else if up == "OPTION" || up == "ALT" then Some(Alt)
    else if up == "SHIFT" then Some(Shift)
    else if up == "COMMAND" || up == "CMD" || up == "META" then Some(Cmd)
    else None
  }

  function ModifierName(m: Modifier): string {
    match m
    case Ctrl => "CTRL"
    case Alt => "ALT"
    case Shift => "SHIFT"
    case Cmd => "CMD"
  }

  /** The fixed output order of modifiers. */
  const ModifierOrder: seq<Modifier> := [Ctrl, Alt, Shift, Cmd]

  /** The modifiers of `order` that are in `mods`, in the order of `order`. */
  function InOrder(order: seq<Modifier>, mods: set<Modifier>): (r: seq<Modifier>)
    ensures forall m :: m in r <==> m in order && m in mods
  {
    if |order| == 0 then []
    else (if order[0] in mods then [order[0]] else []) + InOrder(order[1..], mods)
  }

  function Names(ms: seq<Modifier>): (r: seq<string>)
    ensures |r| == |ms|
    ensures forall i :: 0 <= i < |ms| ==> r[i] == ModifierName(ms[i])
  {
    if |ms| == 0 then [] else [ModifierName(ms[0])] + Names(ms[1..])
  }

  /** The names of the modifiers present, each once, in the fixed order. */
  function OrderedNames(mods: set<Modifier>): seq<string> {
    Names(InOrder(ModifierOrder, mods))
  }

  /** A piece of a shortcut after splitting: non-empty, trimmed, and free of
      the separator it was split on. */
  predicate ValidPart(p: string, sep: char) {
    p != "" && Trimmed(p) && sep !in p
  }

  /** `[p.strip() for p in pieces if p.strip()]` */
  function KeepStripped(pieces: seq<string>, sep: char): (r: seq<string>)
    requires forall j :: 0 <= j < |pieces| ==> sep !in pieces[j]
    ensures |r| <= |pieces|
    ensures forall i :: 0 <= i < |r| ==> ValidPart(r[i], sep)
  {
    if |pieces| == 0 then []
    else
      var t := Trim(pieces[0]);
      var rest := KeepStripped(pieces[1..], sep);
      if t == "" then rest else [t] + rest
  }

  /** The stripped, non-empty pieces of `s` between occurrences of `sep`.
      For '+' this is what `re.split(r"\s*\+\s*", s)` followed by the same
      strip-and-drop produces: the regex only also eats whitespace that the
      strip removes anyway. */
  function Pieces(s: string, sep: char): (r: seq<string>)
    ensures forall i :: 0 <= i < |r| ==> ValidPart(r[i], sep)
  {
    KeepStripped(Split(s, sep), sep)
  }

  /** The upper-cased parts that are not modifier names, in input order. */
  function KeyTokens(parts: seq<string>): (r: seq<string>)
    ensures |r| <= |parts|
    ensures forall i :: 0 <= i < |r| ==> ModifierOf(r[i]).None?
    ensures forall i :: 0 <= i < |parts| && ModifierOf(Upper(parts[i])).None? ==> Upper(parts[i]) in r
    ensures forall t :: t in r ==> exists i :: 0 <= i < |parts| && t == Upper(parts[i])
    ensures |parts| == 1 ==> r == if ModifierOf(Upper(parts[0])).None? then [Upper(parts[0])] else []
  {
    if |parts| == 0 then []
    else
      var up := Upper(parts[0]);
      (if ModifierOf(up).None? then [up] else []) + KeyTokens(parts[1..])
  }

  /** The set of modifiers named by the parts. */
  function ModifiersOf(parts: seq<string>): (r: set<Modifier>)
    ensures forall m :: m in r <==> exists i :: 0 <= i < |parts| && ModifierOf(Upper(parts[i])) == Some(m)
  {
    if |parts| == 0 then {}
    else
      var up := Upper(parts[0]);
      var rest := ModifiersOf(parts[1..]);
      ModifierNamedInTail(parts);
      (if ModifierOf(up).Some? then {ModifierOf(up).value} else {}) + rest
  }

  /** A modifier is named in the parts after the first exactly when it is
      named at some index from 1 on. */
  lemma ModifierNamedInTail(parts: seq<string>)
    requires |parts| > 0
    ensures forall m :: ((exists i :: 0 <= i < |parts[1..]| && ModifierOf(Upper(parts[1..][i])) == Some(m))
      <==> (exists i :: 1 <= i < |parts| && ModifierOf(Upper(parts[i])) == Some(m)))
  {
    forall m ensures (exists i :: 0 <= i < |parts[1..]| && ModifierOf(Upper(parts[1..][i])) == Some(m))
      ==> (exists i :: 1 <= i < |parts| && ModifierOf(Upper(parts[i])) == Some(m)) {
      if i :| 0 <= i < |parts[1..]| && ModifierOf(Upper(parts[1..][i])) == Some(m) {
        assert parts[1..][i] == parts[i + 1];
      }
    }
    forall m ensures (exists i :: 1 <= i < |parts| && ModifierOf(Upper(parts[i])) == Some(m))
      ==> (exists i :: 0 <= i < |parts[1..]| && ModifierOf(Upper(parts[1..][i])) == Some(m)) {
      if i :| 1 <= i < |parts| && ModifierOf(Upper(parts[i])) == Some(m) {
        assert parts[1..][i - 1] == parts[i];
      }
    }
  }

  /** The canonical spelling `MOD+...+KEY` with modifiers in fixed order. */
  function Canonical(mods: set<Modifier>, key: string): string {
    Join(OrderedNames(mods) + [key], '+')
  }

  /** A token that can stand as the key of a canonical shortcut. */
  predicate CanonicalKey(key: string) {
    ValidPart(key, '+') && Upper(key) == key && ModifierOf(key).None?
  }

  /** The parts `normalize_shortcut` classifies. */
  function ShortcutParts(value: string): seq<string> {
    Pieces(Trim(value), '+')
  }

  /** Python `normalize_shortcut`; `value is None` is `NormalizeNullable`.
      Every failure is a ValueError, and it succeeds exactly when one part
      is not a modifier name. */
  function NormalizeShortcut(value: string): (r: Result<string>)
    ensures r.Err? ==> r.error == ValueError
    ensures r.Ok? <==> |KeyTokens(ShortcutParts(value))| == 1
    ensures r.Ok? ==> r.value == Canonical(ModifiersOf(ShortcutParts(value)), KeyTokens(ShortcutParts(value))[0])
  {
    var s := Trim(value);
    var parts := Pieces(s, '+');
    var keys := KeyTokens(parts);
    if |s| == 0 then
      assert |parts| == 0;
      Err(ValueError)
    else if |parts| == 0 then Err(ValueError)
    else if |keys| != 1 then Err(ValueError)
    else Ok(Canonical(ModifiersOf(parts), keys[0]))
  }

  function NormalizeNullable(value: Option<string>): (r: Result<string>)
    ensures value.None? ==> r == Err(ValueError)
    ensures value.Some? ==> r == NormalizeShortcut(value.value)
  {
    match value
    case None => Err(ValueError)
    case Some(v) => NormalizeShortcut(v)
  }

  // ---------------------------------------------------------------------
  // Properties of the normaliser
  // ---------------------------------------------------------------------

  lemma ModifierNameFacts(m: Modifier)
    ensures ValidPart(ModifierName(m), '+') && ValidPart(ModifierName(m), '-')
    ensures Upper(ModifierName(m)) == ModifierName(m)
    ensures ModifierOf(ModifierName(m)) == Some(m)
  {
    match m
    case Ctrl => assert Upper("CTRL") == "CTRL";
    case Alt => assert Upper("ALT") == "ALT";
    case Shift => assert Upper("SHIFT") == "SHIFT";
    case Cmd => assert Upper("CMD") == "CMD";
  }

  lemma {:induction false} JoinEnds(parts: seq<string>, sep: char)
    requires |parts| >= 1
    requires forall i :: 0 <= i < |parts| ==> parts[i] != ""
    ensures |Join(parts, sep)| > 0
    ensures Join(parts, sep)[0] == parts[0][0]
    ensures Join(parts, sep)[|Join(parts, sep)| - 1] == parts[|parts| - 1][|parts[|parts| - 1]| - 1]
  {
    if |parts| > 1 {
      var rest := Join(parts[1..], sep);
      assert parts[1..][0] == parts[1];
      assert parts[1..][|parts[1..]| - 1] == parts[|parts| - 1];
      JoinEnds(parts[1..], sep);
      var j := parts[0] + [sep] + rest;
      assert Join(parts, sep) == j;
      assert j[0] == parts[0][0];
      assert j[|j| - 1] == rest[|rest| - 1];
    }
  }

  lemma {:induction false} KeepStrippedValid(parts: seq<string>, sep: char)
    requires forall i :: 0 <= i < |parts| ==> ValidPart(parts[i], sep)
    requires forall i :: 0 <= i < |parts| ==> sep !in parts[i]
    ensures KeepStripped(parts, sep) == parts
  {
    if |parts| > 0 {
      var rest := parts[1..];
      ValidPartsTail(parts, sep);
      KeepStrippedValid(rest, sep);
      KeepStrippedHead(parts, sep);
      assert [parts[0]] + rest == parts;
    }
  }

  /** The pieces after a list of valid pieces' first are valid too. */
  lemma ValidPartsTail(parts: seq<string>, sep: char)
    requires |parts| > 0
    requires forall i :: 0 <= i < |parts| ==> ValidPart(parts[i], sep)
    requires forall i :: 0 <= i < |parts| ==> sep !in parts[i]
    ensures forall i :: 0 <= i < |parts[1..]| ==> ValidPart(parts[1..][i], sep)
    ensures forall i :: 0 <= i < |parts[1..]| ==> sep !in parts[1..][i]
  {
    forall i | 0 <= i < |parts[1..]| ensures ValidPart(parts[1..][i], sep) && sep !in parts[1..][i] {
      assert parts[1..][i] == parts[i + 1];
    }
  }

  /** A valid first piece is kept as it is. */
  lemma KeepStrippedHead(parts: seq<string>, sep: char)
    requires |parts| > 0 && ValidPart(parts[0], sep)
    requires forall i :: 0 <= i < |parts| ==> sep !in parts[i]
    ensures KeepStripped(parts, sep) == [parts[0]] + KeepStripped(parts[1..], sep)
  {
    assert Trim(parts[0]) == parts[0];
  }

  lemma {:induction false} KeyTokensAppend(a: seq<string>, b: seq<string>)
    ensures KeyTokens(a + b) == KeyTokens(a) + KeyTokens(b)
  {
    if |a| > 0 {
      assert (a + b)[1..] == a[1..] + b;
      KeyTokensAppend(a[1..], b);
    } else {
      assert a + b == b;
    }
  }

  lemma {:induction false} KeyTokensOfNames(ms: seq<Modifier>)
    ensures KeyTokens(Names(ms)) == []
  {
    if |ms| > 0 {
      ModifierNameFacts(ms[0]);
      assert Names(ms)[1..] == Names(ms[1..]);
      KeyTokensOfNames(ms[1..]);
    }
  }

  /** Every key token of well-formed parts can itself stand as a canonical key. */
  lemma {:induction false} KeyTokensCanonical(parts: seq<string>, sep: char)
    requires sep == '+' || sep == '-'
    requires forall i :: 0 <= i < |parts| ==> ValidPart(parts[i], sep)
    ensures forall i :: 0 <= i < |KeyTokens(parts)| ==>
      ValidPart(KeyTokens(parts)[i], sep) && Upper(KeyTokens(parts)[i]) == KeyTokens(parts)[i]
  {
    if |parts| > 0 {
      KeyTokensCanonical(parts[1..], sep);
      UpperFacts(parts[0]);
    }
  }

  /** A single modifier followed by a key. */
  lemma CanonicalSingle(m: Modifier, key: string)
    ensures Canonical({m}, key) == ModifierName(m) + "+" + key
  {
    var o := ModifierOrder;
    assert o[1..] == [Alt, Shift, Cmd] && o[2..] == [Shift, Cmd] && o[3..] == [Cmd] && o[4..] == [];
    assert InOrder(o[4..], {m}) == [];
    assert InOrder(o[3..], {m}) == if m == Cmd then [m] else [];
    assert InOrder(o[2..], {m}) == if m in {Shift, Cmd} then [m] else [];
    assert InOrder(o[1..], {m}) == if m != Ctrl then [m] else [];
    assert InOrder(o, {m}) == [m];
    assert Names([m]) == [ModifierName(m)];
    assert Join([ModifierName(m), key], '+') == ModifierName(m) + "+" + key;
  }

  /** The parts of a canonical string are its modifier names and its key. */
  lemma CanonicalParts(mods: set<Modifier>, key: string)
    requires CanonicalKey(key)
    ensures ShortcutParts(Canonical(mods, key)) == OrderedNames(mods) + [key]
  {
    var ms := InOrder(ModifierOrder, mods);
    var parts := OrderedNames(mods) + [key];
    var c := Join(parts, '+');
    forall i | 0 <= i < |parts| ensures ValidPart(parts[i], '+') {
      if i < |ms| { ModifierNameFacts(ms[i]); }
    }
    JoinEnds(parts, '+');
    assert Trim(c) == c;
    SplitJoin(parts, '+');
    KeepStrippedValid(parts, '+');
  }

  lemma ModifiersOfCanonicalParts(mods: set<Modifier>, key: string)
    requires CanonicalKey(key)
    ensures ModifiersOf(OrderedNames(mods) + [key]) == mods
  {
    var ms := InOrder(ModifierOrder, mods);
    var names := OrderedNames(mods);
    var parts := names + [key];
    forall m ensures m in ModifiersOf(parts) <==> m in mods {
      if m in mods {
        assert m in ModifierOrder by {
          match m
          case Ctrl => assert ModifierOrder[0] == m;
          case Alt => assert ModifierOrder[1] == m;
          case Shift => assert ModifierOrder[2] == m;
          case Cmd => assert ModifierOrder[3] == m;
        }
        var i :| 0 <= i < |ms| && ms[i] == m;
        ModifierNameFacts(m);
        assert ModifierOf(Upper(parts[i])) == Some(m);
      }
      if m in ModifiersOf(parts) {
        var i :| 0 <= i < |parts| && ModifierOf(Upper(parts[i])) == Some(m);
        if i < |names| {
          ModifierNameFacts(ms[i]);
          assert m == ms[i];
        }
      }
    }
  }

  /** A canonical string re-normalises to itself. */
  lemma CanonicalIsFixedPoint(mods: set<Modifier>, key: string)
    requires CanonicalKey(key)
    ensures NormalizeShortcut(Canonical(mods, key)) == Ok(Canonical(mods, key))
  {
    var names := OrderedNames(mods);
    CanonicalParts(mods, key);
    KeyTokensAppend(names, [key]);
    KeyTokensOfNames(InOrder(ModifierOrder, mods));
    assert KeyTokens([key]) == [key];
    ModifiersOfCanonicalParts(mods, key);
  }

  /** Normalising is idempotent: a canonical output normalises to itself. */
  lemma NormalizeIdempotent(value: string)
    requires NormalizeShortcut(value).Ok?
    ensures NormalizeShortcut(NormalizeShortcut(value).value) == NormalizeShortcut(value)
  {
    var parts := ShortcutParts(value);
    KeyTokensCanonical(parts, '+');
    CanonicalIsFixedPoint(ModifiersOf(parts), KeyTokens(parts)[0]);
  }

  // ---------------------------------------------------------------------
  // Commands
  // ---------------------------------------------------------------------

  /** The per-call bundle handed to predicates and handlers. The spine never
      looks inside it; the host decides what it holds. */
  datatype Context = Context(
    host: nat,
    state: map<string, string>,
    services: map<string, nat>,
    extra: map<string, string>)

  /** `enabled` / `visible`: a constant, or a total predicate over the context. */
  datatype Flag = Static(value: bool) | Dynamic(holds: Context -> bool)

  /** `_eval_predicate`: a constant as is, a predicate applied to the context. */
  function Eval(f: Flag, ctx: Context): bool {
    match f
    case Static(b) => b
    case Dynamic(p) => p(ctx)
  }

  /** A command. `title` is the code's `label` (a reserved word here); the
      handler is opaque and is named rather than run. */
  datatype Command = Command(
    id: string,
    title: string,
    handler: string,
    description: string,
    tags: seq<string>,
    shortcut: Option<string>,
    enabled: Flag,
    visible: Flag,
    order: int)

  /** The dataclass defaults: no description, tags or shortcut, always
      enabled and visible, order 1000. */
  function NewCommand(id: string, title: string, handler: string): (c: Command)
    ensures c.id == id && c.title == title && c.handler == handler
    ensures c.description == "" && c.tags == [] && c.shortcut == None
    ensures c.enabled == Static(true) && c.visible == Static(true)
    ensures forall ctx :: Eval(c.enabled, ctx) && Eval(c.visible, ctx)
    ensures c.order == 1000
  {
    Command(id, title, handler, "", [], None, Static(true), Static(true), 1000)
  }

  /** One invocation of a command's handler with a context. */
  datatype Call = Call(commandId: string, handler: string, ctx: Context)

  // ---------------------------------------------------------------------
  // Registry state
  // ---------------------------------------------------------------------

  /** `_commands` (with its insertion order in `ids`) and `_shortcuts`. */
  datatype Registry = Registry(
    commands: map<string, Command>,
    ids: seq<string>,
    shortcuts: map<string, string>)

  const EmptyRegistry: Registry := Registry(map[], [], map[])

  /** Ids are unique, non-empty and stored under their own command; the
      id list is the key set without repeats; every shortcut-index entry
      points at a registered command. */
  ghost predicate Valid(r: Registry) {
    && (forall id :: id in r.commands ==> id != "" && r.commands[id].id == id)
    && (forall i :: 0 <= i < |r.ids| ==> r.ids[i] in r.commands)
    && (forall id :: id in r.commands ==> id in r.ids)
    && (forall i, j :: 0 <= i < j < |r.ids| ==> r.ids[i] != r.ids[j])
    && (forall k :: k in r.shortcuts ==> r.shortcuts[k] in r.commands)
  }

  /** Every shortcut-index key is in canonical form. */
  ghost predicate CanonicalKeys(r: Registry) {
    forall k :: k in r.shortcuts ==> NormalizeShortcut(k) == Ok(k)
  }

  lemma EmptyRegistryValid()
    ensures Valid(EmptyRegistry) && CanonicalKeys(EmptyRegistry)
  {
  }

  /** `_remove_shortcut_bindings_for_command`. */
  function WithoutBindingsTo(shortcuts: map<string, string>, id: string): (m: map<string, string>)
    ensures forall k :: k in m <==> k in shortcuts && shortcuts[k] != id
    ensures forall k :: k in m ==> m[k] == shortcuts[k]
  {
    map k | k in shortcuts && shortcuts[k] != id :: shortcuts[k]
  }

  // ---------------------------------------------------------------------
  // Shortcuts
  // ---------------------------------------------------------------------

  /** `bind_shortcut`: the id is checked before the shortcut is parsed, and
      an existing key is refused without `replace` even if it already points
      at the same id. */
  function BindShortcut(r: Registry, shortcut: string, id: string, replace: bool): (u: Update<Registry>)
    ensures id !in r.commands ==> u == Update(r, Raised(CommandNotFound))
    ensures id in r.commands && NormalizeShortcut(shortcut).Err? ==> u == Update(r, Raised(ValueError))
    ensures id in r.commands && NormalizeShortcut(shortcut).Ok?
      && NormalizeShortcut(shortcut).value in r.shortcuts && !replace
      ==> u == Update(r, Raised(ShortcutAlreadyBound))
    ensures u.outcome.Done? <==> (id in r.commands && NormalizeShortcut(shortcut).Ok?
      && (replace || NormalizeShortcut(shortcut).value !in r.shortcuts))
    ensures u.outcome.Done? ==> ResolveShortcut(u.state, shortcut) == Ok(Some(id))
    ensures u.outcome.Done? ==> u.state.commands == r.commands && u.state.ids == r.ids
    ensures u.outcome.Done? ==> forall k :: k != NormalizeShortcut(shortcut).value ==>
      (k in u.state.shortcuts <==> k in r.shortcuts) && (k in r.shortcuts ==> u.state.shortcuts[k] == r.shortcuts[k])
  {
    if id !in r.commands then Update(r, Raised(CommandNotFound))
    else
      match NormalizeShortcut(shortcut)
      case Err(e) => Update(r, Raised(e))
      case Ok(key) =>
        if key in r.shortcuts && !replace then Update(r, Raised(ShortcutAlreadyBound))
        else Update(r.(shortcuts := r.shortcuts[key := id]), Done)
  }

  /** Binding keeps the registry well formed. */
  lemma BindShortcutValid(r: Registry, shortcut: string, id: string, replace: bool)
    ensures Valid(r) ==> Valid(BindShortcut(r, shortcut, id, replace).state)
  {
  }

  /** Binding files the shortcut under a key that is canonical, because
      normalising is idempotent. */
  lemma {:induction false} BindShortcutCanonical(r: Registry, shortcut: string, id: string, replace: bool)
    ensures CanonicalKeys(r) ==> CanonicalKeys(BindShortcut(r, shortcut, id, replace).state)
  {
    var u := BindShortcut(r, shortcut, id, replace);
    if CanonicalKeys(r) && u.outcome.Done? {
      NormalizeIdempotent(shortcut);
      var key := NormalizeShortcut(shortcut).value;
      assert u.state == r.(shortcuts := r.shortcuts[key := id]);
    }
  }

  /** `unbind_shortcut`: removes the canonical key if present. */
  function UnbindShortcut(r: Registry, shortcut: string): (u: Update<Registry>)
    ensures NormalizeShortcut(shortcut).Err? ==> u == Update(r, Raised(ValueError))
    ensures NormalizeShortcut(shortcut).Ok? ==> (
      && u.outcome.Done?
      && ResolveShortcut(u.state, shortcut) == Ok(None)
      && u.state.commands == r.commands && u.state.ids == r.ids
      && forall k :: k != NormalizeShortcut(shortcut).value ==>
        (k in u.state.shortcuts <==> k in r.shortcuts) && (k in r.shortcuts ==> u.state.shortcuts[k] == r.shortcuts[k]))
    ensures Valid(r) ==> Valid(u.state)
    ensures CanonicalKeys(r) ==> CanonicalKeys(u.state)
  {
    match NormalizeShortcut(shortcut)
    case Err(e) => Update(r, Raised(e))
    case Ok(key) => Update(r.(shortcuts := r.shortcuts - {key}), Done)
  }

  /** `resolve_shortcut`: normalise, then look up. */
  function ResolveShortcut(r: Registry, shortcut: string): (res: Result<Option<string>>)
    ensures NormalizeShortcut(shortcut).Err? <==> res == Err(ValueError)
    ensures res.Ok? && res.value.Some? ==> (NormalizeShortcut(shortcut).value in r.shortcuts
      && r.shortcuts[NormalizeShortcut(shortcut).value] == res.value.value)
    ensures res.Ok? && res.value.None? ==> NormalizeShortcut(shortcut).value !in r.shortcuts
  {
    match NormalizeShortcut(shortcut)
    case Err(e) => Err(e)
    case Ok(key) => Ok(if key in r.shortcuts then Some(r.shortcuts[key]) else None)
  }

  // ---------------------------------------------------------------------
  // Registration
  // ---------------------------------------------------------------------

  /** `register`. The command is stored before its default shortcut is
      bound, so a failing bind leaves it registered without that shortcut. */
  function Register(r: Registry, cmd: Command, replace: bool): (u: Update<Registry>)
    ensures cmd.id == "" ==> u == Update(r, Raised(ValueError))
    ensures cmd.id != "" && cmd.id in r.commands && !replace ==> u == Update(r, Raised(CommandAlreadyRegistered))
    ensures cmd.id != "" && (cmd.id !in r.commands || replace) ==>
      && u.state.commands == r.commands[cmd.id := cmd]
      && u.state.ids == (if cmd.id in r.commands then r.ids else r.ids + [cmd.id])
      && (u.outcome.Raised? ==> u.outcome.error in {ValueError, ShortcutAlreadyBound})
      && (u.outcome.Raised? ==> cmd.shortcut.Some? && cmd.shortcut.value != "")
    ensures u.outcome.Done? && cmd.shortcut.Some? && cmd.shortcut.value != "" ==>
      ResolveShortcut(u.state, cmd.shortcut.value) == Ok(Some(cmd.id))
    ensures u.outcome.Done? <==> (cmd.id != "" && (cmd.id !in r.commands || replace)
      && (cmd.shortcut.None? || cmd.shortcut.value == ""
          || (NormalizeShortcut(cmd.shortcut.value).Ok?
              && (replace || NormalizeShortcut(cmd.shortcut.value).value !in r.shortcuts))))
    ensures cmd.id != "" && (cmd.id !in r.commands || replace) && cmd.shortcut.Some? && cmd.shortcut.value != "" ==>
      && (u.outcome == Raised(ValueError) <==> NormalizeShortcut(cmd.shortcut.value).Err?)
      && (u.outcome == Raised(ShortcutAlreadyBound) <==> (!replace && NormalizeShortcut(cmd.shortcut.value).Ok?
          && NormalizeShortcut(cmd.shortcut.value).value in r.shortcuts))
    ensures cmd.id != "" && (cmd.id !in r.commands || replace) ==>
      forall k :: (u.outcome.Raised? || !FilesDefaultUnder(cmd, k)) ==>
        && (k in u.state.shortcuts <==> KeptOnStore(r, cmd, replace, k))
        && (k in u.state.shortcuts ==> u.state.shortcuts[k] == r.shortcuts[k])
  {
    if cmd.id == "" then Update(r, Raised(ValueError))
    else if cmd.id in r.commands && !replace then Update(r, Raised(CommandAlreadyRegistered))
    else
      var stored := Store(r, cmd, replace);
      if cmd.shortcut.Some? && cmd.shortcut.value != "" then
        BindShortcut(stored, cmd.shortcut.value, cmd.id, replace)
      else
        Update(stored, Done)
  }

  /** Registering without `replace` never changes a command already
      registered, and when it completes the new command is stored. */
  lemma RegisterKeepsOthers(r: Registry, cmd: Command)
    ensures var u := Register(r, cmd, false);
      && (forall id :: id in r.commands ==> id in u.state.commands && u.state.commands[id] == r.commands[id])
      && (u.outcome.Done? ==> cmd.id in u.state.commands && u.state.commands[cmd.id] == cmd)
  {
  }

  /** The index key the command's non-empty default shortcut files under. */
  predicate FilesDefaultUnder(cmd: Command, k: string) {
    cmd.shortcut.Some? && cmd.shortcut.value != "" && NormalizeShortcut(cmd.shortcut.value) == Ok(k)
  }

  /** An index entry that survives the storing step of `register`: with
      `replace`, the entries pointing at the re-registered id are dropped. */
  predicate KeptOnStore(r: Registry, cmd: Command, replace: bool, k: string) {
    k in r.shortcuts && !(replace && cmd.id in r.commands && r.shortcuts[k] == cmd.id)
  }

  /** Re-registering with `replace` drops every shortcut of the old command:
      afterwards only the new default shortcut can point at the id. */
  lemma RegisterReplaceDropsOld(r: Registry, cmd: Command)
    requires cmd.id != "" && cmd.id in r.commands
    ensures forall k :: k in Register(r, cmd, true).state.shortcuts && Register(r, cmd, true).state.shortcuts[k] == cmd.id ==>
      cmd.shortcut.Some? && NormalizeShortcut(cmd.shortcut.value) == Ok(k)
  {
  }

  /** Registering keeps the registry well formed and its keys canonical. */
  lemma RegisterValid(r: Registry, cmd: Command, replace: bool)
    ensures Valid(r) ==> Valid(Register(r, cmd, replace).state)
    ensures CanonicalKeys(r) ==> CanonicalKeys(Register(r, cmd, replace).state)
  {
    if cmd.id != "" && (cmd.id !in r.commands || replace) && cmd.shortcut.Some? && cmd.shortcut.value != "" {
      var stored := Store(r, cmd, replace);
      BindShortcutValid(stored, cmd.shortcut.value, cmd.id, replace);
      BindShortcutCanonical(stored, cmd.shortcut.value, cmd.id, replace);
    }
  }

  /** The first half of `register`: with `replace`, drop the old command's
      shortcuts; then store the command, keeping an existing id's position. */
  function Store(r: Registry, cmd: Command, replace: bool): (s: Registry)
    requires cmd.id != ""
    ensures s.commands == r.commands[cmd.id := cmd]
    ensures forall k :: k in s.shortcuts <==>
      k in r.shortcuts && !(replace && cmd.id in r.commands && r.shortcuts[k] == cmd.id)
    ensures forall k :: k in s.shortcuts ==> s.shortcuts[k] == r.shortcuts[k]
    ensures Valid(r) ==> forall x :: x in s.ids <==> x in r.ids || x == cmd.id
    ensures s.ids == if cmd.id in r.commands then r.ids else r.ids + [cmd.id]
    ensures Valid(r) ==> Valid(s)
    ensures CanonicalKeys(r) ==> CanonicalKeys(s)
  {
    var shortcuts := if replace && cmd.id in r.commands then WithoutBindingsTo(r.shortcuts, cmd.id) else r.shortcuts;
    var ids := if cmd.id in r.commands then r.ids else r.ids + [cmd.id];
    Registry(r.commands[cmd.id := cmd], ids, shortcuts)
  }

  /** `unregister`: removes the command and exactly the index entries that
      point at it. */
  function Unregister(r: Registry, id: string): (u: Update<Registry>)
    ensures id !in r.commands ==> u == Update(r, Raised(CommandNotFound))
    ensures id in r.commands ==> (
      && u.outcome.Done?
      && u.state.commands == r.commands - {id}
      && (forall k :: k in u.state.shortcuts <==> k in r.shortcuts && r.shortcuts[k] != id)
      && (forall k :: k in u.state.shortcuts ==> u.state.shortcuts[k] == r.shortcuts[k])
      && (forall x :: x in u.state.ids <==> x in r.ids && x != id))
    ensures Valid(r) ==> forall i :: 0 <= i < |r.ids| && r.ids[i] == id ==>
      u.state.ids == r.ids[..i] + r.ids[i + 1..]
    ensures Valid(r) ==> Valid(u.state)
    ensures CanonicalKeys(r) ==> CanonicalKeys(u.state)
  {
    if id !in r.commands then Update(r, Raised(CommandNotFound))
    else
      UnregisteredValid(r, id);
      Update(Registry(r.commands - {id}, RemoveId(r.ids, id), WithoutBindingsTo(r.shortcuts, id)), Done)
  }

  /** The registry left by unregistering `id` is well formed, and its id
      list is the old one with the gap closed. */
  lemma UnregisteredValid(r: Registry, id: string)
    ensures var s := Registry(r.commands - {id}, RemoveId(r.ids, id), WithoutBindingsTo(r.shortcuts, id));
      Valid(r) ==> Valid(s) && forall i :: 0 <= i < |r.ids| && r.ids[i] == id ==> s.ids == r.ids[..i] + r.ids[i + 1..]
  {
    var ids := RemoveId(r.ids, id);
    RemoveIdInPlace(r.ids, id);
    assert forall i :: 0 <= i < |ids| ==> ids[i] in ids;
  }

  /** The id list without `id`, order kept. */
  function RemoveId(ids: seq<string>, id: string): (r: seq<string>)
    ensures forall x :: x in r <==> x in ids && x != id
    ensures (forall i, j :: 0 <= i < j < |ids| ==> ids[i] != ids[j]) ==>
      (forall i, j :: 0 <= i < j < |r| ==> r[i] != r[j])
  {
    if |ids| == 0 then []
    else
      var rest := RemoveId(ids[1..], id);
      assert (forall i, j :: 0 <= i < j < |ids| ==> ids[i] != ids[j]) ==> ids[0] !in ids[1..];
      (if ids[0] == id then [] else [ids[0]]) + rest
  }

  /** Removing an id that occurs once, at `i`, closes the gap and keeps
      the order of the rest, as deleting from a Python dict does. */
  lemma {:induction false} RemoveIdAt(ids: seq<string>, id: string, i: nat)
    requires i < |ids| && ids[i] == id
    requires id !in ids[..i] && id !in ids[i + 1..]
    ensures RemoveId(ids, id) == ids[..i] + ids[i + 1..]
  {
    if i == 0 {
      RemoveIdAbsent(ids[1..], id);
    } else {
      assert ids[1..][..i - 1] == ids[1..i];
      assert ids[1..][i..] == ids[i + 1..];
      RemoveIdAt(ids[1..], id, i - 1);
      assert ids[..i] == [ids[0]] + ids[1..i];
    }
  }

  /** Removing an id that does not occur changes nothing. */
  lemma {:induction false} RemoveIdAbsent(ids: seq<string>, id: string)
    requires id !in ids
    ensures RemoveId(ids, id) == ids
  {
    if |ids| > 0 {
      RemoveIdAbsent(ids[1..], id);
      assert ids == [ids[0]] + ids[1..];
    }
  }

  /** In a list without repeats, removal is in place wherever the id sits. */
  lemma RemoveIdInPlace(ids: seq<string>, id: string)
    ensures (forall i, j :: 0 <= i < j < |ids| ==> ids[i] != ids[j]) ==>
      forall i :: 0 <= i < |ids| && ids[i] == id ==> RemoveId(ids, id) == ids[..i] + ids[i + 1..]
  {
    if forall i, j :: 0 <= i < j < |ids| ==> ids[i] != ids[j] {
      forall i | 0 <= i < |ids| && ids[i] == id
        ensures RemoveId(ids, id) == ids[..i] + ids[i + 1..]
      {
        forall k | 0 <= k < |ids| && k != i ensures ids[k] != id {
          if k < i { assert ids[k] != ids[i]; } else { assert ids[i] != ids[k]; }
        }
        assert id !in ids[..i] && id !in ids[i + 1..];
        RemoveIdAt(ids, id, i);
      }
    }
  }

  function Has(r: Registry, id: string): bool {
    id in r.commands
  }

  /** `get`: the command, or CommandNotFound. */
  function Get(r: Registry, id: string): (res: Result<Command>)
    ensures res.Err? <==> id !in r.commands
    ensures res.Err? ==> res.error == CommandNotFound
    ensures res.Ok? ==> res.value == r.commands[id]
    ensures Valid(r) && res.Ok? ==> res.value.id == id
  {
    if id in r.commands then Ok(r.commands[id]) else Err(CommandNotFound)
  }

  /** `ids`: every registered id exactly once, in registration order. */
  function Ids(r: Registry): (res: seq<string>)
    requires Valid(r)
    ensures forall id :: id in res <==> Has(r, id)
    ensures forall i, j :: 0 <= i < j < |res| ==> res[i] != res[j]
    ensures |res| == |r.commands|
  {
    IdsCount(r);
    r.ids
  }

  /** `ids` lists commands in registration order: a new id goes last, a
      replaced id keeps its place, and unregistering closes the gap. */
  lemma IdsInRegistrationOrder(r: Registry, cmd: Command, replace: bool, id: string)
    requires Valid(r)
    ensures cmd.id != "" && cmd.id !in r.commands ==>
      Valid(Register(r, cmd, replace).state) && Ids(Register(r, cmd, replace).state) == Ids(r) + [cmd.id]
    ensures cmd.id in r.commands && replace ==>
      Valid(Register(r, cmd, replace).state) && Ids(Register(r, cmd, replace).state) == Ids(r)
    ensures Valid(Unregister(r, id).state)
    ensures forall i :: 0 <= i < |Ids(r)| && Ids(r)[i] == id ==>
      Ids(Unregister(r, id).state) == Ids(r)[..i] + Ids(r)[i + 1..]
  {
    RegisterValid(r, cmd, replace);
  }

  lemma IdsCount(r: Registry)
    requires Valid(r)
    ensures |r.ids| == |r.commands|
  {
    DistinctCard(r.ids);
    assert (set x | x in r.ids) == r.commands.Keys;
  }

  lemma {:induction false} DistinctCard(s: seq<string>)
    requires forall i, j :: 0 <= i < j < |s| ==> s[i] != s[j]
    ensures |set x | x in s| == |s|
  {
    if |s| > 0 {
      DistinctCard(s[1..]);
      assert (set x | x in s) == (set x | x in s[1..]) + {s[0]};
      assert s[0] !in s[1..];
    }
  }

  // ---------------------------------------------------------------------
  // Evaluation and execution
  // ---------------------------------------------------------------------

  function IsVisible(r: Registry, id: string, ctx: Context): (res: Result<bool>)
    ensures res.Err? <==> id !in r.commands
    ensures res.Err? ==> res.error == CommandNotFound
    ensures res.Ok? ==> res.value == Eval(r.commands[id].visible, ctx)
  {
    if id in r.commands then Ok(Eval(r.commands[id].visible, ctx)) else Err(CommandNotFound)
  }

  function IsEnabled(r: Registry, id: string, ctx: Context): (res: Result<bool>)
    ensures res.Err? <==> id !in r.commands
    ensures res.Err? ==> res.error == CommandNotFound
    ensures res.Ok? ==> res.value == Eval(r.commands[id].enabled, ctx)
  {
    if id in r.commands then Ok(Eval(r.commands[id].enabled, ctx)) else Err(CommandNotFound)
  }

  /** `can_execute`: visible and enabled; enablement is only asked of a
      visible command. */
  function CanExecute(r: Registry, id: string, ctx: Context): (res: Result<bool>)
    ensures res.Err? <==> id !in r.commands
    ensures res.Ok? ==> (res.value <==> Execute(r, id, ctx, true).Ok?)
  {
    match IsVisible(r, id, ctx)
    case Err(e) => Err(e)
    case Ok(v) => if !v then Ok(false) else IsEnabled(r, id, ctx)
  }

  /** `execute`: unknown id, then visibility (only when required), then
      enablement; the handler is called once, and only after every check. */
  function Execute(r: Registry, id: string, ctx: Context, requireVisible: bool): (res: Result<Call>)
    ensures id !in r.commands ==> res == Err(CommandNotFound)
    ensures id in r.commands && requireVisible && !Eval(r.commands[id].visible, ctx) ==> res == Err(CommandNotVisible)
    ensures (id in r.commands && (!requireVisible || Eval(r.commands[id].visible, ctx))
      && !Eval(r.commands[id].enabled, ctx)) ==> res == Err(CommandNotEnabled)
    ensures res.Ok? <==> (id in r.commands && (!requireVisible || Eval(r.commands[id].visible, ctx))
      && Eval(r.commands[id].enabled, ctx))
    ensures res.Ok? ==> res.value == Call(id, r.commands[id].handler, ctx)
  {
    match Get(r, id)
    case Err(e) => Err(e)
    case Ok(cmd) =>
      if requireVisible && !Eval(cmd.visible, ctx) then Err(CommandNotVisible)
      else if !Eval(cmd.enabled, ctx) then Err(CommandNotEnabled)
      else Ok(Call(id, cmd.handler, ctx))
  }

  /** `execute_shortcut`: an unbound (or empty) resolution is CommandNotFound;
      otherwise execute with visibility required. */
  function ExecuteShortcut(r: Registry, shortcut: string, ctx: Context): (res: Result<Call>)
    ensures NormalizeShortcut(shortcut).Err? ==> res == Err(ValueError)
    ensures ResolveShortcut(r, shortcut) == Ok(None) ==> res == Err(CommandNotFound)
    ensures ResolveShortcut(r, shortcut).Ok? && ResolveShortcut(r, shortcut).value.Some?
      && ResolveShortcut(r, shortcut).value.value != ""
      ==> res == Execute(r, ResolveShortcut(r, shortcut).value.value, ctx, true)
  {
    match ResolveShortcut(r, shortcut)
    case Err(e) => Err(e)
    case Ok(found) =>
      if found.None? || found.value == "" then Err(CommandNotFound)
      else Execute(r, found.value, ctx, true)
  }

  // ---------------------------------------------------------------------
  // Menu and palette helpers
  // ---------------------------------------------------------------------

  /** `list_for_menu`: the visible commands among `ids`, in input order;
      any unknown id raises CommandNotFound. */
  function ListForMenu(r: Registry, ids: seq<string>, ctx: Context): (res: Result<seq<Command>>)
    ensures res.Err? <==> exists j :: 0 <= j < |ids| && ids[j] !in r.commands
    ensures res.Err? ==> res.error == CommandNotFound
    ensures res.Ok? ==> |res.value| <= |ids|
    ensures res.Ok? ==> forall i :: 0 <= i < |res.value| ==> Eval(res.value[i].visible, ctx)
  {
    if |ids| == 0 then Ok([])
    else
      match Get(r, ids[0])
      case Err(e) => Err(e)
      case Ok(cmd) =>
        match ListForMenu(r, ids[1..], ctx)
        case Err(e) => Err(e)
        case Ok(rest) => Ok((if Eval(cmd.visible, ctx) then [cmd] else []) + rest)
  }

  /** The menu list holds exactly the registered commands named in `ids`
      that are visible. Their order is that of `ids`, as
      `MenuBar.ListForMenuVisible` states. */
  lemma {:induction false} ListForMenuSelects(r: Registry, ids: seq<string>, ctx: Context, j: nat)
    requires ListForMenu(r, ids, ctx).Ok?
    requires j < |ids|
    ensures ids[j] in r.commands
    ensures Eval(r.commands[ids[j]].visible, ctx) <==>
      exists i :: 0 <= i < |ListForMenu(r, ids, ctx).value| && ListForMenu(r, ids, ctx).value[i] == r.commands[ids[j]]
  {
    var out := ListForMenu(r, ids, ctx).value;
    var rest := ListForMenu(r, ids[1..], ctx).value;
    var head := if Eval(r.commands[ids[0]].visible, ctx) then [r.commands[ids[0]]] else [];
    assert out == head + rest;
    if j == 0 {
      if !Eval(r.commands[ids[0]].visible, ctx) {
        forall i | 0 <= i < |out| ensures out[i] != r.commands[ids[0]] {
          assert Eval(out[i].visible, ctx);
        }
      } else {
        assert out[0] == r.commands[ids[0]];
      }
    } else {
      ListForMenuSelects(r, ids[1..], ctx, j - 1);
      assert ids[1..][j - 1] == ids[j];
      if Eval(r.commands[ids[j]].visible, ctx) {
        var i :| 0 <= i < |rest| && rest[i] == r.commands[ids[j]];
        assert out[|head| + i] == rest[i];
      } else {
        forall i | 0 <= i < |out| ensures out[i] != r.commands[ids[j]] {
          assert Eval(out[i].visible, ctx);
        }
      }
    }
  }

  // ---------------------------------------------------------------------
  // Ordering: `all` and `search`
  // ---------------------------------------------------------------------

  /** A sort key compared the way Python compares the tuples
      `(primary, order, label.lower(), id)`. */
  datatype RankKey = RankKey(primary: int, order: int, title: string, id: string)

  predicate LexLt(a: string, b: string) {
    LexLe(a, b) && a != b
  }

  predicate RankLe(a: RankKey, b: RankKey) {
    || a.primary < b.primary
    || (a.primary == b.primary && a.order < b.order)
    || (a.primary == b.primary && a.order == b.order && LexLt(a.title, b.title))
    || (a.primary == b.primary && a.order == b.order && a.title == b.title && LexLe(a.id, b.id))
  }

  lemma RankLeTotal(a: RankKey, b: RankKey)
    ensures RankLe(a, b) || RankLe(b, a)
  {
    LexLeTotal(a.title, b.title);
    LexLeTotal(a.id, b.id);
  }

  lemma RankLeTransitive(a: RankKey, b: RankKey, c: RankKey)
    requires RankLe(a, b) && RankLe(b, c)
    ensures RankLe(a, c)
  {
    if a.primary == b.primary == c.primary && a.order == b.order == c.order {
      if LexLe(a.title, b.title) && LexLe(b.title, c.title) {
        LexLeTransitive(a.title, b.title, c.title);
        if a.title == c.title {
          LexLeAntisymmetric(a.title, b.title);
        }
      }
      if a.title == b.title == c.title {
        LexLeTransitive(a.id, b.id, c.id);
      }
    }
  }

  /** Candidates are (key, id) pairs compared on the key alone. */
  predicate RankedLe(p: (RankKey, string), q: (RankKey, string)) {
    RankLe(p.0, q.0)
  }

  lemma RankedLeIsOrder()
    ensures Sorting.Total(RankedLe) && Sorting.Transitive(RankedLe)
  {
    forall p: (RankKey, string), q: (RankKey, string) ensures RankedLe(p, q) || RankedLe(q, p) {
      RankLeTotal(p.0, q.0);
    }
    forall p: (RankKey, string), q: (RankKey, string), o: (RankKey, string) | RankedLe(p, q) && RankedLe(q, o)
      ensures RankedLe(p, o)
    {
      RankLeTransitive(p.0, q.0, o.0);
    }
  }

  /** The stable sort of candidates by key, with its order proved. */
  function Ranked(entries: seq<(RankKey, string)>): (r: seq<(RankKey, string)>)
    ensures multiset(r) == multiset(entries) && |r| == |entries|
    ensures forall i, j :: 0 <= i < j < |r| ==> RankLe(r[i].0, r[j].0)
  {
    RankedLeIsOrder();
    Sorting.SortBySorted(entries, RankedLe);
    Sorting.SortBy(entries, RankedLe)
  }

  /** `all`'s key: `(order, label.lower(), id)`. */
  function AllKey(c: Command): RankKey {
    RankKey(0, c.order, Lower(c.title), c.id)
  }

  /** The registered ids (in `ids` order) paired with a key of their command. */
  function Keyed(r: Registry, ids: seq<string>, key: Command -> RankKey): (e: seq<(RankKey, string)>)
    requires forall i :: 0 <= i < |ids| ==> ids[i] in r.commands
    ensures |e| == |ids|
    ensures forall i :: 0 <= i < |e| ==> e[i] == (key(r.commands[ids[i]]), ids[i])
  {
    seq(|ids|, i requires 0 <= i < |ids| => (key(r.commands[ids[i]]), ids[i]))
  }

  /** The ids of ranked entries, in order. */
  function IdsOf(e: seq<(RankKey, string)>): (ids: seq<string>)
    ensures |ids| == |e|
    ensures forall i :: 0 <= i < |e| ==> ids[i] == e[i].1
  {
    seq(|e|, i requires 0 <= i < |e| => e[i].1)
  }

  /** The registered commands named by `ids`, in order. */
  function CommandsOf(r: Registry, ids: seq<string>): (cs: seq<Command>)
    requires forall i :: 0 <= i < |ids| ==> ids[i] in r.commands
    ensures |cs| == |ids|
    ensures forall i :: 0 <= i < |ids| ==> cs[i] == r.commands[ids[i]]
    ensures Valid(r) ==> forall i :: 0 <= i < |ids| ==> cs[i].id == ids[i]
  {
    seq(|ids|, i requires 0 <= i < |ids| => r.commands[ids[i]])
  }

  /** `all`: every command once, ordered by order, then lower-cased label,
      then id. */
  function All(r: Registry): (res: seq<Command>)
    requires Valid(r)
    ensures |res| == |r.commands|
    ensures forall i :: 0 <= i < |res| ==> res[i].id == AllIds(r)[i]
    ensures forall i :: 0 <= i < |res| ==> res[i] == r.commands[AllIds(r)[i]]
  {
    CommandsOf(r, AllIds(r))
  }

  /** The ids of `all`'s result: each registered id once, ordered by the
      command's order, lower-cased label and id. */
  function AllIds(r: Registry): (ids: seq<string>)
    requires Valid(r)
    ensures |ids| == |r.commands|
    ensures forall i :: 0 <= i < |ids| ==> ids[i] in r.commands
    ensures forall id :: id in r.commands ==> id in ids
    ensures forall i, j :: 0 <= i < j < |ids| ==> RankLe(AllKey(r.commands[ids[i]]), AllKey(r.commands[ids[j]]))
    ensures forall i, j :: 0 <= i < j < |ids| ==> ids[i] != ids[j]
  {
    IdsCount(r);
    RankIds(r, r.ids, AllKey)
  }

  /** The ids ranked by `key` of their commands: a reordering of `ids`
      that keeps them distinct when they were. */
  function RankIds(r: Registry, ids: seq<string>, key: Command -> RankKey): (res: seq<string>)
    requires forall i :: 0 <= i < |ids| ==> ids[i] in r.commands
    ensures |res| == |ids|
    ensures forall i :: 0 <= i < |res| ==> res[i] in ids && res[i] in r.commands
    ensures forall x :: x in ids ==> x in res
    ensures forall i, j :: 0 <= i < j < |res| ==> RankLe(key(r.commands[res[i]]), key(r.commands[res[j]]))
    ensures (forall i, j :: 0 <= i < j < |ids| ==> ids[i] != ids[j]) ==>
      forall i, j :: 0 <= i < j < |res| ==> res[i] != res[j]
  {
    var sorted := Ranked(Keyed(r, ids, key));
    SortedEntriesFacts(r, ids, key, sorted);
    var res := IdsOf(sorted);
    assert forall x :: x in ids ==> x in res by {
      forall x | x in ids ensures x in res {
        var i :| 0 <= i < |sorted| && sorted[i].1 == x;
        assert res[i] == x;
      }
    }
    res
  }

  /** A permutation of keyed entries names registered commands, carries
      their keys, and is as free of repeated ids as the id list was. */
  lemma SortedEntriesFacts(r: Registry, ids: seq<string>, key: Command -> RankKey, sorted: seq<(RankKey, string)>)
    requires forall i :: 0 <= i < |ids| ==> ids[i] in r.commands
    requires multiset(sorted) == multiset(Keyed(r, ids, key))
    ensures forall i :: 0 <= i < |sorted| ==> sorted[i].1 in ids && sorted[i].0 == key(r.commands[sorted[i].1])
    ensures forall x :: x in ids ==> exists i :: 0 <= i < |sorted| && sorted[i].1 == x
    ensures (forall i, j :: 0 <= i < j < |ids| ==> ids[i] != ids[j]) ==>
      forall i, j :: 0 <= i < j < |sorted| ==> sorted[i].1 != sorted[j].1
  {
    var e := Keyed(r, ids, key);
    forall i | 0 <= i < |sorted| ensures sorted[i].1 in ids && sorted[i].0 == key(r.commands[sorted[i].1]) {
      assert sorted[i] in multiset(e);
    }
    forall x | x in ids ensures exists i :: 0 <= i < |sorted| && sorted[i].1 == x {
      var k :| 0 <= k < |ids| && ids[k] == x;
      assert e[k] in multiset(sorted);
    }
    if forall i, j :: 0 <= i < j < |ids| ==> ids[i] != ids[j] {
      DistinctEntries(e, ids);
      forall i, j | 0 <= i < j < |sorted| ensures sorted[i] != sorted[j] {
        assert sorted == sorted[..j] + sorted[j..];
        assert sorted[i] in multiset(sorted[..j]);
        assert sorted[j] in multiset(sorted[j..]);
        assert multiset(sorted)[sorted[j]] == multiset(sorted[..j])[sorted[j]] + multiset(sorted[j..])[sorted[j]];
      }
      forall i, j | 0 <= i < j < |sorted| ensures sorted[i].1 != sorted[j].1 {
        assert sorted[i] != sorted[j];
      }
    }
  }

  /** Entries with distinct ids occur at most once each. */
  lemma {:induction false} DistinctEntries(e: seq<(RankKey, string)>, ids: seq<string>)
    requires |e| == |ids| && forall i :: 0 <= i < |e| ==> e[i].1 == ids[i]
    requires forall i, j :: 0 <= i < j < |ids| ==> ids[i] != ids[j]
    ensures forall x :: multiset(e)[x] <= 1
  {
    if |e| > 0 {
      DistinctEntries(e[1..], ids[1..]);
      assert e == [e[0]] + e[1..];
      forall k | 0 <= k < |e[1..]| ensures e[1..][k] != e[0] {
        assert e[1..][k].1 == ids[k + 1];
      }
    }
  }

  /** `_score`: how well a lower-cased query matches a command, from an
      exact id match (100) down to a tag substring (25); 0 is no match. */
  function Score(c: Command, q: string): (s: int)
    ensures s in {0, 25, 30, 55, 60, 80, 85, 95, 100}
  {
    var idL := Lower(c.id);
    var titleL := Lower(c.title);
    if idL == q then 100
    else if titleL == q then 95
    else if q <= idL then 85
    else if q <= titleL then 80
    else if Contains(idL, q) then 60
    else if Contains(titleL, q) then 55
    else if Contains(Lower(c.description), q) then 30
    else if Contains(Lower(Join(c.tags, ' ')), q) then 25
    else 0
  }

  /** The tiers of `_score`: each threshold is reached exactly when the
      query matches at that tier or a better one. 100 is an equal id, 95 an
      equal label, 85 an id prefix, 80 a label prefix, 60 an id substring,
      55 a label substring, 30 a description substring, and anything above
      zero a match somewhere, the joined tags included. */
  lemma ScoreMeaning(c: Command, q: string)
    ensures Score(c, q) > 0 <==> (Contains(Lower(c.id), q) || Contains(Lower(c.title), q)
      || Contains(Lower(c.description), q) || Contains(Lower(Join(c.tags, ' ')), q))
    ensures Score(c, q) >= 30 <==> (Score(c, q) >= 55 || Contains(Lower(c.description), q))
    ensures Score(c, q) >= 55 <==> (Score(c, q) >= 60 || Contains(Lower(c.title), q))
    ensures Score(c, q) >= 60 <==> (Score(c, q) >= 80 || Contains(Lower(c.id), q))
    ensures Score(c, q) >= 80 <==> (q <= Lower(c.id) || q <= Lower(c.title))
    ensures Score(c, q) >= 85 <==> (Score(c, q) >= 95 || q <= Lower(c.id))
    ensures Score(c, q) >= 95 <==> (Lower(c.id) == q || Lower(c.title) == q)
    ensures Score(c, q) == 100 <==> Lower(c.id) == q
  {
  }

  /** `search`'s key: best score first, then as in `all`. */
  function SearchKey(c: Command, q: string): RankKey {
    RankKey(-Score(c, q), c.order, Lower(c.title), c.id)
  }

  /** The query as `search` sees it: stripped, then lower-cased. */
  function SearchQuery(query: string): string {
    Lower(Trim(query))
  }

  /** The ids that `keep` accepts, in order. */
  function Filter(ids: seq<string>, keep: string -> bool): (m: seq<string>)
    ensures forall i :: 0 <= i < |m| ==> m[i] in ids && keep(m[i])
    ensures forall x :: x in ids && keep(x) ==> x in m
    ensures (forall i, j :: 0 <= i < j < |ids| ==> ids[i] != ids[j]) ==>
      forall i, j :: 0 <= i < j < |m| ==> m[i] != m[j]
  {
    if |ids| == 0 then []
    else
      var rest := Filter(ids[1..], keep);
      assert (forall i, j :: 0 <= i < j < |ids| ==> ids[i] != ids[j]) ==> ids[0] !in ids[1..];
      (if keep(ids[0]) then [ids[0]] else []) + rest
  }

  /** A registered command that is visible and scores above zero. */
  predicate Matches(r: Registry, id: string, q: string, ctx: Context) {
    id in r.commands && Eval(r.commands[id].visible, ctx) && Score(r.commands[id], q) > 0
  }

  /** The candidates of `search`, ranked; the result is a prefix of these. */
  function SearchRanked(r: Registry, q: string, ctx: Context): (ids: seq<string>)
    requires Valid(r)
    ensures forall i :: 0 <= i < |ids| ==> ids[i] in r.commands && Matches(r, ids[i], q, ctx)
    ensures forall id :: Matches(r, id, q, ctx) ==> id in ids
    ensures forall i, j :: 0 <= i < j < |ids| ==> RankLe(SearchKey(r.commands[ids[i]], q), SearchKey(r.commands[ids[j]], q))
    ensures forall i, j :: 0 <= i < j < |ids| ==> ids[i] != ids[j]
  {
    var m := Filter(r.ids, id => Matches(r, id, q, ctx));
    RankIds(r, m, (c: Command) => SearchKey(c, q))
  }

  /** `search`: at most `max(0, limit)` visible, matching commands, best
      first; an empty (or all-blank) query finds nothing. */
  function Search(r: Registry, query: string, ctx: Context, limit: int): (res: seq<Command>)
    requires Valid(r)
    ensures |res| == |SearchIds(r, query, ctx, limit)|
    ensures forall i :: 0 <= i < |res| ==> res[i].id == SearchIds(r, query, ctx, limit)[i]
    ensures forall i :: 0 <= i < |res| ==> res[i] == r.commands[SearchIds(r, query, ctx, limit)[i]]
  {
    CommandsOf(r, SearchIds(r, query, ctx, limit))
  }

  /** The ids of `search`'s result: the best `max(0, limit)` of the ranked
      candidates, or none for a blank query. */
  function SearchIds(r: Registry, query: string, ctx: Context, limit: int): (ids: seq<string>)
    requires Valid(r)
    ensures SearchQuery(query) == "" ==> ids == []
    ensures SearchQuery(query) != "" ==> ids <= SearchRanked(r, SearchQuery(query), ctx)
    ensures |ids| == if SearchQuery(query) == "" then 0
      else if limit < 0 then 0 else if limit < |SearchRanked(r, SearchQuery(query), ctx)| then limit
      else |SearchRanked(r, SearchQuery(query), ctx)|
  {
    var q := SearchQuery(query);
    if q == "" then [] else Truncate(SearchRanked(r, q, ctx), limit)
  }

  /** Every result is visible, matches, and occurs once; results come best
      first. */
  lemma SearchSound(r: Registry, query: string, ctx: Context, limit: int)
    requires Valid(r)
    ensures |SearchIds(r, query, ctx, limit)| <= if limit < 0 then 0 else limit
    ensures forall x :: x in SearchIds(r, query, ctx, limit) ==> Matches(r, x, SearchQuery(query), ctx)
    ensures var ids := SearchIds(r, query, ctx, limit);
      forall i, j :: 0 <= i < j < |ids| ==> (ids[i] != ids[j]
        && RankLe(SearchKey(r.commands[ids[i]], SearchQuery(query)), SearchKey(r.commands[ids[j]], SearchQuery(query))))
  {
    var q := SearchQuery(query);
    if q != "" {
      RankedPrefixSound(r, q, ctx, SearchIds(r, query, ctx, limit));
    }
  }

  /** A prefix of the ranked candidates holds distinct matches, best
      first. */
  lemma RankedPrefixSound(r: Registry, q: string, ctx: Context, ids: seq<string>)
    requires Valid(r)
    requires ids <= SearchRanked(r, q, ctx)
    ensures forall x :: x in ids ==> Matches(r, x, q, ctx)
    ensures forall i, j :: 0 <= i < j < |ids| ==> (ids[i] != ids[j]
      && RankLe(SearchKey(r.commands[ids[i]], q), SearchKey(r.commands[ids[j]], q)))
  {
    var all := SearchRanked(r, q, ctx);
    forall x | x in ids ensures Matches(r, x, q, ctx) {
      var i :| 0 <= i < |ids| && ids[i] == x;
      assert all[i] == x;
    }
    forall i, j | 0 <= i < j < |ids|
      ensures ids[i] != ids[j] && RankLe(SearchKey(r.commands[ids[i]], q), SearchKey(r.commands[ids[j]], q))
    {
      assert ids[i] == all[i] && ids[j] == all[j];
    }
  }

  /** Python's `s[:max(0, limit)]`. */
  function Truncate<T>(s: seq<T>, limit: int): (t: seq<T>)
    ensures |t| == if limit < 0 then 0 else if limit < |s| then limit else |s|
    ensures t == s[..|t|]
  {
    if limit < 0 then [] else if limit < |s| then s[..limit] else s
  }

  /** Nothing better is cut: a visible matching command missing from the
      result means the result is full, and everything in it ranks no
      later than the missing one. */
  lemma SearchComplete(r: Registry, query: string, ctx: Context, limit: int, id: string)
    requires Valid(r)
    requires SearchQuery(query) != ""
    requires Matches(r, id, SearchQuery(query), ctx)
    requires id !in SearchIds(r, query, ctx, limit)
    ensures |SearchIds(r, query, ctx, limit)| == if limit < 0 then 0 else limit
    ensures forall x :: x in SearchIds(r, query, ctx, limit) ==>
      RankLe(SearchKey(r.commands[x], SearchQuery(query)), SearchKey(r.commands[id], SearchQuery(query)))
  {
    var q := SearchQuery(query);
    RankedPrefixComplete(r, q, ctx, SearchIds(r, query, ctx, limit), id);
  }

  /** A prefix of the ranked candidates that leaves out a match is shorter
      than the whole and ranks no later than the match. */
  lemma RankedPrefixComplete(r: Registry, q: string, ctx: Context, ids: seq<string>, id: string)
    requires Valid(r)
    requires ids <= SearchRanked(r, q, ctx)
    requires Matches(r, id, q, ctx) && id !in ids
    ensures |ids| < |SearchRanked(r, q, ctx)|
    ensures forall x :: x in ids ==> RankLe(SearchKey(r.commands[x], q), SearchKey(r.commands[id], q))
  {
    var all := SearchRanked(r, q, ctx);
    var le := (a: string, b: string) =>
      a in r.commands && b in r.commands && RankLe(SearchKey(r.commands[a], q), SearchKey(r.commands[b], q));
    assert forall i, j :: 0 <= i < j < |all| ==> le(all[i], all[j]);
    PrefixBefore(all, ids, id, le);
  }

  /** In a list ordered by `le`, a prefix that leaves out `id` stops short
      of it, and everything in the prefix comes before it. */
  lemma PrefixBefore<T>(all: seq<T>, ids: seq<T>, id: T, le: (T, T) -> bool)
    requires ids <= all && id in all && id !in ids
    requires forall i, j :: 0 <= i < j < |all| ==> le(all[i], all[j])
    ensures |ids| < |all|
    ensures forall x :: x in ids ==> le(x, id)
  {
    var k :| 0 <= k < |all| && all[k] == id;
    assert all[..|ids|] == ids;
    assert k >= |ids|;
    forall x | x in ids ensures le(x, id) {
      var i :| 0 <= i < |ids| && ids[i] == x;
      assert all[i] == x;
    }
  }
}

=== FILE: defaults.dfy ===
/** The default command table (`default_commands.py`) and the default key
    table (`default_keys.py`). Both depend only on whether the platform is
    macOS, which is a parameter here; the handlers (an About box, a
    Preferences placeholder, window shutdown) are opaque and are named. */
module Defaults {
  import opened Base
  import opened Text
  import opened Commands
  import opened Keys

  const AboutId: string := "app.about"
  const PreferencesId: string := "app.preferences"
  const QuitId: string := "app.quit"

  // ---------------------------------------------------------------------
  // Default commands
  // ---------------------------------------------------------------------

  function QuitShortcut(isMac: bool): string {
    if isMac then "CMD+Q" else "CTRL+Q"
  }

  function PreferencesShortcut(isMac: bool): string {
    if isMac then "CMD+," else "CTRL+,"
  }

  /** The three commands `register_default_commands` registers, in order. */
  function DefaultCommands(isMac: bool): seq<Command> {
    [ Command(AboutId, if isMac then "About pyezsh" else "About", "_app_about",
        "Show application information.", [], None, Static(true), Static(true), 10),
      Command(PreferencesId, if isMac then "Preferences…" else "Preferences...", "_app_preferences",
        "Open application preferences.", [], Some(PreferencesShortcut(isMac)), Static(true), Static(true), 15),
      Command(QuitId, if isMac then "Quit pyezsh" else "Quit", "_app_quit",
        "Exit pyezsh.", [], Some(QuitShortcut(isMac)), Static(true), Static(true), 20) ]
  }

  /** `registry.register(cmd)` (no `replace`) for each command in turn; the
      first exception propagates with the earlier commands registered.
      Without `replace` an existing command is never changed, and when all
      succeed every command is stored under its id. */
  function RegisterEach(r: Registry, cmds: seq<Command>): (u: Update<Registry>)
    ensures forall id :: id in r.commands ==> id in u.state.commands && u.state.commands[id] == r.commands[id]
    ensures u.outcome.Done? ==>
      forall i :: 0 <= i < |cmds| ==> cmds[i].id in u.state.commands && u.state.commands[cmds[i].id] == cmds[i]
    decreases |cmds|
  {
    if |cmds| == 0 then Update(r, Done)
    else
      var first := Register(r, cmds[0], false);
      RegisterKeepsOthers(r, cmds[0]);
      if first.outcome.Raised? then first
      else
        var rest := RegisterEach(first.state, cmds[1..]);
        assert forall i :: 1 <= i < |cmds| ==> cmds[1..][i - 1] == cmds[i];
        rest
  }

  /** `register_default_commands`. */
  function RegisterDefaults(r: Registry, isMac: bool): Update<Registry> {
    RegisterEach(r, DefaultCommands(isMac))
  }

  /** "M+K" with a canonical key is its own normal form. */
  lemma NormalizeOneModifier(s: string, m: Modifier, key: string)
    requires CanonicalKey(key)
    requires s == ModifierName(m) + "+" + key
    ensures NormalizeShortcut(s) == Ok(s)
  {
    CanonicalSingle(m, key);
    CanonicalIsFixedPoint({m}, key);
  }

  /** The default shortcuts are already canonical, so each is filed
      under its own spelling. */
  lemma DefaultShortcutsCanonical(isMac: bool)
    ensures NormalizeShortcut(QuitShortcut(isMac)) == Ok(QuitShortcut(isMac))
    ensures NormalizeShortcut(PreferencesShortcut(isMac)) == Ok(PreferencesShortcut(isMac))
  {
    var m := if isMac then Cmd else Ctrl;
    CommaIsCanonicalKey();
    var q := QuitShortcut(isMac);
    var p := PreferencesShortcut(isMac);
    assert q == ModifierName(m) + "+" + "Q";
    assert p == ModifierName(m) + "+" + ",";
    NormalizeOneModifier(q, m, "Q");
    NormalizeOneModifier(p, m, ",");
  }

  lemma CommaIsCanonicalKey()
    ensures CanonicalKey(",")
  {
    assert Upper(",") == ",";
  }

  /** One step of `RegisterEach`. */
  lemma RegisterEachStep(r: Registry, cmds: seq<Command>)
    requires |cmds| > 0
    ensures var first := Register(r, cmds[0], false);
      RegisterEach(r, cmds) == if first.outcome.Raised? then first else RegisterEach(first.state, cmds[1..])
  {
  }

  /** Registering a new command without a shortcut appends its id. */
  lemma RegisterNew(r: Registry, c: Command) returns (next: Registry)
    requires c.id != "" && c.id !in r.commands && c.shortcut == None
    ensures Register(r, c, false) == Update(next, Done)
    ensures next == Registry(r.commands[c.id := c], r.ids + [c.id], r.shortcuts)
  {
    next := Registry(r.commands[c.id := c], r.ids + [c.id], r.shortcuts);
  }

  /** Registering a new command whose canonical shortcut is free also
      files the shortcut. */
  lemma RegisterNewWithShortcut(r: Registry, c: Command, key: string) returns (next: Registry)
    requires c.id != "" && c.id !in r.commands && c.shortcut == Some(key)
    requires NormalizeShortcut(key) == Ok(key) && key !in r.shortcuts
    ensures Register(r, c, false) == Update(next, Done)
    ensures next == Registry(r.commands[c.id := c], r.ids + [c.id], r.shortcuts[key := c.id])
  {
    next := Registry(r.commands[c.id := c], r.ids + [c.id], r.shortcuts[key := c.id]);
    assert key != "";
  }

  /** Three new commands with distinct ids, the first without a shortcut
      and the other two with distinct canonical shortcuts, register
      without an error. */
  lemma {:induction false} RegisterThree(r: Registry, cs: seq<Command>, kb: string, kc: string)
    requires |cs| == 3
    requires cs[0].id != "" && cs[1].id != "" && cs[2].id != ""
    requires cs[0].id != cs[1].id && cs[0].id != cs[2].id && cs[1].id != cs[2].id
    requires cs[0].id !in r.commands && cs[1].id !in r.commands && cs[2].id !in r.commands
    requires cs[0].shortcut == None && cs[1].shortcut == Some(kb) && cs[2].shortcut == Some(kc)
    requires NormalizeShortcut(kb) == Ok(kb) && NormalizeShortcut(kc) == Ok(kc)
    requires kb != kc && kb !in r.shortcuts && kc !in r.shortcuts
    ensures RegisterEach(r, cs).outcome.Done?
    ensures RegisterEach(r, cs).state.ids == r.ids + [cs[0].id, cs[1].id, cs[2].id]
    ensures RegisterEach(r, cs).state.shortcuts == r.shortcuts[kb := cs[1].id][kc := cs[2].id]
  {
    var a, b, c := cs[0], cs[1], cs[2];
    var r1 := RegisterNew(r, a);
    assert b.id !in r1.commands && c.id !in r1.commands;
    var r2 := RegisterNewWithShortcut(r1, b, kb);
    assert c.id !in r2.commands && kc !in r2.shortcuts;
    var r3 := RegisterNewWithShortcut(r2, c, kc);
    RegisterEachThree(r, cs, r1, r2, r3);
    AppendThree(r.ids, a.id, b.id, c.id);
  }

  /** Three successful registrations in a row complete the list. */
  lemma RegisterEachThree(r: Registry, cs: seq<Command>, r1: Registry, r2: Registry, r3: Registry)
    requires |cs| == 3
    requires Register(r, cs[0], false) == Update(r1, Done)
    requires Register(r1, cs[1], false) == Update(r2, Done)
    requires Register(r2, cs[2], false) == Update(r3, Done)
    ensures RegisterEach(r, cs) == Update(r3, Done)
  {
    var t1 := cs[1..];
    var t2 := t1[1..];
    assert t1[0] == cs[1] && t2[0] == cs[2] && t2[1..] == [];
    RegisterEachStep(r, cs);
    RegisterEachStep(r1, t1);
    RegisterEachStep(r2, t2);
  }

  /** The default table meets the conditions of `RegisterThree` on an
      empty registry. */
  lemma DefaultCommandsShape(isMac: bool)
    ensures var cs := DefaultCommands(isMac);
      && |cs| == 3
      && cs[0].id == AboutId && cs[1].id == PreferencesId && cs[2].id == QuitId
      && cs[0].shortcut == None && cs[1].shortcut == Some(PreferencesShortcut(isMac))
      && cs[2].shortcut == Some(QuitShortcut(isMac))
      && PreferencesShortcut(isMac) != QuitShortcut(isMac)
  {
  }

  /** On a fresh registry registration never raises; it leaves exactly the
      three ids in order and exactly two shortcuts (About has none). */
  lemma DefaultsOnFreshRegistry(isMac: bool)
    ensures var u := RegisterDefaults(EmptyRegistry, isMac);
      && u.outcome.Done?
      && u.state.ids == [AboutId, PreferencesId, QuitId]
      && u.state.shortcuts == map[PreferencesShortcut(isMac) := PreferencesId, QuitShortcut(isMac) := QuitId]
  {
    DefaultShortcutsCanonical(isMac);
    DefaultCommandsShape(isMac);
    RegisterThree(EmptyRegistry, DefaultCommands(isMac), PreferencesShortcut(isMac), QuitShortcut(isMac));
  }

  lemma AppendThree<T>(s: seq<T>, x: T, y: T, z: T)
    ensures s + [x] + [y] + [z] == s + [x, y, z]
  {
  }

  /** Registering a list keeps the registry well formed and its shortcut
      keys canonical, whether or not it stops early. */
  lemma {:induction false} RegisterEachValid(r: Registry, cmds: seq<Command>)
    requires Valid(r) && CanonicalKeys(r)
    ensures Valid(RegisterEach(r, cmds).state) && CanonicalKeys(RegisterEach(r, cmds).state)
    decreases |cmds|
  {
    if |cmds| > 0 {
      RegisterEachStep(r, cmds);
      RegisterValid(r, cmds[0], false);
      var first := Register(r, cmds[0], false);
      if first.outcome.Done? {
        RegisterEachValid(first.state, cmds[1..]);
      }
    }
  }

  /** What the registry holds for each default after a fresh registration:
      the platform's labels, the order values 10, 15 and 20, and the
      description and shortcut of each. */
  lemma DefaultsRegistered(isMac: bool)
    ensures var st := RegisterDefaults(EmptyRegistry, isMac).state;
      && Get(st, AboutId).Ok? && Get(st, PreferencesId).Ok? && Get(st, QuitId).Ok?
      && Get(st, AboutId).value.title == (if isMac then "About pyezsh" else "About")
      && Get(st, PreferencesId).value.title == (if isMac then "Preferences…" else "Preferences...")
      && Get(st, QuitId).value.title == (if isMac then "Quit pyezsh" else "Quit")
      && Get(st, AboutId).value.order == 10
      && Get(st, PreferencesId).value.order == 15
      && Get(st, QuitId).value.order == 20
      && Get(st, AboutId).value.shortcut == None
      && Get(st, PreferencesId).value.shortcut == Some(PreferencesShortcut(isMac))
      && Get(st, QuitId).value.shortcut == Some(QuitShortcut(isMac))
  {
    var cs := DefaultCommands(isMac);
    DefaultsOnFreshRegistry(isMac);
    var st := RegisterDefaults(EmptyRegistry, isMac).state;
    assert cs[0].id in st.commands && st.commands[cs[0].id] == cs[0];
    assert cs[1].id in st.commands && st.commands[cs[1].id] == cs[1];
    assert cs[2].id in st.commands && st.commands[cs[2].id] == cs[2];
  }

  /** Registering the defaults a second time fails at the first command
      and changes nothing. */
  lemma DefaultsTwiceRaise(r: Registry, isMac: bool)
    requires AboutId in r.commands
    ensures RegisterDefaults(r, isMac) == Update(r, Raised(CommandAlreadyRegistered))
  {
    RegisterEachStep(r, DefaultCommands(isMac));
  }

  // ---------------------------------------------------------------------
  // Default key bindings
  // ---------------------------------------------------------------------

  /** The Control bindings, which every platform gets. */
  const ControlBindings: seq<(string, string)> := [
    ("<Control-q>", QuitId),
    ("<Control-KeyPress-q>", QuitId),
    ("<Control-comma>", PreferencesId),
    ("<Control-KeyPress-comma>", PreferencesId)]

  /** The Command and Meta bindings macOS gets first. */
  const MacBindings: seq<(string, string)> := [
    ("<Command-q>", QuitId),
    ("<Command-KeyPress-q>", QuitId),
    ("<Meta-KeyPress-q>", QuitId),
    ("<Command-comma>", PreferencesId),
    ("<Command-KeyPress-comma>", PreferencesId),
    ("<Meta-KeyPress-comma>", PreferencesId)]

  /** The `km.bind` calls of `build_default_keymap`, in order. */
  function DefaultBindings(isMac: bool): seq<(string, string)> {
    if isMac then MacBindings + ControlBindings else ControlBindings
  }

  /** `build_default_keymap`: `bind` (default `overwrite`) for each pair. */
  function BuildDefaultKeymap(isMac: bool): Result<KeyMap> {
    BindEach(EmptyKeyMap, DefaultBindings(isMac))
  }

  /** No key sequence of the table is bound twice. */
  lemma DefaultKeysDistinct(isMac: bool)
    ensures var b := DefaultBindings(isMac);
      forall i, j :: 0 <= i < j < |b| ==> b[i].0 != b[j].0
  {
  }

  /** Every binding has a key sequence and names app.quit or
      app.preferences. */
  lemma DefaultBindingsNonEmpty(isMac: bool)
    ensures var b := DefaultBindings(isMac);
      forall i :: 0 <= i < |b| ==> b[i].0 != "" && b[i].1 in {QuitId, PreferencesId}
  {
  }

  /** Building the default keymap never raises; the map lists exactly the
      table's bindings in order: ten on macOS, four elsewhere. */
  lemma DefaultKeymapItems(isMac: bool)
    ensures BuildDefaultKeymap(isMac).Ok?
    ensures KeyMapValid(BuildDefaultKeymap(isMac).value)
    ensures Items(BuildDefaultKeymap(isMac).value) == DefaultBindings(isMac)
    ensures |Keys.Keys(BuildDefaultKeymap(isMac).value)| == if isMac then 10 else 4
  {
    var b := DefaultBindings(isMac);
    DefaultKeysDistinct(isMac);
    DefaultBindingsNonEmpty(isMac);
    BindEachItems(EmptyKeyMap, b);
  }

  // ---------------------------------------------------------------------
  // Translation of the default key sequences
  // ---------------------------------------------------------------------

  /** `<a-b>` has the tokens a and b. */
  lemma TkPartsTwo(keyseq: string, a: string, b: string)
    requires ValidPart(a, '-') && ValidPart(b, '-')
    requires keyseq == "<" + a + "-" + b + ">"
    ensures TkParts(keyseq) == [a, b]
  {
    assert [a, b][1..] == [b];
    assert Join([a, b][1..], '-') == b;
    var j := Join([a, b], '-');
    assert j == a + "-" + b;
    assert "<" + j + ">" == keyseq;
    TkPartsOfJoin([a, b]);
  }

  /** `<a-b-c>` has the tokens a, b and c. */
  lemma TkPartsThree(keyseq: string, a: string, b: string, c: string)
    requires ValidPart(a, '-') && ValidPart(b, '-') && ValidPart(c, '-')
    requires keyseq == "<" + a + "-" + b + "-" + c + ">"
    ensures TkParts(keyseq) == [a, b, c]
  {
    assert [a, b, c][1..] == [b, c] && [b, c][1..] == [c];
    assert Join([c], '-') == c;
    assert Join([b, c], '-') == b + "-" + c;
    var j := Join([a, b, c], '-');
    assert j == a + "-" + (b + "-" + c);
    assert "<" + j + ">" == keyseq;
    TkPartsOfJoin([a, b, c]);
  }

  /** `<Mod-key>` as three literal pieces. */
  lemma TkTranslateTwo(keyseq: string, mod: string, key: string, m: Modifier, r: string)
    requires ValidPart(mod, '-') && ValidPart(key, '-')
    requires keyseq == "<" + mod + "-" + key + ">"
    requires ModifierOf(Upper(mod)) == Some(m) && ModifierOf(Upper(key)).None?
    requires r == ModifierName(m) + "+" + Upper(key)
    ensures TkToCanonical(keyseq) == r
  {
    TkPartsTwo(keyseq, mod, key);
    TkModifierKey(keyseq, mod, key, m, r);
  }

  /** `<Mod-KeyPress-key>` as literal pieces. */
  lemma TkTranslateThree(keyseq: string, mod: string, press: string, key: string, m: Modifier, r: string)
    requires ValidPart(mod, '-') && ValidPart(press, '-') && ValidPart(key, '-')
    requires keyseq == "<" + mod + "-" + press + "-" + key + ">"
    requires ModifierOf(Upper(mod)) == Some(m)
    requires ModifierOf(Upper(press)).None? && ModifierOf(Upper(key)).None?
    requires r == ModifierName(m) + "+" + Upper(key)
    ensures TkToCanonical(keyseq) == r
  {
    TkPartsThree(keyseq, mod, press, key);
    TkModifierPressKey(keyseq, mod, press, key, m, r);
  }

  /** The upper-cased spellings of the tokens the table uses. */
  lemma TokenSpellings()
    ensures Upper("Control") == "CONTROL" && Upper("Command") == "COMMAND" && Upper("Meta") == "META"
    ensures Upper("KeyPress") == "KEYPRESS" && Upper("q") == "Q" && Upper("comma") == "COMMA"
  {
  }

  /** A default binding as its parts: the modifier token, whether Tk's
      `KeyPress` token sits between modifier and key, the key token, and
      the command id. */
  datatype KeySpec = KeySpec(modifier: string, press: bool, key: string, command: string)

  /** The Tk key sequence a spec stands for. */
  function Spell(t: KeySpec): string {
    "<" + t.modifier + "-" + (if t.press then "KeyPress-" else "") + t.key + ">"
  }

  /** The bindings a list of specs stands for. */
  function SpecBindings(specs: seq<KeySpec>): (b: seq<(string, string)>)
    ensures |b| == |specs|
    ensures forall i :: 0 <= i < |specs| ==> b[i] == (Spell(specs[i]), specs[i].command)
  {
    seq(|specs|, i requires 0 <= i < |specs| => (Spell(specs[i]), specs[i].command))
  }

  /** A spec whose tokens `_tk_to_canonical` reads as one modifier and a key. */
  predicate WellFormedSpec(t: KeySpec) {
    && ValidPart(t.modifier, '-') && ValidPart(t.key, '-') && '+' !in t.key
    && ModifierOf(Upper(t.modifier)).Some? && ModifierOf(Upper(t.key)).None?
  }

  /** The registry shortcut a well-formed spec should become: the
      modifier's canonical name, '+', and the upper-cased key token. */
  function Expected(t: KeySpec): string
    requires WellFormedSpec(t)
  {
    ModifierName(ModifierOf(Upper(t.modifier)).value) + "+" + Upper(t.key)
  }

  function ExpectedAll(specs: seq<KeySpec>): (e: seq<(string, string)>)
    requires forall i :: 0 <= i < |specs| ==> WellFormedSpec(specs[i])
    ensures |e| == |specs|
    ensures forall i :: 0 <= i < |specs| ==> e[i] == (Expected(specs[i]), specs[i].command)
  {
    seq(|specs|, i requires 0 <= i < |specs| => (Expected(specs[i]), specs[i].command))
  }

  /** A spelled spec translates to its expected shortcut, with or without
      the `KeyPress` token. */
  lemma SpellTranslates(t: KeySpec)
    requires WellFormedSpec(t)
    ensures TkToCanonical(Spell(t)) == Expected(t)
  {
    TokenSpellings();
    var m := ModifierOf(Upper(t.modifier)).value;
    var k := Spell(t);
    if t.press {
      assert k == "<" + t.modifier + "-" + "KeyPress" + "-" + t.key + ">";
      TkTranslateThree(k, t.modifier, "KeyPress", t.key, m, Expected(t));
    } else {
      TkTranslateTwo(k, t.modifier, t.key, m, Expected(t));
    }
  }

  /** The expected shortcut is already canonical, so the registry files it
      under its own spelling. */
  lemma ExpectedCanonical(t: KeySpec)
    requires WellFormedSpec(t)
    ensures NormalizeShortcut(Expected(t)) == Ok(Expected(t))
  {
    var k := Upper(t.key);
    UpperFacts(t.key);
    assert '+' !in k;
    NormalizeOneModifier(Expected(t), ModifierOf(Upper(t.modifier)).value, k);
  }

  /** `apply` hands the registry each spelled spec's expected shortcut. */
  lemma {:induction false} TranslatedSpecs(specs: seq<KeySpec>)
    requires forall i :: 0 <= i < |specs| ==> WellFormedSpec(specs[i])
    ensures Translated(SpecBindings(specs)) == ExpectedAll(specs)
  {
    var t := Translated(SpecBindings(specs));
    forall i | 0 <= i < |specs| ensures t[i] == ExpectedAll(specs)[i] {
      SpellTranslates(specs[i]);
    }
  }

  const ControlSpecs: seq<KeySpec> := [
    KeySpec("Control", false, "q", QuitId),
    KeySpec("Control", true, "q", QuitId),
    KeySpec("Control", false, "comma", PreferencesId),
    KeySpec("Control", true, "comma", PreferencesId)]

  const MacSpecs: seq<KeySpec> := [
    KeySpec("Command", false, "q", QuitId),
    KeySpec("Command", true, "q", QuitId),
    KeySpec("Meta", true, "q", QuitId),
    KeySpec("Command", false, "comma", PreferencesId),
    KeySpec("Command", true, "comma", PreferencesId),
    KeySpec("Meta", true, "comma", PreferencesId)]

  function DefaultSpecs(isMac: bool): seq<KeySpec> {
    if isMac then MacSpecs + ControlSpecs else ControlSpecs
  }

  /** The table's key sequences are the spelled specs. */
  lemma DefaultBindingsSpelled(isMac: bool)
    ensures DefaultBindings(isMac) == SpecBindings(DefaultSpecs(isMac))
  {
    ControlSpelled();
    if isMac {
      MacSpelled();
      SpecBindingsAppend(MacSpecs, ControlSpecs);
    }
  }

  lemma ControlSpelled()
    ensures SpecBindings(ControlSpecs) == ControlBindings
  {
    ControlQuitSpelled();
    ControlPreferencesSpelled();
  }

  lemma ControlQuitSpelled()
    ensures forall i :: 0 <= i < 2 ==> Spell(ControlSpecs[i]) == ControlBindings[i].0
  {
    ControlQSpelled();
    ControlPressQSpelled();
  }

  lemma ControlPreferencesSpelled()
    ensures forall i :: 2 <= i < 4 ==> Spell(ControlSpecs[i]) == ControlBindings[i].0
  {
    ControlCommaSpelled();
    ControlPressCommaSpelled();
  }

  lemma MacSpelled()
    ensures SpecBindings(MacSpecs) == MacBindings
  {
    MacQuitSpelled();
    MacPreferencesSpelled();
  }

  lemma MacQuitSpelled()
    ensures forall i :: 0 <= i < 3 ==> Spell(MacSpecs[i]) == MacBindings[i].0
  {
    CommandQSpelled();
    CommandPressQSpelled();
    MetaPressQSpelled();
  }

  lemma MacPreferencesSpelled()
    ensures forall i :: 3 <= i < 6 ==> Spell(MacSpecs[i]) == MacBindings[i].0
  {
    CommandCommaSpelled();
    CommandPressCommaSpelled();
    MetaPressCommaSpelled();
  }

  lemma ControlQSpelled()
    ensures Spell(ControlSpecs[0]) == ControlBindings[0].0
  {
    SpelledPlain(ControlSpecs[0], "<Control-q>");
  }

  lemma ControlPressQSpelled()
    ensures Spell(ControlSpecs[1]) == ControlBindings[1].0
  {
    SpelledPress(ControlSpecs[1], "<Control-KeyPress-q>");
  }

  lemma ControlCommaSpelled()
    ensures Spell(ControlSpecs[2]) == ControlBindings[2].0
  {
    SpelledPlain(ControlSpecs[2], "<Control-comma>");
  }

  lemma ControlPressCommaSpelled()
    ensures Spell(ControlSpecs[3]) == ControlBindings[3].0
  {
    SpelledPress(ControlSpecs[3], "<Control-KeyPress-comma>");
  }

  lemma CommandQSpelled()
    ensures Spell(MacSpecs[0]) == MacBindings[0].0
  {
    SpelledPlain(MacSpecs[0], "<Command-q>");
  }

  lemma CommandPressQSpelled()
    ensures Spell(MacSpecs[1]) == MacBindings[1].0
  {
    SpelledPress(MacSpecs[1], "<Command-KeyPress-q>");
  }

  lemma MetaPressQSpelled()
    ensures Spell(MacSpecs[2]) == MacBindings[2].0
  {
    SpelledPress(MacSpecs[2], "<Meta-KeyPress-q>");
  }

  lemma CommandCommaSpelled()
    ensures Spell(MacSpecs[3]) == MacBindings[3].0
  {
    SpelledPlain(MacSpecs[3], "<Command-comma>");
  }

  lemma CommandPressCommaSpelled()
    ensures Spell(MacSpecs[4]) == MacBindings[4].0
  {
    SpelledPress(MacSpecs[4], "<Command-KeyPress-comma>");
  }

  lemma MetaPressCommaSpelled()
    ensures Spell(MacSpecs[5]) == MacBindings[5].0
  {
    SpelledPress(MacSpecs[5], "<Meta-KeyPress-comma>");
  }

  /** A spec without `KeyPress` spells `<mod-key>`. */
  lemma SpelledPlain(t: KeySpec, k: string)
    requires !t.press
    requires k == "<" + t.modifier + "-" + t.key + ">"
    ensures Spell(t) == k
  {
  }

  /** A spec with `KeyPress` spells `<mod-KeyPress-key>`. */
  lemma SpelledPress(t: KeySpec, k: string)
    requires t.press
    requires k == "<" + t.modifier + "-KeyPress-" + t.key + ">"
    ensures Spell(t) == k
  {
    assert "<" + t.modifier + "-" + "KeyPress-" == "<" + t.modifier + "-KeyPress-";
  }

  lemma SpecBindingsAppend(a: seq<KeySpec>, b: seq<KeySpec>)
    ensures SpecBindings(a + b) == SpecBindings(a) + SpecBindings(b)
  {
  }

  /** What the Control bindings translate to. */
  const ControlShortcuts: seq<(string, string)> := [
    ("CTRL+Q", QuitId), ("CTRL+Q", QuitId), ("CTRL+COMMA", PreferencesId), ("CTRL+COMMA", PreferencesId)]

  /** What the macOS-only bindings translate to. */
  const MacShortcuts: seq<(string, string)> := [
    ("CMD+Q", QuitId), ("CMD+Q", QuitId), ("CMD+Q", QuitId),
    ("CMD+COMMA", PreferencesId), ("CMD+COMMA", PreferencesId), ("CMD+COMMA", PreferencesId)]

  /** The shortcuts `apply` hands to the registry for the default table. */
  function DefaultShortcuts(isMac: bool): seq<(string, string)> {
    if isMac then MacShortcuts + ControlShortcuts else ControlShortcuts
  }

  /** The modifier and key tokens the table uses. */
  predicate TableTokens(t: KeySpec) {
    (t.modifier == "Control" || t.modifier == "Command" || t.modifier == "Meta")
    && (t.key == "q" || t.key == "comma")
  }

  /** The table's tokens read as one modifier and a key, and name the
      expected shortcut. */
  lemma TableSpecExpected(t: KeySpec)
    requires TableTokens(t)
    ensures WellFormedSpec(t)
    ensures Expected(t) == if t.modifier == "Control" then (if t.key == "q" then "CTRL+Q" else "CTRL+COMMA")
                           else (if t.key == "q" then "CMD+Q" else "CMD+COMMA")
  {
    TableModifier(t.modifier);
    TableKey(t.key);
  }

  lemma TableModifier(mod: string)
    requires mod == "Control" || mod == "Command" || mod == "Meta"
    ensures ValidPart(mod, '-')
    ensures ModifierOf(Upper(mod)) == Some(if mod == "Control" then Ctrl else Cmd)
  {
    TokenSpellings();
  }

  lemma TableKey(key: string)
    requires key == "q" || key == "comma"
    ensures ValidPart(key, '-') && '+' !in key
    ensures Upper(key) == if key == "q" then "Q" else "COMMA"
    ensures ModifierOf(Upper(key)).None?
  {
    TokenSpellings();
  }

  lemma ControlExpected()
    ensures forall i :: 0 <= i < |ControlSpecs| ==> WellFormedSpec(ControlSpecs[i])
    ensures ExpectedAll(ControlSpecs) == ControlShortcuts
  {
    forall i | 0 <= i < |ControlSpecs|
      ensures WellFormedSpec(ControlSpecs[i])
      ensures (Expected(ControlSpecs[i]), ControlSpecs[i].command) == ControlShortcuts[i]
    {
      TableSpecExpected(ControlSpecs[i]);
    }
  }

  lemma MacExpected()
    ensures forall i :: 0 <= i < |MacSpecs| ==> WellFormedSpec(MacSpecs[i])
    ensures ExpectedAll(MacSpecs) == MacShortcuts
  {
    forall i | 0 <= i < |MacSpecs|
      ensures WellFormedSpec(MacSpecs[i])
      ensures (Expected(MacSpecs[i]), MacSpecs[i].command) == MacShortcuts[i]
    {
      TableSpecExpected(MacSpecs[i]);
    }
  }

  /** Every default binding targets the quit or the preferences command. */
  lemma DefaultSpecCommands(isMac: bool)
    ensures forall i :: 0 <= i < |DefaultSpecs(isMac)| ==>
      DefaultSpecs(isMac)[i].command == QuitId || DefaultSpecs(isMac)[i].command == PreferencesId
  {
    var d := DefaultSpecs(isMac);
    forall i | 0 <= i < |d| ensures d[i].command == QuitId || d[i].command == PreferencesId {
      if isMac && i >= |MacSpecs| { assert d[i] == ControlSpecs[i - |MacSpecs|]; }
    }
  }

  lemma DefaultSpecsWellFormed(isMac: bool)
    ensures forall i :: 0 <= i < |DefaultSpecs(isMac)| ==> WellFormedSpec(DefaultSpecs(isMac)[i])
    ensures ExpectedAll(DefaultSpecs(isMac)) == DefaultShortcuts(isMac)
  {
    ControlExpected();
    if isMac {
      MacExpected();
      var d := DefaultSpecs(isMac);
      assert d == MacSpecs + ControlSpecs;
      forall i | 0 <= i < |d| ensures WellFormedSpec(d[i]) {
        if i >= |MacSpecs| { assert d[i] == ControlSpecs[i - |MacSpecs|]; }
      }
      forall i | 0 <= i < |d| ensures ExpectedAll(d)[i] == DefaultShortcuts(isMac)[i] {
        if i >= |MacSpecs| { assert d[i] == ControlSpecs[i - |MacSpecs|]; }
      }
    }
  }

  /** Every quit sequence translates to "CMD+Q" or "CTRL+Q" and every
      preferences sequence to "CMD+COMMA" or "CTRL+COMMA": there is no
      table of punctuation names, so the comma key is not the registry's
      "," spelling. */
  lemma DefaultTranslations(isMac: bool)
    ensures Translated(DefaultBindings(isMac)) == DefaultShortcuts(isMac)
  {
    DefaultBindingsSpelled(isMac);
    DefaultSpecsWellFormed(isMac);
    TranslatedSpecs(DefaultSpecs(isMac));
  }
}

=== FILE: keyrouter.dfy ===
/** Contextual key routing (`keyrouter.py`): a key sequence is resolved to a
    command id through three layers — the focused component's keymap, the
    current mode's keymap, then the global keymap — and the id is executed
    through the command registry with visibility required.

    A layer is any object with a `resolve_keyseq` method; here it is an
    abstract resolver from key sequence to optional id. The router keeps a
    reference to the registry, which other code may change between calls,
    so `RouteKeyseq` takes the registry's current state as a parameter. */
module KeyRouter {
  import opened Base
  import opened Commands
  import Keys

  /** `KeyMapLike.resolve_keyseq`. */
  type Resolver = string -> Option<string>

  /** `FocusProvider`: the id of the focused component, if any. */
  type FocusProvider = () -> Option<string>

  datatype Router = Router(
    globalMap: Resolver,
    modeMaps: map<string, Resolver>,
    mode: Option<string>,
    componentMaps: map<string, Resolver>,
    focusProvider: Option<FocusProvider>)

  /** A fresh router: only the global keymap, no mode, no focus provider. */
  function NewRouter(globalMap: Resolver): (rt: Router)
    ensures rt.mode == None && rt.focusProvider == None
    ensures rt.modeMaps == map[] && rt.componentMaps == map[]
  {
    Router(globalMap, map[], None, map[], None)
  }

  /** Python truthiness of an optional string: present and non-empty. */
  predicate Truthy(s: Option<string>) {
    s.Some? && s.value != ""
  }

  // ---------------------------------------------------------------------
  // State updates
  // ---------------------------------------------------------------------

  function SetMode(rt: Router, mode: Option<string>): (r: Router)
    ensures GetMode(r) == mode
    ensures r.modeMaps == rt.modeMaps && r.componentMaps == rt.componentMaps
  {
    rt.(mode := mode)
  }

  function GetMode(rt: Router): Option<string> {
    rt.mode
  }

  function SetFocusProvider(rt: Router, provider: Option<FocusProvider>): (r: Router)
    ensures r.mode == rt.mode && r.modeMaps == rt.modeMaps && r.componentMaps == rt.componentMaps
  {
    rt.(focusProvider := provider)
  }

  /** `register_mode_keymap`: sets (or overwrites) one entry. */
  function RegisterModeKeymap(rt: Router, mode: string, km: Resolver): (r: Router)
    ensures mode in r.modeMaps && r.modeMaps[mode] == km
    ensures forall m :: m != mode ==> (m in r.modeMaps <==> m in rt.modeMaps)
    ensures forall m :: m != mode && m in rt.modeMaps ==> r.modeMaps[m] == rt.modeMaps[m]
    ensures r.componentMaps == rt.componentMaps && r.mode == rt.mode
  {
    rt.(modeMaps := rt.modeMaps[mode := km])
  }

  /** `unregister_mode_keymap`: removes the entry; absent is a no-op. */
  function UnregisterModeKeymap(rt: Router, mode: string): (r: Router)
    ensures mode !in r.modeMaps
    ensures forall m :: m != mode ==> (m in r.modeMaps <==> m in rt.modeMaps)
    ensures forall m :: m != mode && m in rt.modeMaps ==> r.modeMaps[m] == rt.modeMaps[m]
    ensures r.componentMaps == rt.componentMaps && r.mode == rt.mode
  {
    rt.(modeMaps := rt.modeMaps - {mode})
  }

  function RegisterComponentKeymap(rt: Router, componentId: string, km: Resolver): (r: Router)
    ensures componentId in r.componentMaps && r.componentMaps[componentId] == km
    ensures forall c :: c != componentId ==> (c in r.componentMaps <==> c in rt.componentMaps)
    ensures forall c :: c != componentId && c in rt.componentMaps ==> r.componentMaps[c] == rt.componentMaps[c]
    ensures r.modeMaps == rt.modeMaps && r.mode == rt.mode
  {
    rt.(componentMaps := rt.componentMaps[componentId := km])
  }

  function UnregisterComponentKeymap(rt: Router, componentId: string): (r: Router)
    ensures componentId !in r.componentMaps
    ensures forall c :: c != componentId ==> (c in r.componentMaps <==> c in rt.componentMaps)
    ensures forall c :: c != componentId && c in rt.componentMaps ==> r.componentMaps[c] == rt.componentMaps[c]
    ensures r.modeMaps == rt.modeMaps && r.mode == rt.mode
  {
    rt.(componentMaps := rt.componentMaps - {componentId})
  }

  // ---------------------------------------------------------------------
  // Resolution
  // ---------------------------------------------------------------------

  /** The focused component's id, when there is a provider and it names one. */
  function FocusId(rt: Router): Option<string> {
    match rt.focusProvider
    case None => None
    case Some(p) => p()
  }

  /** One optional layer: it answers only if its key is truthy, has a
      registered keymap, and that keymap yields a truthy id. */
  function Layer(maps: map<string, Resolver>, key: Option<string>, keyseq: string): (r: Option<string>)
    ensures r.Some? <==> (Truthy(key) && key.value in maps && Truthy(maps[key.value](keyseq)))
    ensures r.Some? ==> r == maps[key.value](keyseq) && r.value != ""
  {
    if !Truthy(key) then None
    else if key.value !in maps then None
    else
      var cid := maps[key.value](keyseq);
      if Truthy(cid) then cid else None
  }

  /** `resolve_command_id`: component layer, then mode layer, then the
      global keymap, whose answer is returned as it is. */
  function ResolveCommandId(rt: Router, keyseq: string): (r: Option<string>)
    ensures Layer(rt.componentMaps, FocusId(rt), keyseq).Some? ==>
      r == Layer(rt.componentMaps, FocusId(rt), keyseq)
    ensures Layer(rt.componentMaps, FocusId(rt), keyseq).None? && Layer(rt.modeMaps, rt.mode, keyseq).Some? ==>
      r == Layer(rt.modeMaps, rt.mode, keyseq)
    ensures Layer(rt.componentMaps, FocusId(rt), keyseq).None? && Layer(rt.modeMaps, rt.mode, keyseq).None? ==>
      r == rt.globalMap(keyseq)
  {
    var fromComponent := Layer(rt.componentMaps, FocusId(rt), keyseq);
    if fromComponent.Some? then fromComponent
    else
      var fromMode := Layer(rt.modeMaps, rt.mode, keyseq);
      if fromMode.Some? then fromMode
      else rt.globalMap(keyseq)
  }

  /** `route_keyseq`: `Ok(None)` is `False` (nothing executed), `Ok(Some(call))`
      is `True` with the one handler call made, and `Err` is a registry
      exception propagating out. */
  function RouteKeyseq(rt: Router, reg: Registry, keyseq: string, ctx: Context): (res: Result<Option<Call>>)
    ensures !Truthy(ResolveCommandId(rt, keyseq)) <==> res == Ok(None)
    ensures Truthy(ResolveCommandId(rt, keyseq)) ==>
      match Execute(reg, ResolveCommandId(rt, keyseq).value, ctx, true)
      case Ok(call) => res == Ok(Some(call))
      case Err(e) => res == Err(e)
  {
    var cid := ResolveCommandId(rt, keyseq);
    if !Truthy(cid) then Ok(None)
    else
      match Execute(reg, cid.value, ctx, true)
      case Err(e) => Err(e)
      case Ok(call) => Ok(Some(call))
  }

  // ---------------------------------------------------------------------
  // Properties
  // ---------------------------------------------------------------------

  /** A resolver that never answers. */
  function Silent(): (r: Resolver)
    ensures forall k :: r(k) == None
  {
    k => None
  }

  /** Precedence: a focused component whose keymap binds the sequence wins
      over the mode and the global keymap. */
  lemma ComponentShadows(rt: Router, keyseq: string, focus: string, id: string)
    requires FocusId(rt) == Some(focus) && focus != "" && focus in rt.componentMaps
    requires rt.componentMaps[focus](keyseq) == Some(id) && id != ""
    ensures ResolveCommandId(rt, keyseq) == Some(id)
  {
    assert Layer(rt.componentMaps, FocusId(rt), keyseq) == Some(id);
  }

  /** Without a focus match, a bound mode keymap wins over the global one. */
  lemma ModeShadowsGlobal(rt: Router, keyseq: string, mode: string, id: string)
    requires Layer(rt.componentMaps, FocusId(rt), keyseq).None?
    requires rt.mode == Some(mode) && mode != "" && mode in rt.modeMaps
    requires rt.modeMaps[mode](keyseq) == Some(id) && id != ""
    ensures ResolveCommandId(rt, keyseq) == Some(id)
  {
    assert Layer(rt.modeMaps, rt.mode, keyseq) == Some(id);
  }

  /** A missing layer and a layer that yields no id (or an empty id) are
      the same: replacing the mode's keymap by one that never answers, or
      removing it, leaves resolution unchanged. */
  lemma AbsentModeLayerFallsThrough(rt: Router, keyseq: string)
    requires rt.mode.Some? && rt.mode.value in rt.modeMaps
    requires !Truthy(rt.modeMaps[rt.mode.value](keyseq))
    ensures ResolveCommandId(rt, keyseq) == ResolveCommandId(UnregisterModeKeymap(rt, rt.mode.value), keyseq)
    ensures ResolveCommandId(rt, keyseq) == ResolveCommandId(RegisterModeKeymap(rt, rt.mode.value, Silent()), keyseq)
  {
  }

  /** The same for the focused component's layer. */
  lemma AbsentComponentLayerFallsThrough(rt: Router, keyseq: string, focus: string)
    requires FocusId(rt) == Some(focus) && focus in rt.componentMaps
    requires !Truthy(rt.componentMaps[focus](keyseq))
    ensures ResolveCommandId(rt, keyseq) == ResolveCommandId(UnregisterComponentKeymap(rt, focus), keyseq)
    ensures ResolveCommandId(rt, keyseq) == ResolveCommandId(RegisterComponentKeymap(rt, focus, Silent()), keyseq)
    ensures ResolveCommandId(rt, keyseq) == ResolveCommandId(SetFocusProvider(rt, None), keyseq)
  {
  }

  /** With no focus provider and no mode, only the global keymap counts. */
  lemma GlobalOnly(rt: Router, keyseq: string)
    requires rt.focusProvider.None? && rt.mode.None?
    ensures ResolveCommandId(rt, keyseq) == rt.globalMap(keyseq)
  {
  }

  /** A routed command is exactly one registry execution with visibility
      required, and a registry error is what comes out. */
  lemma RouteIsExecute(rt: Router, reg: Registry, keyseq: string, ctx: Context)
    requires Truthy(ResolveCommandId(rt, keyseq))
    ensures var id := ResolveCommandId(rt, keyseq).value;
      && (RouteKeyseq(rt, reg, keyseq, ctx).Ok? <==> Execute(reg, id, ctx, true).Ok?)
      && (RouteKeyseq(rt, reg, keyseq, ctx).Ok? ==>
            RouteKeyseq(rt, reg, keyseq, ctx).value == Some(Call(id, reg.commands[id].handler, ctx)))
      && (RouteKeyseq(rt, reg, keyseq, ctx).Err? ==>
            RouteKeyseq(rt, reg, keyseq, ctx).error in {CommandNotFound, CommandNotVisible, CommandNotEnabled})
  {
  }

  /** The keymap of `keys.py` used as a layer: exact lookup, no translation. */
  function ExactResolver(km: Keys.KeyMap): (r: Resolver)
    ensures forall k :: r(k) == Keys.Resolve(km, k)
  {
    k => Keys.Resolve(km, k)
  }

  /** With exact keymaps, a sequence bound in the mode keymap and in the
      global keymap routes to the mode's command when that mode is set. */
  lemma ModeKeymapOverridesGlobal(globalKm: Keys.KeyMap, modeKm: Keys.KeyMap, mode: string, keyseq: string)
    requires mode != ""
    requires Keys.Resolve(modeKm, keyseq).Some? && Keys.Resolve(modeKm, keyseq).value != ""
    ensures var rt := SetMode(RegisterModeKeymap(NewRouter(ExactResolver(globalKm)), mode, ExactResolver(modeKm)), Some(mode));
      ResolveCommandId(rt, keyseq) == Keys.Resolve(modeKm, keyseq)
  {
    var rt := SetMode(RegisterModeKeymap(NewRouter(ExactResolver(globalKm)), mode, ExactResolver(modeKm)), Some(mode));
    assert FocusId(rt) == None;
    ModeShadowsGlobal(rt, keyseq, mode, Keys.Resolve(modeKm, keyseq).value);
  }
}

=== FILE: keys.dfy ===
/** The key-binding table (`keys.py`): translation of Tk key sequences such
    as `<Control-q>` into the registry's canonical shortcut spelling, the
    `KeyMap` from key sequences to command ids, and `apply`, which pushes
    every binding into a command registry. */
module Keys {
  import opened Base
  import opened Text
  import opened Commands

  // ---------------------------------------------------------------------
  // Tk key sequences
  // ---------------------------------------------------------------------

  /** `s.startswith("<") and s.endswith(">")`; a lone "<" is not enough
      because it does not end with ">". */
  predicate Bracketed(s: string) {
    |s| > 0 && s[0] == '<' && s[|s| - 1] == '>'
  }

  /** `s[1:-1].strip()` of a bracketed string (empty for a one-character one). */
  function Interior(s: string): string
    requires Bracketed(s)
  {
    Trim(if |s| >= 2 then s[1..|s| - 1] else "")
  }

  /** The stripped, non-empty '-'-separated tokens of a bracketed key
      sequence; nothing for any other input. */
  function TkParts(keyseq: string): (parts: seq<string>)
    ensures forall i :: 0 <= i < |parts| ==> ValidPart(parts[i], '-')
  {
    var s := Trim(keyseq);
    if Bracketed(s) then Pieces(Interior(s), '-') else []
  }

  /** `_tk_to_canonical`. Input that is empty, not bracketed, has an empty
      interior or no non-modifier token comes back stripped and otherwise
      unchanged; otherwise the modifiers (deduplicated, in fixed order) are
      joined by '+' with the LAST non-modifier token, upper-cased. There is
      no table of punctuation names, so `comma` stays `COMMA`. */
  function TkToCanonical(keyseq: string): (r: string)
    ensures !Bracketed(Trim(keyseq)) ==> r == Trim(keyseq)
  {
    var s := Trim(keyseq);
    if s == "" then s
    else if !Bracketed(s) then s
    else
      var inner := Interior(s);
      if inner == "" then s
      else
        var parts := Pieces(inner, '-');
        if |parts| == 0 then s
        else
          var keys := KeyTokens(parts);
          if |keys| == 0 then s
          else Canonical(ModifiersOf(parts), keys[|keys| - 1])
  }

  /** All of the early returns of `_tk_to_canonical` are the one case in
      which the interior has no non-modifier token; in every other case the
      result is the canonical join of the modifiers and the last key. */
  lemma TkToCanonicalShape(keyseq: string)
    ensures |KeyTokens(TkParts(keyseq))| == 0 ==> TkToCanonical(keyseq) == Trim(keyseq)
    ensures |KeyTokens(TkParts(keyseq))| > 0 ==>
      TkToCanonical(keyseq) == Canonical(ModifiersOf(TkParts(keyseq)), TkKey(keyseq))
  {
    var s := Trim(keyseq);
    if Bracketed(s) {
      var inner := Interior(s);
      assert TkParts(keyseq) == Pieces(inner, '-');
      if inner == "" {
        assert Split(inner, '-') == [""];
        assert Pieces(inner, '-') == [];
      }
    } else {
      assert TkParts(keyseq) == [];
    }
  }

  /** The key a bracketed sequence translates to, when there is one. */
  function TkKey(keyseq: string): string
    requires |KeyTokens(TkParts(keyseq))| > 0
  {
    var keys := KeyTokens(TkParts(keyseq));
    keys[|keys| - 1]
  }

  /** A translated sequence is already in the registry's canonical form
      (so `normalize_shortcut` returns it unchanged), unless its key token
      itself contains '+'. */
  lemma TkTranslationIsCanonical(keyseq: string)
    requires |KeyTokens(TkParts(keyseq))| > 0
    requires '+' !in TkKey(keyseq)
    ensures NormalizeShortcut(TkToCanonical(keyseq)) == Ok(TkToCanonical(keyseq))
  {
    var parts := TkParts(keyseq);
    TkToCanonicalShape(keyseq);
    KeyTokensCanonical(parts, '-');
    CanonicalIsFixedPoint(ModifiersOf(parts), TkKey(keyseq));
  }

  /** A bracketed join of well-formed tokens splits back into those tokens. */
  lemma TkPartsOfJoin(tokens: seq<string>)
    requires |tokens| >= 1
    requires forall i :: 0 <= i < |tokens| ==> ValidPart(tokens[i], '-')
    ensures TkParts("<" + Join(tokens, '-') + ">") == tokens
  {
    var j := Join(tokens, '-');
    var s := "<" + j + ">";
    JoinEnds(tokens, '-');
    assert Trimmed(s);
    assert Trim(s) == s;
    assert s[1..|s| - 1] == j;
    assert Trimmed(j);
    SplitJoin(tokens, '-');
    KeepStrippedValid(tokens, '-');
  }

  /** A non-modifier token between the modifiers and the key, such as Tk's
      `KeyPress`, does not change the translation: only the modifiers and
      the last non-modifier token count. */
  lemma TkIgnoresInnerTokens(a: string, b: string, mods: seq<string>, extra: string, key: string)
    requires TkParts(a) == mods + [extra, key] && TkParts(b) == mods + [key]
    requires ModifierOf(Upper(extra)).None? && ModifierOf(Upper(key)).None?
    ensures TkToCanonical(a) == TkToCanonical(b)
  {
    InnerTokenParts(mods, extra, key);
    TkSameTranslation(a, b, mods + [extra, key], mods + [key]);
  }

  /** Two sequences with the same modifiers and the same last key
      translate alike. */
  lemma TkSameTranslation(a: string, b: string, pa: seq<string>, pb: seq<string>)
    requires TkParts(a) == pa && TkParts(b) == pb
    requires var ka := KeyTokens(pa); var kb := KeyTokens(pb);
      |ka| > 0 && |kb| > 0 && ka[|ka| - 1] == kb[|kb| - 1]
    requires ModifiersOf(pa) == ModifiersOf(pb)
    ensures TkToCanonical(a) == TkToCanonical(b)
  {
    TkToCanonicalShape(a);
    TkToCanonicalShape(b);
  }

  lemma InnerTokenParts(mods: seq<string>, extra: string, key: string)
    requires ModifierOf(Upper(extra)).None? && ModifierOf(Upper(key)).None?
    ensures var kl := KeyTokens(mods + [extra, key]); |kl| > 0 && kl[|kl| - 1] == Upper(key)
    ensures var ks := KeyTokens(mods + [key]); |ks| > 0 && ks[|ks| - 1] == Upper(key)
    ensures ModifiersOf(mods + [extra, key]) == ModifiersOf(mods + [key])
  {
    var tail := [extra, key];
    assert tail[1..] == [key];
    assert KeyTokens(tail) == [Upper(extra), Upper(key)];
    assert KeyTokens([key]) == [Upper(key)];
    KeyTokensAppend(mods, tail);
    KeyTokensAppend(mods, [key]);
    assert ModifiersOf(tail) == {} && ModifiersOf([key]) == {};
    ModifiersOfAppend(mods, tail);
    ModifiersOfAppend(mods, [key]);
  }

  /** A sequence whose last key is `k` and whose only modifier is `m`
      translates to "M+K". */
  lemma TkOneModifier(keyseq: string, m: Modifier, k: string, r: string)
    requires var ks := KeyTokens(TkParts(keyseq)); |ks| > 0 && ks[|ks| - 1] == k
    requires ModifiersOf(TkParts(keyseq)) == {m}
    requires r == ModifierName(m) + "+" + k
    ensures TkToCanonical(keyseq) == r
  {
    TkToCanonicalShape(keyseq);
    CanonicalSingle(m, k);
  }

  /** `<Mod-key>` translates to the modifier's canonical name, '+', and the
      upper-cased key. */
  lemma TkModifierKey(keyseq: string, mod: string, key: string, m: Modifier, r: string)
    requires TkParts(keyseq) == [mod, key]
    requires ModifierOf(Upper(mod)) == Some(m) && ModifierOf(Upper(key)).None?
    requires r == ModifierName(m) + "+" + Upper(key)
    ensures TkToCanonical(keyseq) == r
  {
    ModifierKeyTokens(mod, key, m);
    TkOneModifier(keyseq, m, Upper(key), r);
  }

  lemma ModifierKeyTokens(mod: string, key: string, m: Modifier)
    requires ModifierOf(Upper(mod)) == Some(m) && ModifierOf(Upper(key)).None?
    ensures KeyTokens([mod, key]) == [Upper(key)] && ModifiersOf([mod, key]) == {m}
  {
    assert [mod, key][1..] == [key];
    assert KeyTokens([key]) == [Upper(key)];
    assert ModifiersOf([key]) == {};
  }

  /** `<Mod-KeyPress-key>` translates like `<Mod-key>`: the inner token is
      not the last, so it is not the key. */
  lemma TkModifierPressKey(keyseq: string, mod: string, press: string, key: string, m: Modifier, r: string)
    requires TkParts(keyseq) == [mod, press, key]
    requires ModifierOf(Upper(mod)) == Some(m)
    requires ModifierOf(Upper(press)).None? && ModifierOf(Upper(key)).None?
    requires r == ModifierName(m) + "+" + Upper(key)
    ensures TkToCanonical(keyseq) == r
  {
    PressKeyTokens(mod, press, key, m);
    TkOneModifier(keyseq, m, Upper(key), r);
  }

  lemma PressKeyTokens(mod: string, press: string, key: string, m: Modifier)
    requires ModifierOf(Upper(mod)) == Some(m)
    requires ModifierOf(Upper(press)).None? && ModifierOf(Upper(key)).None?
    ensures KeyTokens([mod, press, key]) == [Upper(press), Upper(key)]
    ensures ModifiersOf([mod, press, key]) == {m}
  {
    var t := [mod, press, key];
    assert t[1..] == [press, key] && t[1..][1..] == [key];
    assert KeyTokens([key]) == [Upper(key)];
    assert KeyTokens([press, key]) == [Upper(press), Upper(key)];
    assert ModifiersOf([key]) == {};
    assert ModifiersOf([press, key]) == {};
  }

  lemma {:induction false} ModifiersOfAppend(a: seq<string>, b: seq<string>)
    ensures ModifiersOf(a + b) == ModifiersOf(a) + ModifiersOf(b)
  {
    if |a| > 0 {
      assert (a + b)[1..] == a[1..] + b;
      ModifiersOfAppend(a[1..], b);
    } else {
      assert a + b == b;
    }
  }

  // ---------------------------------------------------------------------
  // KeyMap
  // ---------------------------------------------------------------------

  /** `KeyMap._bindings`: a dict, kept as its table and its key order. */
  datatype KeyMap = KeyMap(order: seq<string>, table: map<string, string>)

  const EmptyKeyMap: KeyMap := KeyMap([], map[])

  /** The order lists each key of the table exactly once. */
  ghost predicate KeyMapValid(km: KeyMap) {
    && (forall i, j :: 0 <= i < j < |km.order| ==> km.order[i] != km.order[j])
    && (forall k :: k in km.table <==> k in km.order)
  }

  /** `resolve`: an exact lookup, with no translation. */
  function Resolve(km: KeyMap, keyseq: string): (r: Option<string>)
    ensures r.Some? <==> keyseq in km.table
    ensures r.Some? ==> km.table[keyseq] == r.value
  {
    if keyseq in km.table then Some(km.table[keyseq]) else None
  }

  /** `bind`: refuses an empty key sequence or id, and an existing key
      unless `overwrite`; a failed bind changes nothing. */
  function Bind(km: KeyMap, keyseq: string, id: string, overwrite: bool): (r: Result<KeyMap>)
    ensures keyseq == "" || id == "" ==> r == Err(ValueError)
    ensures !overwrite && Resolve(km, keyseq).Some? ==> r == Err(ValueError)
    ensures r.Ok? <==> (keyseq != "" && id != "" && (overwrite || Resolve(km, keyseq).None?))
    ensures r.Ok? ==> Resolve(r.value, keyseq) == Some(id)
    ensures r.Ok? ==> forall k :: k != keyseq ==> Resolve(r.value, k) == Resolve(km, k)
    ensures r.Ok? && Resolve(km, keyseq).Some? ==> Keys(r.value) == Keys(km)
    ensures r.Ok? && Resolve(km, keyseq).None? ==> Keys(r.value) == Keys(km) + [keyseq]
    ensures r.Ok? && KeyMapValid(km) ==> KeyMapValid(r.value)
  {
    if keyseq == "" then Err(ValueError)
    else if id == "" then Err(ValueError)
    else if !overwrite && keyseq in km.table then Err(ValueError)
    else
      var order := if keyseq in km.table then km.order else km.order + [keyseq];
      Ok(KeyMap(order, km.table[keyseq := id]))
  }

  /** `unbind`: drops the key if present; nothing else changes. */
  function Unbind(km: KeyMap, keyseq: string): (r: KeyMap)
    ensures Resolve(r, keyseq) == None
    ensures forall k :: k != keyseq ==> Resolve(r, k) == Resolve(km, k)
    ensures KeyMapValid(km) ==> forall k :: k in Keys(r) <==> k in Keys(km) && k != keyseq
    ensures Resolve(km, keyseq).None? ==> r == km
    ensures KeyMapValid(km) ==> forall i :: 0 <= i < |Keys(km)| && Keys(km)[i] == keyseq ==>
      Keys(r) == Keys(km)[..i] + Keys(km)[i + 1..]
    ensures KeyMapValid(km) ==> KeyMapValid(r)
  {
    RemoveIdInPlace(km.order, keyseq);
    if keyseq in km.table then KeyMap(RemoveId(km.order, keyseq), km.table - {keyseq})
    else km
  }

  /** `keys`: the key sequences in insertion order. */
  function Keys(km: KeyMap): (r: seq<string>)
    ensures KeyMapValid(km) ==> forall k :: k in r <==> Resolve(km, k).Some?
  {
    km.order
  }

  /** `items`: the bindings in insertion order. */
  function Items(km: KeyMap): (r: seq<(string, string)>)
    requires KeyMapValid(km)
    ensures |r| == |Keys(km)|
    ensures forall i :: 0 <= i < |r| ==> r[i].0 == Keys(km)[i] && Resolve(km, r[i].0) == Some(r[i].1)
  {
    seq(|km.order|, i requires 0 <= i < |km.order| => (km.order[i], km.table[km.order[i]]))
  }

  /** `clear`: no keys remain. */
  function Clear(km: KeyMap): (r: KeyMap)
    ensures Keys(r) == [] && KeyMapValid(r)
    ensures forall k :: Resolve(r, k) == None
  {
    EmptyKeyMap
  }

  /** `bind` with its default `overwrite` applied to each pair in turn, as
      a table of defaults is built; the first failure propagates. */
  function BindEach(km: KeyMap, bindings: seq<(string, string)>): (r: Result<KeyMap>)
    ensures r.Ok? <==> forall i :: 0 <= i < |bindings| ==> bindings[i].0 != "" && bindings[i].1 != ""
    decreases |bindings|
  {
    if |bindings| == 0 then Ok(km)
    else
      match Bind(km, bindings[0].0, bindings[0].1, true)
      case Err(e) => Err(e)
      case Ok(next) =>
        assert forall i :: 1 <= i < |bindings| ==> bindings[1..][i - 1] == bindings[i];
        BindEach(next, bindings[1..])
  }

  /** Binding a new key first appends one item, then the rest follow. */
  lemma BindEachFirst(km: KeyMap, bindings: seq<(string, string)>) returns (next: KeyMap)
    requires KeyMapValid(km) && |bindings| > 0
    requires bindings[0].0 != "" && bindings[0].1 != "" && bindings[0].0 !in km.table
    ensures KeyMapValid(next) && next.table == km.table[bindings[0].0 := bindings[0].1]
    ensures Items(next) == Items(km) + [bindings[0]]
    ensures BindEach(km, bindings) == BindEach(next, bindings[1..])
  {
    next := Bind(km, bindings[0].0, bindings[0].1, true).value;
  }

  /** Binding distinct new keys lists them after the existing ones, in
      the order given. */
  lemma {:induction false} BindEachItems(km: KeyMap, bindings: seq<(string, string)>)
    requires KeyMapValid(km)
    requires forall i :: 0 <= i < |bindings| ==> bindings[i].0 != "" && bindings[i].1 != ""
    requires forall i :: 0 <= i < |bindings| ==> bindings[i].0 !in km.table
    requires forall i, j :: 0 <= i < j < |bindings| ==> bindings[i].0 != bindings[j].0
    ensures BindEach(km, bindings).Ok? && KeyMapValid(BindEach(km, bindings).value)
    ensures Items(BindEach(km, bindings).value) == Items(km) + bindings
    decreases |bindings|
  {
    if |bindings| > 0 {
      var rest := bindings[1..];
      var next := BindEachFirst(km, bindings);
      FreshTail(km, next, bindings);
      BindEachItems(next, rest);
      AppendFirst(Items(km), bindings);
    }
  }

  /** The conditions of `BindEachItems` carry over to the remaining
      bindings once the first is in. */
  lemma FreshTail(km: KeyMap, next: KeyMap, bindings: seq<(string, string)>)
    requires |bindings| > 0
    requires forall i :: 0 <= i < |bindings| ==> bindings[i].0 != "" && bindings[i].1 != ""
    requires forall i :: 0 <= i < |bindings| ==> bindings[i].0 !in km.table
    requires forall i, j :: 0 <= i < j < |bindings| ==> bindings[i].0 != bindings[j].0
    requires next.table == km.table[bindings[0].0 := bindings[0].1]
    ensures forall i :: 0 <= i < |bindings[1..]| ==> bindings[1..][i].0 != "" && bindings[1..][i].1 != ""
    ensures forall i :: 0 <= i < |bindings[1..]| ==> bindings[1..][i].0 !in next.table
    ensures forall i, j :: 0 <= i < j < |bindings[1..]| ==> bindings[1..][i].0 != bindings[1..][j].0
  {
    var rest := bindings[1..];
    forall i | 0 <= i < |rest| ensures rest[i].0 !in next.table && rest[i].0 != "" && rest[i].1 != "" {
      assert rest[i] == bindings[i + 1];
    }
    forall i, j | 0 <= i < j < |rest| ensures rest[i].0 != rest[j].0 {
      assert rest[i] == bindings[i + 1] && rest[j] == bindings[j + 1];
    }
  }

  // ---------------------------------------------------------------------
  // apply
  // ---------------------------------------------------------------------

  /** Each binding with its key sequence translated, as `apply` hands it
      to `bind_shortcut`. */
  function Translated(items: seq<(string, string)>): (t: seq<(string, string)>)
    ensures |t| == |items|
    ensures forall i :: 0 <= i < |items| ==> t[i] == (TkToCanonical(items[i].0), items[i].1)
  {
    seq(|items|, i requires 0 <= i < |items| => (TkToCanonical(items[i].0), items[i].1))
  }

  /** The loop of `apply` over translated bindings: bind each in order,
      stopping at the first exception with the earlier bindings in place. */
  function BindAll(pairs: seq<(string, string)>, r: Registry, replace: bool): (u: Update<Registry>)
    ensures u.state.commands == r.commands && u.state.ids == r.ids
  {
    if |pairs| == 0 then Update(r, Done)
    else
      var first := BindShortcut(r, pairs[0].0, pairs[0].1, replace);
      if first.outcome.Raised? then first
      else BindAll(pairs[1..], first.state, replace)
  }

  /** `apply`. `None` stands for a registry object without a callable
      `bind_shortcut`, which raises TypeError before anything is bound. */
  function Apply(km: KeyMap, target: Option<Registry>, replace: bool): (res: Result<Update<Registry>>)
    requires KeyMapValid(km)
    ensures target.None? <==> res == Err(TypeError)
    ensures target.Some? ==> res.Ok? && res.value.state.commands == target.value.commands
  {
    match target
    case None => Err(TypeError)
    case Some(r) => Ok(BindAll(Translated(Items(km)), r, replace))
  }

  /** Applying keeps the registry well formed. */
  lemma {:induction false} BindAllValid(pairs: seq<(string, string)>, r: Registry, replace: bool)
    requires Valid(r)
    ensures Valid(BindAll(pairs, r, replace).state)
  {
    if |pairs| > 0 {
      var first := BindShortcut(r, pairs[0].0, pairs[0].1, replace);
      BindShortcutValid(r, pairs[0].0, pairs[0].1, replace);
      if first.outcome.Done? {
        assert BindAll(pairs, r, replace) == BindAll(pairs[1..], first.state, replace);
        BindAllValid(pairs[1..], first.state, replace);
      } else {
        assert BindAll(pairs, r, replace) == first;
      }
    }
  }

  /** Applying keeps every shortcut-index key canonical. */
  lemma {:induction false} BindAllCanonical(pairs: seq<(string, string)>, r: Registry, replace: bool)
    requires CanonicalKeys(r)
    ensures CanonicalKeys(BindAll(pairs, r, replace).state)
  {
    if |pairs| > 0 {
      var first := BindShortcut(r, pairs[0].0, pairs[0].1, replace);
      BindShortcutCanonical(r, pairs[0].0, pairs[0].1, replace);
      if first.outcome.Done? {
        assert BindAll(pairs, r, replace) == BindAll(pairs[1..], first.state, replace);
        BindAllCanonical(pairs[1..], first.state, replace);
      } else {
        assert BindAll(pairs, r, replace) == first;
      }
    }
  }

  /** Keys that no binding normalises to keep their entry. */
  lemma {:induction false} BindAllFrame(pairs: seq<(string, string)>, r: Registry, replace: bool, k: string)
    requires forall i :: 0 <= i < |pairs| ==> NormalizeShortcut(pairs[i].0) != Ok(k)
    ensures k in BindAll(pairs, r, replace).state.shortcuts <==> k in r.shortcuts
    ensures k in r.shortcuts ==> BindAll(pairs, r, replace).state.shortcuts[k] == r.shortcuts[k]
  {
    if |pairs| > 0 {
      var first := BindShortcut(r, pairs[0].0, pairs[0].1, replace);
      BindAllStep(pairs, r, replace);
      if first.outcome.Done? {
        var rest := pairs[1..];
        assert forall i :: 0 <= i < |rest| ==> NormalizeShortcut(rest[i].0) != Ok(k) by {
          forall i | 0 <= i < |rest| ensures NormalizeShortcut(rest[i].0) != Ok(k) {
            TailAt(pairs, i);
          }
        }
        assert NormalizeShortcut(pairs[0].0) != Ok(k);
        BindAllFrame(rest, first.state, replace, k);
      }
    }
  }

  /** Without `replace`, existing entries are never changed. */
  lemma {:induction false} BindAllKeepsExisting(pairs: seq<(string, string)>, r: Registry, k: string)
    requires k in r.shortcuts
    ensures k in BindAll(pairs, r, false).state.shortcuts
    ensures BindAll(pairs, r, false).state.shortcuts[k] == r.shortcuts[k]
  {
    if |pairs| > 0 {
      var first := BindShortcut(r, pairs[0].0, pairs[0].1, false);
      if first.outcome.Done? {
        BindAllKeepsExisting(pairs[1..], first.state, k);
      }
    }
  }

  /** One step of the loop. */
  lemma BindAllStep(pairs: seq<(string, string)>, r: Registry, replace: bool)
    requires |pairs| > 0
    ensures var first := BindShortcut(r, pairs[0].0, pairs[0].1, replace);
      BindAll(pairs, r, replace) == (if first.outcome.Raised? then first else BindAll(pairs[1..], first.state, replace))
  {
  }

  /** Without `replace`, a completed apply leaves every binding's shortcut
      resolving to that binding's own id. */
  lemma {:induction false} BindAllDoneKeeps(pairs: seq<(string, string)>, r: Registry, i: nat)
    requires BindAll(pairs, r, false).outcome.Done?
    requires i < |pairs|
    ensures ResolveShortcut(BindAll(pairs, r, false).state, pairs[i].0) == Ok(Some(pairs[i].1))
  {
    var first := BindShortcut(r, pairs[0].0, pairs[0].1, false);
    BindAllStep(pairs, r, false);
    if i > 0 {
      BindAllDoneKeeps(pairs[1..], first.state, i - 1);
      TailAt(pairs, i - 1);
    } else {
      var k := NormalizeShortcut(pairs[0].0).value;
      BindAllKeepsExisting(pairs[1..], first.state, k);
    }
  }

  /** `f` applied to each binding's key sequence, in order. */
  function MapKeys<B>(pairs: seq<(string, string)>, f: string -> B): (bs: seq<B>)
    ensures |bs| == |pairs|
  {
    if |pairs| == 0 then [] else [f(pairs[0].0)] + MapKeys(pairs[1..], f)
  }

  lemma {:induction false} MapKeysAt<B>(pairs: seq<(string, string)>, f: string -> B, i: nat)
    requires i < |pairs|
    ensures MapKeys(pairs, f)[i] == f(pairs[i].0)
  {
    if i > 0 {
      MapKeysAt(pairs[1..], f, i - 1);
      assert pairs[1..][i - 1] == pairs[i];
    }
  }

  /** What each binding's shortcut normalises to. */
  function Filings(pairs: seq<(string, string)>): (fs: seq<Result<string>>)
    ensures |fs| == |pairs|
  {
    MapKeys(pairs, NormalizeShortcut)
  }

  lemma FilingsAt(pairs: seq<(string, string)>, i: nat)
    requires i < |pairs|
    ensures Filings(pairs)[i] == NormalizeShortcut(pairs[i].0)
  {
    MapKeysAt(pairs, NormalizeShortcut, i);
  }

  /** The filings of a non-empty list: the first binding's, then the rest's. */
  lemma FilingsCons(pairs: seq<(string, string)>)
    requires |pairs| > 0
    ensures Filings(pairs)[0] == NormalizeShortcut(pairs[0].0)
    ensures Filings(pairs)[1..] == Filings(pairs[1..])
  {
    assert Filings(pairs) == [NormalizeShortcut(pairs[0].0)] + Filings(pairs[1..]);
  }

  /** The index of the last occurrence of `x`, or -1 when there is none. */
  function LastIndex<T(==)>(xs: seq<T>, x: T): (j: int)
    ensures -1 <= j < |xs|
    ensures j >= 0 ==> xs[j] == x
    ensures forall m :: j < m < |xs| ==> xs[m] != x
  {
    if |xs| == 0 then -1
    else if xs[|xs| - 1] == x then |xs| - 1
    else LastIndex(xs[..|xs| - 1], x)
  }

  lemma LastIndexCons<T>(xs: seq<T>, x: T)
    requires |xs| > 0
    ensures LastIndex(xs, x) == (if LastIndex(xs[1..], x) >= 0 then LastIndex(xs[1..], x) + 1
                                 else if xs[0] == x then 0 else -1)
  {
    var j := LastIndex(xs, x);
    var t := LastIndex(xs[1..], x);
    if t >= 0 {
      assert xs[t + 1] == xs[1..][t];
      assert forall m :: t + 1 < m < |xs| ==> xs[m] == xs[1..][m - 1];
    } else {
      assert forall m :: 0 < m < |xs| ==> xs[m] == xs[1..][m - 1];
    }
    LastIndexUnique(xs, x, j);
    LastIndexUnique(xs, x, if t >= 0 then t + 1 else if xs[0] == x then 0 else -1);
  }

  /** The last index is pinned down by its two properties. */
  lemma LastIndexUnique<T>(xs: seq<T>, x: T, j: int)
    requires -1 <= j < |xs|
    requires j >= 0 ==> xs[j] == x
    requires forall m :: j < m < |xs| ==> xs[m] != x
    ensures j == LastIndex(xs, x)
  {
  }

  /** The index of the last binding whose shortcut normalises to `k`, or
      -1 when there is none. */
  function LastFiled(pairs: seq<(string, string)>, k: string): (j: int)
    ensures -1 <= j < |pairs|
    ensures j >= 0 ==> Filings(pairs)[j] == Ok(k)
    ensures forall m :: j < m < |pairs| ==> Filings(pairs)[m] != Ok(k)
  {
    LastIndex(Filings(pairs), Ok(k))
  }

  /** A completed apply binds every shortcut it was given. */
  lemma {:induction false} BindAllNormalizes(pairs: seq<(string, string)>, r: Registry, replace: bool, i: nat)
    requires BindAll(pairs, r, replace).outcome.Done?
    requires i < |pairs|
    ensures NormalizeShortcut(pairs[i].0).Ok?
  {
    var first := BindShortcut(r, pairs[0].0, pairs[0].1, replace);
    BindAllStep(pairs, r, replace);
    if i > 0 {
      BindAllNormalizes(pairs[1..], first.state, replace, i - 1);
      TailAt(pairs, i - 1);
    }
  }

  /** The last binding filed under `k` in a non-empty list: the rest's, one
      further on, else the first binding if it is filed there, else none. */
  lemma LastFiledCons(pairs: seq<(string, string)>, k: string)
    requires |pairs| > 0
    ensures LastFiled(pairs, k) == (if LastFiled(pairs[1..], k) >= 0 then LastFiled(pairs[1..], k) + 1
                                    else if NormalizeShortcut(pairs[0].0) == Ok(k) then 0 else -1)
  {
    FilingsCons(pairs);
    LastIndexCons(Filings(pairs), Ok(k));
  }

  /** With no binding filed under `k`, no shortcut normalises to `k`. */
  lemma NoneFiled(pairs: seq<(string, string)>, k: string)
    requires LastFiled(pairs, k) < 0
    ensures forall m :: 0 <= m < |pairs| ==> NormalizeShortcut(pairs[m].0) != Ok(k)
  {
    forall m | 0 <= m < |pairs| ensures NormalizeShortcut(pairs[m].0) != Ok(k) {
      FilingsAt(pairs, m);
    }
  }

  /** After a completed apply, a key holds the id of the last binding filed
      under it; a key no binding names keeps what it had. */
  lemma {:induction false} BindAllLastWins(pairs: seq<(string, string)>, r: Registry, replace: bool, k: string)
    requires BindAll(pairs, r, replace).outcome.Done?
    ensures var st := BindAll(pairs, r, replace).state;
      LastFiled(pairs, k) >= 0 ==> k in st.shortcuts && st.shortcuts[k] == pairs[LastFiled(pairs, k)].1
  {
    if |pairs| > 0 {
      var first := BindShortcut(r, pairs[0].0, pairs[0].1, replace);
      BindAllStep(pairs, r, replace);
      var rest := pairs[1..];
      LastFiledCons(pairs, k);
      var t := LastFiled(rest, k);
      if t >= 0 {
        assert first.outcome.Done?;
        var st := BindAll(rest, first.state, replace).state;
        assert BindAll(pairs, r, replace).state == st;
        BindAllLastWins(rest, first.state, replace, k);
        TailAt(pairs, t);
        assert LastFiled(pairs, k) == t + 1;
        assert k in st.shortcuts && st.shortcuts[k] == pairs[t + 1].1;
      } else if NormalizeShortcut(pairs[0].0) == Ok(k) {
        BindAllFirstWins(pairs, r, replace, k);
      }
    }
  }

  /** When only the first binding is filed under `k`, a completed apply
      leaves `k` holding the first binding's id. */
  lemma BindAllFirstWins(pairs: seq<(string, string)>, r: Registry, replace: bool, k: string)
    requires |pairs| > 0 && BindAll(pairs, r, replace).outcome.Done?
    requires NormalizeShortcut(pairs[0].0) == Ok(k) && LastFiled(pairs[1..], k) < 0
    ensures var st := BindAll(pairs, r, replace).state;
      k in st.shortcuts && st.shortcuts[k] == pairs[0].1
  {
    var first := BindShortcut(r, pairs[0].0, pairs[0].1, replace);
    BindAllStep(pairs, r, replace);
    NoneFiled(pairs[1..], k);
    BindAllFrame(pairs[1..], first.state, replace, k);
    ResolvedKey(first.state, pairs[0].0, k, pairs[0].1);
  }

  /** A shortcut that resolves to `id` and normalises to `k` is filed under
      `k`. */
  lemma ResolvedKey(r: Registry, shortcut: string, k: string, id: string)
    requires ResolveShortcut(r, shortcut) == Ok(Some(id))
    requires NormalizeShortcut(shortcut) == Ok(k)
    ensures k in r.shortcuts && r.shortcuts[k] == id
  {
  }

  /** With or without `replace`, a completed apply leaves every binding's
      shortcut resolving to its own id or to the id of a later binding
      filed under the same key (the last one wins). */
  lemma BindAllDone(pairs: seq<(string, string)>, r: Registry, replace: bool, i: nat)
    requires BindAll(pairs, r, replace).outcome.Done?
    requires i < |pairs|
    ensures exists j :: (i <= j < |pairs|
      && ResolveShortcut(BindAll(pairs, r, replace).state, pairs[i].0) == Ok(Some(pairs[j].1)))
  {
    BindAllNormalizes(pairs, r, replace, i);
    var k := NormalizeShortcut(pairs[i].0).value;
    BindAllLastWins(pairs, r, replace, k);
    FilingsAt(pairs, i);
    var j := LastFiled(pairs, k);
    assert i <= j;
    assert ResolveShortcut(BindAll(pairs, r, replace).state, pairs[i].0) == Ok(Some(pairs[j].1));
  }

  /** An apply that raises stopped at the first failing binding: every
      binding before it was made and nothing after it was attempted. */
  lemma {:induction false} BindAllStopsAtFirstError(pairs: seq<(string, string)>, r: Registry, replace: bool)
    requires BindAll(pairs, r, replace).outcome.Raised?
    ensures exists n :: (0 <= n < |pairs|
      && BindAll(pairs[..n], r, replace).outcome.Done?
      && BindShortcut(BindAll(pairs[..n], r, replace).state, pairs[n].0, pairs[n].1, replace) == BindAll(pairs, r, replace))
  {
    var first := BindShortcut(r, pairs[0].0, pairs[0].1, replace);
    BindAllStep(pairs, r, replace);
    if first.outcome.Raised? {
      assert pairs[..0] == [];
    } else {
      var rest := pairs[1..];
      BindAllStopsAtFirstError(rest, first.state, replace);
      var n :| 0 <= n < |rest|
        && BindAll(rest[..n], first.state, replace).outcome.Done?
        && BindShortcut(BindAll(rest[..n], first.state, replace).state, rest[n].0, rest[n].1, replace)
          == BindAll(rest, first.state, replace);
      var before := pairs[..n + 1];
      PrefixTail(pairs, n);
      TailAt(pairs, n);
      BindAllStep(before, r, replace);
      assert BindAll(before, r, replace) == BindAll(rest[..n], first.state, replace);
    }
  }

  /** The shortcut index after filing each pair under its own spelling, in
      order, a later pair overwriting an earlier one. */
  function FileAll(pairs: seq<(string, string)>, m: map<string, string>): map<string, string> {
    if |pairs| == 0 then m else FileAll(pairs[1..], m[pairs[0].0 := pairs[0].1])
  }

  lemma {:induction false} FileAllAppend(a: seq<(string, string)>, b: seq<(string, string)>, m: map<string, string>)
    ensures FileAll(a + b, m) == FileAll(b, FileAll(a, m))
  {
    if |a| > 0 {
      assert (a + b)[1..] == a[1..] + b;
      FileAllAppend(a[1..], b, m[a[0].0 := a[0].1]);
    } else {
      assert a + b == b;
    }
  }

  /** Filing pairs that agree with a target map, over a part of that map,
      yields the target once every target key is either already present
      or filed by some pair. */
  lemma {:induction false} FileAllInto(pairs: seq<(string, string)>, m: map<string, string>, t: map<string, string>)
    requires forall i :: 0 <= i < |pairs| ==> pairs[i].0 in t && t[pairs[i].0] == pairs[i].1
    requires forall k :: k in m ==> k in t && m[k] == t[k]
    requires forall k :: k in t ==> k in m || exists i :: 0 <= i < |pairs| && pairs[i].0 == k
    ensures FileAll(pairs, m) == t
  {
    if |pairs| > 0 {
      var m' := m[pairs[0].0 := pairs[0].1];
      forall k | k in t ensures k in m' || exists i :: 0 <= i < |pairs[1..]| && pairs[1..][i].0 == k {
        if k !in m' {
          var i :| 0 <= i < |pairs| && pairs[i].0 == k;
          assert pairs[1..][i - 1].0 == k;
        }
      }
      FileAllInto(pairs[1..], m', t);
    }
  }

  /** With `replace`, binding already-canonical shortcuts of registered
      commands never raises, and files every pair, the last one winning. */
  lemma {:induction false} BindAllReplace(pairs: seq<(string, string)>, r: Registry)
    requires forall i :: 0 <= i < |pairs| ==> pairs[i].1 in r.commands
    requires forall i :: 0 <= i < |pairs| ==> NormalizeShortcut(pairs[i].0) == Ok(pairs[i].0)
    ensures BindAll(pairs, r, true) == Update(r.(shortcuts := FileAll(pairs, r.shortcuts)), Done)
  {
    if |pairs| > 0 {
      var first := BindShortcut(r, pairs[0].0, pairs[0].1, true);
      assert first == Update(r.(shortcuts := r.shortcuts[pairs[0].0 := pairs[0].1]), Done);
      BindAllStep(pairs, r, true);
      BindAllReplace(pairs[1..], first.state);
    }
  }

  lemma PrefixTail<T>(s: seq<T>, n: nat)
    requires n < |s|
    ensures s[..n + 1][0] == s[0] && s[..n + 1][1..] == s[1..][..n]
  {
  }

  lemma AppendFirst<T>(a: seq<T>, s: seq<T>)
    requires |s| > 0
    ensures a + s == (a + [s[0]]) + s[1..]
  {
    assert s == [s[0]] + s[1..];
  }

  lemma TailAt<T>(s: seq<T>, n: nat)
    requires n + 1 < |s|
    ensures s[1..][n] == s[n + 1]
  {
  }

  /** Without `replace`, a completed apply leaves every key of the map
      resolvable in the registry, under its translation, to its own id. */
  lemma ApplyResolvesEveryKey(km: KeyMap, r: Registry, i: nat)
    requires KeyMapValid(km)
    requires Apply(km, Some(r), false).value.outcome.Done?
    requires i < |Keys(km)|
    ensures ResolveShortcut(Apply(km, Some(r), false).value.state, TkToCanonical(Keys(km)[i]))
      == Ok(Some(km.table[Keys(km)[i]]))
  {
    BindAllDoneKeeps(Translated(Items(km)), r, i);
  }
}

=== FILE: mainlayout.dfy ===
/** The splitter arithmetic of `MainLayout`: three panes side by side
    (sidebar, content, right stack) and, in the right stack, a properties
    row above a telemetry row. Dragging a splitter resizes one pane, clamped
    to the pane's limits. Widgets are left out; the state keeps the sizes
    the code hands to Tk's grid (column and row `minsize`). */
module MainLayout {
  import opened Base

  /** The configurable sizes and limits (the dataclass fields). */
  datatype Limits = Limits(
    minSidebarWidth: int, maxSidebarWidth: int,
    minRightWidth: int, maxRightWidth: int,
    minPropsHeight: int, minTelemetryHeight: int,
    hSplitterHeight: int)

  const DefaultLimits: Limits := Limits(160, 520, 220, 720, 120, 120, 2)

  /** Which splitter a drag started on: "left", "right" or "h". */
  datatype Splitter = LeftSplitter | RightSplitter | HorizontalSplitter

  /** The layout's state. `mounted` stands for the root and right
      container existing; `propsRow` is the properties row's `minsize`;
      the `start…` fields are captured when a drag begins. */
  datatype Layout = Layout(
    limits: Limits,
    mounted: bool,
    sidebarWidth: int,
    rightWidth: int,
    propsHeight: int,
    propsRow: int,
    dragging: Option<Splitter>,
    startX: int, startY: int,
    startSidebar: int, startRight: int, startProps: int)

  /** A fresh, unmounted layout with the dataclass defaults. */
  const Initial: Layout := Layout(DefaultLimits, false, 240, 320, 260, 0, None, 0, 0, 0, 0, 0)

  /** `_clamp`: `lo` below the range, `hi` above it, `v` otherwise. */
  function Clamp(v: int, lo: int, hi: int): (r: int)
    ensures v < lo ==> r == lo
    ensures lo <= v && v > hi ==> r == hi
    ensures lo <= v <= hi ==> r == v
    ensures lo <= hi ==> lo <= r <= hi
  {
    if v < lo then lo else if v > hi then hi else v
  }

  /** Clamping preserves order. */
  lemma ClampMonotone(v: int, w: int, lo: int, hi: int)
    requires v <= w
    ensures Clamp(v, lo, hi) <= Clamp(w, lo, hi) || hi < lo
  {
  }

  /** Mounting sizes the properties row to at least its minimum. */
  function Mount(l: Layout): (r: Layout)
    ensures r.mounted
    ensures r.propsRow >= l.limits.minPropsHeight && r.propsRow >= l.propsHeight
    ensures r.propsRow == l.limits.minPropsHeight || r.propsRow == l.propsHeight
    ensures r.(mounted := l.mounted, propsRow := l.propsRow) == l
  {
    var initial := if l.limits.minPropsHeight >= l.propsHeight then l.limits.minPropsHeight else l.propsHeight;
    l.(mounted := true, propsRow := initial)
  }

  /** `_get_props_height`: the row's positive `minsize`, else the frame's
      height when it exceeds 1, else the minimum. `mount` creates the right
      container and the properties frame together, so before mounting there
      is neither and the minimum is used. `frameHeight` is what Tk reports
      for the mounted properties frame. */
  function PropsHeightNow(l: Layout, frameHeight: int): (h: int)
    ensures !l.mounted ==> h == l.limits.minPropsHeight
    ensures l.mounted && l.propsRow > 0 ==> h == l.propsRow
    ensures l.mounted && l.propsRow <= 0 && frameHeight > 1 ==> h == frameHeight
    ensures l.mounted && l.propsRow <= 0 && frameHeight <= 1 ==> h == l.limits.minPropsHeight
  {
    if !l.mounted then l.limits.minPropsHeight
    else if l.propsRow > 0 then l.propsRow
    else if frameHeight <= 1 then l.limits.minPropsHeight
    else frameHeight
  }

  /** `_start_drag`: remembers the splitter, the cursor and the current
      sizes. */
  function StartDrag(l: Layout, which: Splitter, x: int, y: int, frameHeight: int): (r: Layout)
    ensures r.dragging == Some(which)
    ensures r.startX == x && r.startY == y
    ensures r.startSidebar == l.sidebarWidth && r.startRight == l.rightWidth
    ensures r.startProps == PropsHeightNow(l, frameHeight)
    ensures r.sidebarWidth == l.sidebarWidth && r.rightWidth == l.rightWidth && r.propsRow == l.propsRow
  {
    l.(dragging := Some(which), startX := x, startY := y,
       startSidebar := l.sidebarWidth, startRight := l.rightWidth,
       startProps := PropsHeightNow(l, frameHeight))
  }

  /** `_stop_drag`: no drag is active afterwards; nothing else changes. */
  function StopDrag(l: Layout): (r: Layout)
    ensures r.dragging == None
    ensures r.(dragging := l.dragging) == l
  {
    if l.dragging.None? then l else l.(dragging := None)
  }

  /** The upper limit of the properties row for a right stack `total`
      pixels high: room for the telemetry row and the splitter, but never
      below the minimum. */
  function MaxPropsHeight(lim: Limits, total: int): (m: int)
    ensures m >= lim.minPropsHeight
    ensures m == lim.minPropsHeight || m == total - lim.minTelemetryHeight - lim.hSplitterHeight
  {
    var room := total - lim.minTelemetryHeight - lim.hSplitterHeight;
    if lim.minPropsHeight >= room then lim.minPropsHeight else room
  }

  /** `set_sidebar_width`: ignored until mounted; otherwise the width is
      stored as given, without the limits a drag applies. */
  function SetSidebarWidth(l: Layout, px: int): (r: Layout)
    ensures !l.mounted ==> r == l
    ensures l.mounted ==> r.sidebarWidth == px
    ensures r.(sidebarWidth := l.sidebarWidth) == l
  {
    if !l.mounted then l else l.(sidebarWidth := px)
  }

  /** `set_right_width`: ignored until mounted; otherwise the width is
      stored as given, without the limits a drag applies. */
  function SetRightWidth(l: Layout, px: int): (r: Layout)
    ensures !l.mounted ==> r == l
    ensures l.mounted ==> r.rightWidth == px
    ensures r.(rightWidth := l.rightWidth) == l
  {
    if !l.mounted then l else l.(rightWidth := px)
  }

  /** Setting a width twice keeps only the second value, and the two
      setters do not interfere. */
  lemma SettersLastWins(l: Layout, a: int, b: int)
    ensures SetSidebarWidth(SetSidebarWidth(l, a), b) == SetSidebarWidth(l, b)
    ensures SetRightWidth(SetRightWidth(l, a), b) == SetRightWidth(l, b)
    ensures SetRightWidth(SetSidebarWidth(l, a), b) == SetSidebarWidth(SetRightWidth(l, b), a)
  {
  }

  /** The setters do not clamp: on a mounted layout, a width beyond the
      maximum is kept as it is, where a drag would stop at the maximum. */
  lemma SettersDoNotClamp(l: Layout, px: int)
    requires l.mounted
    ensures px > l.limits.maxSidebarWidth ==> SetSidebarWidth(l, px).sidebarWidth > l.limits.maxSidebarWidth
    ensures px > l.limits.maxRightWidth ==> SetRightWidth(l, px).rightWidth > l.limits.maxRightWidth
  {
  }

  /** `_on_drag` for the cursor at (`x`, `y`); `total` is the right
      stack's current height. Unmounted or without a drag nothing happens;
      otherwise only the dragged splitter's pane changes. */
  function OnDrag(l: Layout, x: int, y: int, total: int): (r: Layout)
    ensures !l.mounted || l.dragging.None? ==> r == l
  {
    if !l.mounted || l.dragging.None? then l
    else match l.dragging.value
      case LeftSplitter =>
        SetSidebarWidth(l, Clamp(l.startSidebar + (x - l.startX), l.limits.minSidebarWidth, l.limits.maxSidebarWidth))
      case RightSplitter =>
        SetRightWidth(l, Clamp(l.startRight - (x - l.startX), l.limits.minRightWidth, l.limits.maxRightWidth))
      case HorizontalSplitter =>
        if total <= 1 then l
        else l.(propsRow := Clamp(l.startProps + (y - l.startY), l.limits.minPropsHeight, MaxPropsHeight(l.limits, total)))
  }

  /** A left drag sets the sidebar to the start width moved by the cursor,
      kept within the sidebar limits, and changes nothing else. */
  lemma LeftDrag(l: Layout, x: int, y: int, total: int)
    requires l.mounted && l.dragging == Some(LeftSplitter)
    requires l.limits.minSidebarWidth <= l.limits.maxSidebarWidth
    ensures var r := OnDrag(l, x, y, total);
      && l.limits.minSidebarWidth <= r.sidebarWidth <= l.limits.maxSidebarWidth
      && (l.limits.minSidebarWidth <= l.startSidebar + (x - l.startX) <= l.limits.maxSidebarWidth ==>
            r.sidebarWidth == l.startSidebar + (x - l.startX))
      && r.(sidebarWidth := l.sidebarWidth) == l
  {
  }

  /** A right drag moves the other way: the right pane is the start width
      less the cursor's movement, kept within its limits, so moving the
      cursor right never widens it. Nothing else changes. */
  lemma RightDragOpposite(l: Layout, x1: int, x2: int, y: int, total: int)
    requires l.mounted && l.dragging == Some(RightSplitter)
    requires l.limits.minRightWidth <= l.limits.maxRightWidth
    requires x1 <= x2
    ensures OnDrag(l, x2, y, total).rightWidth <= OnDrag(l, x1, y, total).rightWidth
    ensures var r := OnDrag(l, x1, y, total);
      && l.limits.minRightWidth <= r.rightWidth <= l.limits.maxRightWidth
      && (l.limits.minRightWidth <= l.startRight - (x1 - l.startX) <= l.limits.maxRightWidth ==>
            r.rightWidth == l.startRight - (x1 - l.startX))
      && r.(rightWidth := l.rightWidth) == l
  {
    ClampMonotone(l.startRight - (x2 - l.startX), l.startRight - (x1 - l.startX), l.limits.minRightWidth, l.limits.maxRightWidth);
  }

  /** A left drag follows the cursor: moving it right never narrows the
      sidebar. */
  lemma LeftDragFollows(l: Layout, x1: int, x2: int, y: int, total: int)
    requires l.mounted && l.dragging == Some(LeftSplitter)
    requires l.limits.minSidebarWidth <= l.limits.maxSidebarWidth
    requires x1 <= x2
    ensures OnDrag(l, x1, y, total).sidebarWidth <= OnDrag(l, x2, y, total).sidebarWidth
  {
    ClampMonotone(l.startSidebar + (x1 - l.startX), l.startSidebar + (x2 - l.startX), l.limits.minSidebarWidth, l.limits.maxSidebarWidth);
  }

  /** A horizontal drag does nothing in a stack at most 1 pixel high;
      otherwise the properties row is the start height moved by the cursor,
      kept between its minimum and the room the stack leaves, whatever the
      limits. */
  lemma HorizontalDrag(l: Layout, x: int, y: int, total: int)
    requires l.mounted && l.dragging == Some(HorizontalSplitter)
    ensures total <= 1 ==> OnDrag(l, x, y, total) == l
    ensures total > 1 ==> var r := OnDrag(l, x, y, total);
      && l.limits.minPropsHeight <= r.propsRow <= MaxPropsHeight(l.limits, total)
      && (l.limits.minPropsHeight <= l.startProps + (y - l.startY) <= MaxPropsHeight(l.limits, total) ==>
            r.propsRow == l.startProps + (y - l.startY))
      && r.(propsRow := l.propsRow) == l
  {
  }

  /** Dragging back to where the drag began restores the starting size when
      it was within the limits. */
  lemma DragBackRestores(l: Layout, which: Splitter, x: int, y: int, total: int, frameHeight: int)
    requires l.mounted
    requires which != HorizontalSplitter
    requires l.limits.minSidebarWidth <= l.sidebarWidth <= l.limits.maxSidebarWidth
    requires l.limits.minRightWidth <= l.rightWidth <= l.limits.maxRightWidth
    ensures var r := OnDrag(StartDrag(l, which, x, y, frameHeight), x, y, total);
      r.sidebarWidth == l.sidebarWidth && r.rightWidth == l.rightWidth && r.propsRow == l.propsRow
  {
  }

  /** Once the drag stops, cursor motion changes nothing. */
  lemma StoppedDragIgnoresMotion(l: Layout, x: int, y: int, total: int)
    ensures OnDrag(StopDrag(l), x, y, total) == StopDrag(l)
  {
  }
}

=== FILE: menu_defs.dfy ===
/** The declarative menu model of `pyezsh.ui.menu_defs`: immutable values
    compared structurally, so a datatype each. `title` stands for the
    code's `label` field (a reserved word here); a command item's label
    override is its `caption`. */
module MenuDefs {
  import opened Base

  /** A typed menu item: exactly one of a command reference, a separator or
      a submenu. A command's label and accelerator overrides are optional;
      a submenu's items may again be typed or legacy. */
  datatype MenuItem =
    | MenuCommand(id: string, caption: Option<string>, accelerator: Option<string>)
    | MenuSeparator
    | MenuSubmenu(title: string, items: seq<ItemLike>)

  /** `MenuItemLike`: a typed item, or the legacy spellings kept for
      backward compatibility, a bare command id and `None` for a separator. */
  datatype ItemLike = Typed(item: MenuItem) | LegacyId(id: string) | LegacySeparator

  /** A top-level menu: its label and its items. */
  datatype MenuDef = MenuDef(title: string, items: seq<ItemLike>)

  /** `MenuCommand(id)` with both overrides left at their default. */
  function CommandItem(id: string): MenuItem {
    MenuCommand(id, None, None)
  }

  /** The typed items as item-likes, as the filter stores them back. */
  function Lift(items: seq<MenuItem>): (r: seq<ItemLike>)
    ensures |r| == |items|
    ensures forall i :: 0 <= i < |items| ==> r[i] == Typed(items[i])
  {
    seq(|items|, i requires 0 <= i < |items| => Typed(items[i]))
  }
}

=== FILE: menubar.dfy ===
/** The Tk-free part of `MenuBar`: normalising legacy items, cleaning up
    separators, removing the items macOS shows in its application menu,
    the entries a dropdown receives, and the application-menu item list. */
module MenuBar {
  import opened Base
  import opened Commands
  import opened MenuDefs

  // ---------------------------------------------------------------------
  // Normalisation
  // ---------------------------------------------------------------------

  /** `_normalize_items`: `None` becomes a separator, a string a command
      with no overrides, and a typed item stays as it is. */
  function NormalizeItems(items: seq<ItemLike>): (r: seq<MenuItem>)
    ensures |r| == |items|
    ensures forall i :: 0 <= i < |items| ==> match items[i]
      case LegacySeparator => r[i] == MenuSeparator
      case LegacyId(id) => r[i] == MenuCommand(id, None, None)
      case Typed(x) => r[i] == x
  {
    seq(|items|, i requires 0 <= i < |items| => NormalizeItem(items[i]))
  }

  function NormalizeItem(it: ItemLike): MenuItem {
    match it
    case LegacySeparator => MenuSeparator
    case LegacyId(id) => CommandItem(id)
    case Typed(x) => x
  }

  /** Typed items come back unchanged: normalising after lifting is the
      identity, so normalising is idempotent. */
  lemma NormalizeLift(items: seq<MenuItem>)
    ensures NormalizeItems(Lift(items)) == items
  {
  }

  // ---------------------------------------------------------------------
  // Separator clean-up
  // ---------------------------------------------------------------------

  predicate IsSep(it: MenuItem) {
    it.MenuSeparator?
  }

  /** No leading, trailing or adjacent separators. */
  predicate Clean(items: seq<MenuItem>) {
    && (|items| > 0 ==> !IsSep(items[0]) && !IsSep(items[|items| - 1]))
    && forall i :: 0 <= i < |items| - 1 ==> !(IsSep(items[i]) && IsSep(items[i + 1]))
  }

  /** The items that are not separators, in order. */
  function NonSeps(items: seq<MenuItem>): seq<MenuItem> {
    if |items| == 0 then []
    else (if IsSep(items[0]) then [] else [items[0]]) + NonSeps(items[1..])
  }

  /** The loop of `_cleanup_separators`: a separator is kept only when the
      previous kept item was not one (`prevSep` starts true, so leading
      separators go). */
  function Collapse(items: seq<MenuItem>, prevSep: bool): seq<MenuItem> {
    if |items| == 0 then []
    else if IsSep(items[0]) then
      if prevSep then Collapse(items[1..], true) else [items[0]] + Collapse(items[1..], true)
    else [items[0]] + Collapse(items[1..], false)
  }

  /** The trailing `while out and ...: out.pop()`. */
  function DropTrailing(items: seq<MenuItem>): seq<MenuItem> {
    if |items| > 0 && IsSep(items[|items| - 1]) then DropTrailing(items[..|items| - 1]) else items
  }

  /** `_cleanup_separators`. */
  function CleanupSeparators(items: seq<MenuItem>): (r: seq<MenuItem>)
    ensures Clean(r)
    ensures NonSeps(r) == NonSeps(items)
  {
    CleanupIsJoinedGroups(items);
    GroupsShape(items);
    JoinGroupsClean(Groups(items));
    JoinGroupsNonSeps(Groups(items));
    DropTrailing(Collapse(items, true))
  }

  /** The maximal runs of non-separators, in order; empty runs (between two
      separators, or at either end) do not count. */
  function Groups(items: seq<MenuItem>): seq<seq<MenuItem>> {
    if |items| == 0 then []
    else if IsSep(items[0]) then Groups(items[1..])
    else
      var g := Groups(items[1..]);
      if |items| > 1 && !IsSep(items[1]) && |g| > 0 then [[items[0]] + g[0]] + g[1..]
      else [[items[0]]] + g
  }

  /** The runs, one separator between each two. */
  function JoinGroups(gs: seq<seq<MenuItem>>): seq<MenuItem> {
    if |gs| == 0 then []
    else if |gs| == 1 then gs[0]
    else gs[0] + [MenuSeparator] + JoinGroups(gs[1..])
  }

  function Flatten(gs: seq<seq<MenuItem>>): seq<MenuItem> {
    if |gs| == 0 then [] else gs[0] + Flatten(gs[1..])
  }

  predicate SepFree(g: seq<MenuItem>) {
    forall i :: 0 <= i < |g| ==> !IsSep(g[i])
  }

  /** Every run is non-empty and separator-free, and together they are the
      non-separator items; a list starting with a non-separator starts its
      first run. */
  lemma GroupsShape(items: seq<MenuItem>)
    ensures forall j :: 0 <= j < |Groups(items)| ==> |Groups(items)[j]| > 0 && SepFree(Groups(items)[j])
    ensures Flatten(Groups(items)) == NonSeps(items)
    ensures |items| > 0 && !IsSep(items[0]) ==> |Groups(items)| > 0 && Groups(items)[0][0] == items[0]
    ensures |Groups(items)| == 0 <==> |NonSeps(items)| == 0
  {
    GroupsRuns(items);
    GroupsFlatten(items);
  }

  lemma {:induction false} GroupsRuns(items: seq<MenuItem>)
    ensures forall j :: 0 <= j < |Groups(items)| ==> |Groups(items)[j]| > 0 && SepFree(Groups(items)[j])
    ensures |items| > 0 && !IsSep(items[0]) ==> |Groups(items)| > 0 && Groups(items)[0][0] == items[0]
  {
    if |items| > 0 {
      var x := items[0];
      var g := Groups(items[1..]);
      GroupsRuns(items[1..]);
      if !IsSep(x) {
        if |items| > 1 && !IsSep(items[1]) && |g| > 0 {
          var gs := [[x] + g[0]] + g[1..];
          assert Groups(items) == gs;
          forall j | 0 <= j < |gs| ensures |gs[j]| > 0 && SepFree(gs[j]) {
            if j > 0 { assert gs[j] == g[j]; }
          }
        } else {
          var gs := [[x]] + g;
          assert Groups(items) == gs;
          forall j | 0 <= j < |gs| ensures |gs[j]| > 0 && SepFree(gs[j]) {
            if j > 0 { assert gs[j] == g[j - 1]; }
          }
        }
      }
    }
  }

  lemma {:induction false} GroupsFlatten(items: seq<MenuItem>)
    ensures Flatten(Groups(items)) == NonSeps(items)
    ensures |Groups(items)| == 0 <==> |NonSeps(items)| == 0
  {
    if |items| > 0 {
      var x := items[0];
      var g := Groups(items[1..]);
      GroupsFlatten(items[1..]);
      if IsSep(x) {
        assert Groups(items) == g;
        assert NonSeps(items) == NonSeps(items[1..]);
      } else {
        assert NonSeps(items) == [x] + NonSeps(items[1..]);
        if |items| > 1 && !IsSep(items[1]) && |g| > 0 {
          var gs := [[x] + g[0]] + g[1..];
          assert Groups(items) == gs;
          assert gs[1..] == g[1..];
          assert Flatten(g) == g[0] + Flatten(g[1..]);
          assert Flatten(gs) == ([x] + g[0]) + Flatten(g[1..]);
        } else {
          var gs := [[x]] + g;
          assert Groups(items) == gs;
          assert gs[1..] == g;
          assert Flatten(gs) == [x] + Flatten(g);
        }
      }
    }
  }

  /** The clean-up is the runs joined by single separators. */
  lemma {:induction false} CleanupIsJoinedGroups(items: seq<MenuItem>)
    ensures DropTrailing(Collapse(items, true)) == JoinGroups(Groups(items))
    decreases |items|
  {
    if |items| > 0 {
      var x := items[0];
      var rest := items[1..];
      if !IsSep(x) {
        var y := Collapse(rest, false);
        DropCons(x, y);
        GroupsShape(rest);
        if |rest| == 0 {
        } else if !IsSep(rest[0]) {
          CollapseStartsPlain(rest);
          CleanupIsJoinedGroups(rest);
          var g := Groups(rest);
          JoinGroupsCons(x, g);
        } else {
          var z := Collapse(rest[1..], true);
          assert y == [rest[0]] + z;
          DropCons(rest[0], z);
          CleanupIsJoinedGroups(rest[1..]);
          assert Groups(rest) == Groups(rest[1..]);
          GroupsShape(rest[1..]);
          JoinGroupsEmpty(Groups(rest[1..]));
          var g := Groups(rest);
          assert Groups(items) == [[x]] + g;
          if |g| > 0 {
            assert ([[x]] + g)[1..] == g;
          }
        }
      } else {
        CleanupIsJoinedGroups(rest);
      }
    }
  }

  lemma CollapseStartsPlain(items: seq<MenuItem>)
    requires |items| > 0 && !IsSep(items[0])
    ensures Collapse(items, false) == Collapse(items, true)
  {
  }

  /** Trailing separators are dropped from the end, so a non-separator in
      front survives, and a separator in front survives exactly when
      something other than separators follows it. */
  lemma {:induction false} DropCons(x: MenuItem, z: seq<MenuItem>)
    ensures DropTrailing([x] + z) ==
      if !IsSep(x) || DropTrailing(z) != [] then [x] + DropTrailing(z) else []
    decreases |z|
  {
    if |z| > 0 && IsSep(z[|z| - 1]) {
      assert ([x] + z)[..|z|] == [x] + z[..|z| - 1];
      DropCons(x, z[..|z| - 1]);
    }
  }

  lemma JoinGroupsCons(x: MenuItem, g: seq<seq<MenuItem>>)
    requires |g| > 0
    ensures JoinGroups([[x] + g[0]] + g[1..]) == [x] + JoinGroups(g)
  {
    var gs := [[x] + g[0]] + g[1..];
    assert gs[0] == [x] + g[0] && gs[1..] == g[1..] && |gs| == |g|;
    if |g| > 1 {
      var t := JoinGroups(g[1..]);
      calc {
        JoinGroups(gs);
        ([x] + g[0]) + [MenuSeparator] + t;
        { SeqAssoc([x], g[0], [MenuSeparator]); SeqAssoc([x], g[0] + [MenuSeparator], t); }
        [x] + (g[0] + [MenuSeparator] + t);
        [x] + JoinGroups(g);
      }
    }
  }

  lemma SeqAssoc<T>(a: seq<T>, b: seq<T>, c: seq<T>)
    ensures (a + b) + c == a + (b + c)
  {
  }

  lemma JoinGroupsEmpty(gs: seq<seq<MenuItem>>)
    requires forall j :: 0 <= j < |gs| ==> |gs[j]| > 0
    ensures JoinGroups(gs) == [] <==> gs == []
  {
  }

  /** Joining non-empty, separator-free runs gives a clean list. */
  lemma {:induction false} JoinGroupsClean(gs: seq<seq<MenuItem>>)
    requires forall j :: 0 <= j < |gs| ==> |gs[j]| > 0 && SepFree(gs[j])
    ensures Clean(JoinGroups(gs))
    ensures |gs| > 0 ==> JoinGroups(gs)[0] == gs[0][0]
  {
    if |gs| > 1 {
      JoinGroupsClean(gs[1..]);
      var t := JoinGroups(gs[1..]);
      var r := gs[0] + [MenuSeparator] + t;
      forall i | 0 <= i < |r| - 1 ensures !(IsSep(r[i]) && IsSep(r[i + 1])) {
        if i >= |gs[0]| + 1 {
          assert r[i] == t[i - |gs[0]| - 1] && r[i + 1] == t[i - |gs[0]|];
        }
      }
    }
  }

  lemma {:induction false} JoinGroupsNonSeps(gs: seq<seq<MenuItem>>)
    requires forall j :: 0 <= j < |gs| ==> SepFree(gs[j])
    ensures NonSeps(JoinGroups(gs)) == Flatten(gs)
  {
    if |gs| == 1 {
      NonSepsOfSepFree(gs[0]);
      assert Flatten(gs) == gs[0] + Flatten(gs[1..]);
    } else if |gs| > 1 {
      JoinGroupsNonSeps(gs[1..]);
      NonSepsAppend(gs[0] + [MenuSeparator], JoinGroups(gs[1..]));
      NonSepsAppend(gs[0], [MenuSeparator]);
      NonSepsOfSepFree(gs[0]);
    }
  }

  lemma {:induction false} NonSepsAppend(a: seq<MenuItem>, b: seq<MenuItem>)
    ensures NonSeps(a + b) == NonSeps(a) + NonSeps(b)
  {
    if |a| > 0 {
      assert (a + b)[1..] == a[1..] + b;
      NonSepsAppend(a[1..], b);
    } else {
      assert a + b == b;
    }
  }

  lemma {:induction false} NonSepsOfSepFree(g: seq<MenuItem>)
    requires SepFree(g)
    ensures NonSeps(g) == g
  {
    if |g| > 0 {
      NonSepsOfSepFree(g[1..]);
    }
  }

  /** A clean list is left as it is, so the clean-up is idempotent. */
  lemma CleanupKeepsClean(items: seq<MenuItem>)
    requires Clean(items)
    ensures CleanupSeparators(items) == items
  {
    CollapseClean(items, true);
  }

  lemma {:induction false} CollapseClean(items: seq<MenuItem>, prevSep: bool)
    requires forall i :: 0 <= i < |items| - 1 ==> !(IsSep(items[i]) && IsSep(items[i + 1]))
    requires prevSep && |items| > 0 ==> !IsSep(items[0])
    ensures Collapse(items, prevSep) == items
  {
    if |items| > 0 {
      CollapseClean(items[1..], IsSep(items[0]));
    }
  }

  // ---------------------------------------------------------------------
  // Reserved-item filter (macOS)
  // ---------------------------------------------------------------------

  /** The commands macOS shows in its application menu. */
  const Reserved: set<string> := {"app.about", "app.preferences", "app.quit"}

  /** `filter_items`: normalise, drop reserved commands, filter submenus
      recursively (dropping those left empty) and clean up separators. */
  function FilterItems(items: seq<ItemLike>): seq<MenuItem> {
    CleanupSeparators(FilterEach(items))
  }

  /** The loop of `filter_items`, before its final clean-up. */
  function FilterEach(items: seq<ItemLike>): seq<MenuItem> {
    if |items| == 0 then [] else FilterOne(items[0]) + FilterEach(items[1..])
  }

  /** One item of that loop, after normalisation. A submenu's filtered items
      are cleaned up once more before the emptiness test, as in the code. */
  function FilterOne(it: ItemLike): seq<MenuItem> {
    match it
    case LegacySeparator => [MenuSeparator]
    case Typed(MenuSeparator) => [MenuSeparator]
    case LegacyId(id) => if id in Reserved then [] else [CommandItem(id)]
    case Typed(MenuCommand(id, _, _)) => if id in Reserved then [] else [it.item]
    case Typed(MenuSubmenu(title, sub)) =>
      var clean := CleanupSeparators(CleanupSeparators(FilterEach(sub)));
      if clean == [] then [] else [MenuSubmenu(title, Lift(clean))]
  }

  /** `_filter_macos_reserved_items`: menus left without items are dropped. */
  function FilterMenus(menus: seq<MenuDef>): seq<MenuDef> {
    if |menus| == 0 then []
    else
      var items := FilterItems(menus[0].items);
      (if items == [] then [] else [MenuDef(menus[0].title, Lift(items))]) + FilterMenus(menus[1..])
  }

  /** `_get_effective_menus`: the menus are filtered only on macOS with the
      automatic application menu. */
  function EffectiveMenus(menus: seq<MenuDef>, isMac: bool, autoAppMenu: bool): seq<MenuDef> {
    if isMac && autoAppMenu then FilterMenus(menus) else menus
  }

  /** `normalized_menus`: macOS is the platform named "darwin". */
  function NormalizedMenus(menus: seq<MenuDef>, platform: string, autoAppMenu: bool): seq<MenuDef> {
    EffectiveMenus(menus, platform == "darwin", autoAppMenu)
  }

  // The command ids of a menu tree, depth first.

  function CommandIds(items: seq<ItemLike>): seq<string> {
    if |items| == 0 then [] else IdsOf(items[0]) + CommandIds(items[1..])
  }

  function IdsOf(it: ItemLike): seq<string> {
    match it
    case LegacyId(id) => [id]
    case Typed(MenuCommand(id, _, _)) => [id]
    case Typed(MenuSubmenu(_, sub)) => CommandIds(sub)
    case _ => []
  }

  function MenuIds(menus: seq<MenuDef>): seq<string> {
    if |menus| == 0 then [] else CommandIds(menus[0].items) + MenuIds(menus[1..])
  }

  /** The ids that are not reserved, in order. */
  function Unreserved(ids: seq<string>): seq<string> {
    if |ids| == 0 then [] else (if ids[0] in Reserved then [] else [ids[0]]) + Unreserved(ids[1..])
  }

  lemma {:induction false} UnreservedAppend(a: seq<string>, b: seq<string>)
    ensures Unreserved(a + b) == Unreserved(a) + Unreserved(b)
  {
    if |a| > 0 {
      assert (a + b)[1..] == a[1..] + b;
      UnreservedAppend(a[1..], b);
    } else {
      assert a + b == b;
    }
  }

  lemma {:induction false} CommandIdsAppend(a: seq<ItemLike>, b: seq<ItemLike>)
    ensures CommandIds(a + b) == CommandIds(a) + CommandIds(b)
  {
    if |a| > 0 {
      assert (a + b)[1..] == a[1..] + b;
      CommandIdsAppend(a[1..], b);
    } else {
      assert a + b == b;
    }
  }

  lemma LiftAppend(a: seq<MenuItem>, b: seq<MenuItem>)
    ensures Lift(a + b) == Lift(a) + Lift(b)
  {
  }

  /** Separators carry no command, so only the non-separators count. */
  lemma {:induction false} IdsOfNonSeps(items: seq<MenuItem>)
    ensures CommandIds(Lift(NonSeps(items))) == CommandIds(Lift(items))
  {
    if |items| > 0 {
      IdsOfNonSeps(items[1..]);
      var head := if IsSep(items[0]) then [] else [items[0]];
      LiftAppend(head, NonSeps(items[1..]));
      CommandIdsAppend(Lift(head), Lift(NonSeps(items[1..])));
      assert Lift(items)[1..] == Lift(items[1..]);
      if !IsSep(items[0]) {
        assert Lift(head)[1..] == [];
      }
    }
  }

  lemma CleanupIds(items: seq<MenuItem>)
    ensures CommandIds(Lift(CleanupSeparators(items))) == CommandIds(Lift(items))
  {
    IdsOfNonSeps(items);
    IdsOfNonSeps(CleanupSeparators(items));
  }

  /** Filtering removes exactly the reserved ids, at any depth, and keeps
      every other command in its original order. */
  lemma {:induction false} FilterKeepsCommands(items: seq<ItemLike>)
    ensures CommandIds(Lift(FilterItems(items))) == Unreserved(CommandIds(items))
  {
    FilterEachIds(items);
    CleanupIds(FilterEach(items));
  }

  lemma {:induction false} FilterEachIds(items: seq<ItemLike>)
    ensures CommandIds(Lift(FilterEach(items))) == Unreserved(CommandIds(items))
  {
    if |items| > 0 {
      FilterOneIds(items[0]);
      FilterEachIds(items[1..]);
      LiftAppend(FilterOne(items[0]), FilterEach(items[1..]));
      CommandIdsAppend(Lift(FilterOne(items[0])), Lift(FilterEach(items[1..])));
      UnreservedAppend(IdsOf(items[0]), CommandIds(items[1..]));
    }
  }

  lemma {:induction false} FilterOneIds(it: ItemLike)
    ensures CommandIds(Lift(FilterOne(it))) == Unreserved(IdsOf(it))
  {
    match it
    case Typed(MenuSubmenu(title, sub)) =>
      FilterEachIds(sub);
      var once := CleanupSeparators(FilterEach(sub));
      CleanupIds(FilterEach(sub));
      CleanupIds(once);
      var clean := CleanupSeparators(once);
      if clean != [] {
        var out := [MenuSubmenu(title, Lift(clean))];
        assert Lift(out) == [Typed(out[0])];
        assert CommandIds(Lift(out)) == IdsOf(Typed(out[0])) + CommandIds([]);
      }
    case _ =>
  }

  /** The shape the filter leaves at every depth: typed items only, clean
      separators, no reserved command and no empty submenu. */
  predicate Tidy(items: seq<ItemLike>) {
    && (forall i :: 0 <= i < |items| ==> items[i].Typed? && TidyItem(items[i]))
    && Clean(NormalizeItems(items))
  }

  predicate TidyItem(it: ItemLike) {
    match it
    case Typed(MenuCommand(id, _, _)) => id !in Reserved
    case Typed(MenuSubmenu(_, sub)) => |sub| > 0 && Tidy(sub)
    case Typed(MenuSeparator) => true
    case _ => false
  }

  /** The clean-up keeps only items it was given. */
  lemma CleanupFromInput(items: seq<MenuItem>, y: MenuItem)
    requires y in CleanupSeparators(items) && !IsSep(y)
    ensures y in items
  {
    InNonSeps(CleanupSeparators(items), y);
    NonSepsFromInput(items, y);
  }

  lemma {:induction false} InNonSeps(items: seq<MenuItem>, y: MenuItem)
    requires y in items && !IsSep(y)
    ensures y in NonSeps(items)
  {
    if items[0] != y {
      InNonSeps(items[1..], y);
    }
  }

  lemma {:induction false} NonSepsFromInput(items: seq<MenuItem>, y: MenuItem)
    requires y in NonSeps(items)
    ensures y in items
  {
    if |items| > 0 && (IsSep(items[0]) || items[0] != y) {
      NonSepsFromInput(items[1..], y);
    }
  }

  /** Whatever the input, the filtered items are tidy at every depth. */
  lemma FilterIsTidy(items: seq<ItemLike>)
    ensures Tidy(Lift(FilterItems(items)))
  {
    FilterEachTidy(items);
    CleanupTidy(FilterEach(items));
  }

  /** Clean-up of tidy items gives tidy items. */
  lemma CleanupTidy(items: seq<MenuItem>)
    requires forall i :: 0 <= i < |items| ==> TidyItem(Typed(items[i]))
    ensures Tidy(Lift(CleanupSeparators(items)))
  {
    var r := CleanupSeparators(items);
    NormalizeLift(r);
    forall i | 0 <= i < |r| ensures TidyItem(Typed(r[i])) {
      if !IsSep(r[i]) {
        CleanupFromInput(items, r[i]);
      }
    }
  }

  lemma {:induction false} FilterEachTidy(items: seq<ItemLike>)
    ensures forall i :: 0 <= i < |FilterEach(items)| ==> TidyItem(Typed(FilterEach(items)[i]))
  {
    if |items| > 0 {
      FilterOneTidy(items[0]);
      FilterEachTidy(items[1..]);
      var a := FilterOne(items[0]);
      var b := FilterEach(items[1..]);
      forall i | 0 <= i < |a + b| ensures TidyItem(Typed((a + b)[i])) {
        if i >= |a| { assert (a + b)[i] == b[i - |a|]; }
      }
    }
  }

  lemma {:induction false} FilterOneTidy(it: ItemLike)
    ensures forall i :: 0 <= i < |FilterOne(it)| ==> TidyItem(Typed(FilterOne(it)[i]))
  {
    match it
    case Typed(MenuSubmenu(title, sub)) =>
      FilterEachTidy(sub);
      var once := CleanupSeparators(FilterEach(sub));
      CleanupTidy(FilterEach(sub));
      NormalizeLift(once);
      CleanupTidy(once);
    case _ =>
  }

  /** Filtering tidy items changes nothing. */
  lemma FilterKeepsTidy(items: seq<ItemLike>)
    requires Tidy(items)
    ensures FilterItems(items) == NormalizeItems(items)
  {
    FilterEachOfTidy(items);
    CleanupKeepsClean(NormalizeItems(items));
  }

  lemma {:induction false} FilterEachOfTidy(items: seq<ItemLike>)
    requires forall i :: 0 <= i < |items| ==> items[i].Typed? && TidyItem(items[i])
    ensures FilterEach(items) == NormalizeItems(items)
  {
    if |items| > 0 {
      FilterOneOfTidy(items[0]);
      FilterEachOfTidy(items[1..]);
      assert NormalizeItems(items) == [items[0].item] + NormalizeItems(items[1..]);
    }
  }

  lemma {:induction false} FilterOneOfTidy(it: ItemLike)
    requires it.Typed? && TidyItem(it)
    ensures FilterOne(it) == [it.item]
  {
    match it
    case Typed(MenuSubmenu(title, sub)) =>
      FilterEachOfTidy(sub);
      var n := NormalizeItems(sub);
      CleanupKeepsClean(n);
      assert Lift(n) == sub;
    case _ =>
  }

  /** Filtering twice is filtering once. */
  lemma FilterIdempotent(items: seq<ItemLike>)
    ensures FilterItems(Lift(FilterItems(items))) == FilterItems(items)
  {
    FilterIsTidy(items);
    FilterKeepsTidy(Lift(FilterItems(items)));
    NormalizeLift(FilterItems(items));
  }

  /** Filtering works menu by menu: the menus of a concatenation filter to
      the concatenation of their filtered menus, and a single menu either
      disappears (nothing left) or keeps its label with its filtered items. */
  lemma {:induction false} FilterMenusAppend(a: seq<MenuDef>, b: seq<MenuDef>)
    ensures FilterMenus(a + b) == FilterMenus(a) + FilterMenus(b)
    ensures forall m :: (FilterMenus([m]) ==
      if FilterItems(m.items) == [] then [] else [MenuDef(m.title, Lift(FilterItems(m.items)))])
  {
    if |a| > 0 {
      assert (a + b)[0] == a[0];
      assert (a + b)[1..] == a[1..] + b;
      FilterMenusAppend(a[1..], b);
      var head := FilterItems(a[0].items);
      var h: seq<MenuDef> := if head == [] then [] else [MenuDef(a[0].title, Lift(head))];
      SeqAssoc(h, FilterMenus(a[1..]), FilterMenus(b));
    } else {
      assert a + b == b;
    }
    forall m ensures (FilterMenus([m]) ==
      if FilterItems(m.items) == [] then [] else [MenuDef(m.title, Lift(FilterItems(m.items)))])
    {
      assert [m][1..] == [];
    }
  }

  /** Every menu that survives the filter is non-empty and tidy. */
  lemma {:induction false} FilterMenusTidy(menus: seq<MenuDef>)
    ensures forall k :: 0 <= k < |FilterMenus(menus)| ==>
      |FilterMenus(menus)[k].items| > 0 && Tidy(FilterMenus(menus)[k].items)
  {
    if |menus| > 0 {
      var head := FilterItems(menus[0].items);
      var tail := FilterMenus(menus[1..]);
      FilterMenusTidy(menus[1..]);
      if head != [] {
        FilterIsTidy(menus[0].items);
        var out := [MenuDef(menus[0].title, Lift(head))] + tail;
        assert FilterMenus(menus) == out;
        forall k | 0 <= k < |out| ensures |out[k].items| > 0 && Tidy(out[k].items) {
          if k > 0 {
            assert out[k] == tail[k - 1];
          }
        }
      } else {
        assert FilterMenus(menus) == tail;
      }
    }
  }

  /** Across all menus, exactly the reserved ids disappear. */
  lemma {:induction false} FilterMenusKeepsCommands(menus: seq<MenuDef>)
    ensures MenuIds(FilterMenus(menus)) == Unreserved(MenuIds(menus))
  {
    if |menus| > 0 {
      FilterKeepsCommands(menus[0].items);
      FilterMenusKeepsCommands(menus[1..]);
      UnreservedAppend(CommandIds(menus[0].items), MenuIds(menus[1..]));
      var head := FilterItems(menus[0].items);
      var tail := FilterMenus(menus[1..]);
      if head != [] {
        var out := [MenuDef(menus[0].title, Lift(head))] + tail;
        assert out[1..] == tail;
      } else {
        assert CommandIds(Lift(head)) == [];
        assert FilterMenus(menus) == tail;
      }
    }
  }

  /** Filtering the menus twice is filtering them once. */
  lemma {:induction false} FilterMenusIdempotent(menus: seq<MenuDef>)
    ensures FilterMenus(FilterMenus(menus)) == FilterMenus(menus)
  {
    if |menus| > 0 {
      FilterMenusIdempotent(menus[1..]);
      var head := FilterItems(menus[0].items);
      var tail := FilterMenus(menus[1..]);
      if head != [] {
        var out := [MenuDef(menus[0].title, Lift(head))] + tail;
        assert out[0].items == Lift(head) && out[1..] == tail;
        FilterIdempotent(menus[0].items);
        assert FilterMenus(out) == [out[0]] + FilterMenus(tail);
      } else {
        assert FilterMenus(menus) == tail;
      }
    }
  }

  /** On macOS with the automatic application menu the reserved commands
      are gone from every menu; on any other configuration the menus are
      returned as they are. */
  lemma EffectiveMenusIds(menus: seq<MenuDef>, isMac: bool, autoAppMenu: bool)
    ensures !(isMac && autoAppMenu) ==> EffectiveMenus(menus, isMac, autoAppMenu) == menus
    ensures isMac && autoAppMenu ==>
      MenuIds(EffectiveMenus(menus, isMac, autoAppMenu)) == Unreserved(MenuIds(menus))
  {
    if isMac && autoAppMenu {
      FilterMenusKeepsCommands(menus);
    }
  }

  // ---------------------------------------------------------------------
  // Dropdown entries
  // ---------------------------------------------------------------------

  /** What `_populate_dropdown` adds to a dropdown: a separator, a cascade
      holding its own entries, or a command with its label, accelerator
      text, state (enabled is "normal") and the id and menu path its
      callback carries. The path is the list of labels the code joins with
      " > ". */
  datatype Entry =
    | SeparatorEntry
    | CascadeEntry(title: string, entries: seq<Entry>)
    | CommandEntry(title: string, accelerator: string, enabled: bool, command: string, path: seq<string>)

  /** `_populate_dropdown`: without a registry nothing is added. */
  function Populate(items: seq<ItemLike>, reg: Option<Registry>, ctx: Context, path: seq<string>): (es: seq<Entry>)
    ensures reg.None? ==> es == []
    ensures reg.Some? ==> es == PopulateEach(items, reg.value, ctx, path)
  {
    if reg.None? then [] else PopulateEach(items, reg.value, ctx, path)
  }

  /** The loop over the normalised items. */
  function PopulateEach(items: seq<ItemLike>, r: Registry, ctx: Context, path: seq<string>): seq<Entry> {
    if |items| == 0 then [] else PopulateOne(items[0], r, ctx, path) + PopulateEach(items[1..], r, ctx, path)
  }

  /** One normalised item: a separator and a submenu always add an entry
      (the submenu's label extends the path), a command possibly none. */
  function PopulateOne(it: ItemLike, r: Registry, ctx: Context, path: seq<string>): seq<Entry> {
    match it
    case LegacySeparator => [SeparatorEntry]
    case Typed(MenuSeparator) => [SeparatorEntry]
    case Typed(MenuSubmenu(title, sub)) => [CascadeEntry(title, PopulateEach(sub, r, ctx, path + [title]))]
    case LegacyId(id) => CommandEntries(id, None, None, r, ctx, path)
    case Typed(MenuCommand(id, caption, accel)) => CommandEntries(id, caption, accel, r, ctx, path)
  }

  /** The command branch. `get` raising (an unknown id) or the visibility
      check raising or failing skips the item; the checks ask about the
      stored command's own id. An enablement check that raises counts as
      disabled. The overrides win over the command's label and shortcut,
      and a missing shortcut shows as "". */
  function CommandEntries(id: string, caption: Option<string>, accel: Option<string>,
                          r: Registry, ctx: Context, path: seq<string>): (es: seq<Entry>)
    ensures |es| <= 1
    ensures |es| == 1 <==>
      id in r.commands && r.commands[id].id in r.commands && Eval(r.commands[r.commands[id].id].visible, ctx)
    ensures |es| == 1 ==> var cmd := r.commands[id];
      && es[0].CommandEntry?
      && es[0].command == cmd.id
      && (es[0].enabled <==> IsEnabled(r, cmd.id, ctx) == Ok(true))
      && es[0].title == (if caption.Some? then caption.value else cmd.title)
      && es[0].accelerator == (if accel.Some? then accel.value else if cmd.shortcut.Some? then cmd.shortcut.value else "")
      && es[0].path == path + [es[0].title]
  {
    match Get(r, id)
    case Err(_) => []
    case Ok(cmd) =>
      match IsVisible(r, cmd.id, ctx)
      case Err(_) => []
      case Ok(visible) =>
        if !visible then []
        else
          var enabled := match IsEnabled(r, cmd.id, ctx) case Ok(b) => b case Err(_) => false;
          var title := match caption case Some(t) => t case None => cmd.title;
          var shown := match accel case Some(a) => a case None => match cmd.shortcut case Some(k) => k case None => "";
          [CommandEntry(title, shown, enabled, cmd.id, path + [title])]
  }

  /** The ids the command entries invoke, at every depth, in order. */
  function EntryIds(es: seq<Entry>): seq<string> {
    if |es| == 0 then [] else EntryIdsOf(es[0]) + EntryIds(es[1..])
  }

  function EntryIdsOf(e: Entry): seq<string> {
    match e
    case SeparatorEntry => []
    case CascadeEntry(_, sub) => EntryIds(sub)
    case CommandEntry(_, _, _, id, _) => [id]
  }

  /** Reference selection: the ids that name a registered, visible command. */
  function VisibleIds(r: Registry, ctx: Context, ids: seq<string>): seq<string> {
    if |ids| == 0 then []
    else
      (if ids[0] in r.commands && Eval(r.commands[ids[0]].visible, ctx) then [ids[0]] else [])
      + VisibleIds(r, ctx, ids[1..])
  }

  lemma {:induction false} EntryIdsAppend(a: seq<Entry>, b: seq<Entry>)
    ensures EntryIds(a + b) == EntryIds(a) + EntryIds(b)
  {
    if |a| > 0 {
      assert (a + b)[0] == a[0];
      assert (a + b)[1..] == a[1..] + b;
      EntryIdsAppend(a[1..], b);
      SeqAssoc(EntryIdsOf(a[0]), EntryIds(a[1..]), EntryIds(b));
    } else {
      assert a + b == b;
    }
  }

  lemma {:induction false} VisibleIdsAppend(r: Registry, ctx: Context, a: seq<string>, b: seq<string>)
    ensures VisibleIds(r, ctx, a + b) == VisibleIds(r, ctx, a) + VisibleIds(r, ctx, b)
  {
    if |a| > 0 {
      assert (a + b)[0] == a[0];
      assert (a + b)[1..] == a[1..] + b;
      VisibleIdsAppend(r, ctx, a[1..], b);
      var h := if a[0] in r.commands && Eval(r.commands[a[0]].visible, ctx) then [a[0]] else [];
      SeqAssoc(h, VisibleIds(r, ctx, a[1..]), VisibleIds(r, ctx, b));
    } else {
      assert a + b == b;
    }
  }

  /** On a consistent registry, the dropdown offers exactly the registered,
      visible commands its items name, at every depth and in order;
      unknown and hidden commands are skipped. */
  lemma {:induction false} PopulateIds(items: seq<ItemLike>, r: Registry, ctx: Context, path: seq<string>)
    requires Valid(r)
    ensures EntryIds(PopulateEach(items, r, ctx, path)) == VisibleIds(r, ctx, CommandIds(items))
  {
    if |items| > 0 {
      PopulateOneIds(items[0], r, ctx, path);
      PopulateIds(items[1..], r, ctx, path);
      EntryIdsAppend(PopulateOne(items[0], r, ctx, path), PopulateEach(items[1..], r, ctx, path));
      VisibleIdsAppend(r, ctx, IdsOf(items[0]), CommandIds(items[1..]));
    }
  }

  lemma {:induction false} PopulateOneIds(it: ItemLike, r: Registry, ctx: Context, path: seq<string>)
    requires Valid(r)
    ensures EntryIds(PopulateOne(it, r, ctx, path)) == VisibleIds(r, ctx, IdsOf(it))
  {
    match it
    case Typed(MenuSubmenu(title, sub)) =>
      PopulateIds(sub, r, ctx, path + [title]);
      var es := PopulateOne(it, r, ctx, path);
      assert EntryIds(es) == EntryIdsOf(es[0]) + EntryIds([]);
    case LegacyId(id) =>
      var es := PopulateOne(it, r, ctx, path);
      assert VisibleIds(r, ctx, [id]) == VisibleIds(r, ctx, [id][..1]);
      if |es| == 1 { assert EntryIds(es) == EntryIdsOf(es[0]) + EntryIds([]); }
    case Typed(MenuCommand(id, _, _)) =>
      var es := PopulateOne(it, r, ctx, path);
      if |es| == 1 { assert EntryIds(es) == EntryIdsOf(es[0]) + EntryIds([]); }
    case _ =>
  }

  /** The items `list_for_menu` would be asked about, as legacy ids. */
  function LegacyItems(ids: seq<string>): (items: seq<ItemLike>)
    ensures |items| == |ids| && forall i :: 0 <= i < |ids| ==> items[i] == LegacyId(ids[i])
  {
    seq(|ids|, i requires 0 <= i < |ids| => LegacyId(ids[i]))
  }

  function IdsOfCommands(cmds: seq<Command>): seq<string> {
    if |cmds| == 0 then [] else [cmds[0].id] + IdsOfCommands(cmds[1..])
  }

  /** A flat dropdown of registered ids offers the same commands, in the
      same order, as the registry's `list_for_menu`. */
  lemma {:induction false} PopulateAgreesWithListForMenu(ids: seq<string>, r: Registry, ctx: Context, path: seq<string>)
    requires Valid(r)
    requires ListForMenu(r, ids, ctx).Ok?
    ensures EntryIds(PopulateEach(LegacyItems(ids), r, ctx, path)) == IdsOfCommands(ListForMenu(r, ids, ctx).value)
  {
    PopulateIds(LegacyItems(ids), r, ctx, path);
    LegacyIds(ids);
    ListForMenuVisible(r, ids, ctx);
  }

  lemma {:induction false} LegacyIds(ids: seq<string>)
    ensures CommandIds(LegacyItems(ids)) == ids
  {
    if |ids| > 0 {
      LegacyIds(ids[1..]);
      assert LegacyItems(ids)[1..] == LegacyItems(ids[1..]);
    }
  }

  lemma {:induction false} ListForMenuVisible(r: Registry, ids: seq<string>, ctx: Context)
    requires Valid(r)
    requires ListForMenu(r, ids, ctx).Ok?
    ensures IdsOfCommands(ListForMenu(r, ids, ctx).value) == VisibleIds(r, ctx, ids)
  {
    if |ids| > 0 {
      ListForMenuVisible(r, ids[1..], ctx);
      var cmd := r.commands[ids[0]];
      var rest := ListForMenu(r, ids[1..], ctx).value;
      var head := if Eval(cmd.visible, ctx) then [cmd] else [];
      assert ListForMenu(r, ids, ctx).value == head + rest;
      IdsOfCommandsAppend(head, rest);
    }
  }

  lemma {:induction false} IdsOfCommandsAppend(a: seq<Command>, b: seq<Command>)
    ensures IdsOfCommands(a + b) == IdsOfCommands(a) + IdsOfCommands(b)
  {
    if |a| > 0 {
      assert (a + b)[0] == a[0];
      assert (a + b)[1..] == a[1..] + b;
      IdsOfCommandsAppend(a[1..], b);
    } else {
      assert a + b == b;
    }
  }

  /** The entries' frame: `None` for a separator, the label for a cascade;
      command entries leave no trace. */
  function EntryFrame(es: seq<Entry>): seq<Option<string>> {
    if |es| == 0 then []
    else
      (match es[0]
       case SeparatorEntry => [None]
       case CascadeEntry(t, _) => [Some(t)]
       case CommandEntry(_, _, _, _, _) => [])
      + EntryFrame(es[1..])
  }

  /** The items' frame, taken the same way from the normalised items. */
  function ItemFrame(items: seq<ItemLike>): seq<Option<string>> {
    if |items| == 0 then []
    else
      (match NormalizeItem(items[0])
       case MenuSeparator => [None]
       case MenuSubmenu(t, _) => [Some(t)]
       case MenuCommand(_, _, _) => [])
      + ItemFrame(items[1..])
  }

  lemma {:induction false} EntryFrameAppend(a: seq<Entry>, b: seq<Entry>)
    ensures EntryFrame(a + b) == EntryFrame(a) + EntryFrame(b)
  {
    if |a| > 0 {
      assert (a + b)[0] == a[0];
      assert (a + b)[1..] == a[1..] + b;
      EntryFrameAppend(a[1..], b);
    } else {
      assert a + b == b;
    }
  }

  /** Every separator item yields a separator and every submenu a cascade
      with its label, in the items' order, whatever the registry says. */
  lemma {:induction false} PopulateFrame(items: seq<ItemLike>, r: Registry, ctx: Context, path: seq<string>)
    ensures EntryFrame(PopulateEach(items, r, ctx, path)) == ItemFrame(items)
  {
    if |items| > 0 {
      PopulateFrame(items[1..], r, ctx, path);
      var head := PopulateOne(items[0], r, ctx, path);
      EntryFrameAppend(head, PopulateEach(items[1..], r, ctx, path));
      assert EntryFrame(head) == (match NormalizeItem(items[0])
        case MenuSeparator => [None]
        case MenuSubmenu(t, _) => [Some(t)]
        case MenuCommand(_, _, _) => []) by {
        if |head| == 1 { assert head[1..] == []; }
      }
    }
  }

  // ---------------------------------------------------------------------
  // The macOS application menu and the whole menu bar
  // ---------------------------------------------------------------------

  /** `_command_exists`: false without a registry, and `get` raising
      (an unknown id) also answers false. */
  function CommandExists(reg: Option<Registry>, id: string): (b: bool)
    ensures b <==> reg.Some? && id in reg.value.commands
  {
    match reg
    case None => false
    case Some(r) => Get(r, id).Ok?
  }

  /** The item list `_add_apple_menu` builds: About, Preferences and Quit
      as far as they are registered, a separator going in before an item
      only when something precedes it. */
  function AppleItems(reg: Option<Registry>): seq<ItemLike> {
    var about: seq<ItemLike> := if CommandExists(reg, "app.about") then [LegacyId("app.about")] else [];
    var prefs := if CommandExists(reg, "app.preferences")
      then (if about != [] then about + [LegacySeparator] else about) + [LegacyId("app.preferences")]
      else about;
    if CommandExists(reg, "app.quit")
    then (if prefs != [] then prefs + [LegacySeparator] else prefs) + [LegacyId("app.quit")]
    else prefs
  }

  /** The standard items that are registered, in the standard order. */
  function AppleIds(reg: Option<Registry>): (ids: seq<string>)
    ensures forall id :: id in ids <==> id in Reserved && CommandExists(reg, id)
  {
    (if CommandExists(reg, "app.about") then ["app.about"] else [])
    + (if CommandExists(reg, "app.preferences") then ["app.preferences"] else [])
    + (if CommandExists(reg, "app.quit") then ["app.quit"] else [])
  }

  /** Reference list: the ids with one separator between each two. */
  function Separated(ids: seq<string>): seq<ItemLike> {
    if |ids| <= 1 then LegacyItems(ids)
    else [LegacyId(ids[0]), LegacySeparator] + Separated(ids[1..])
  }

  /** A separated list names exactly its ids. */
  lemma {:induction false} SeparatedIds(ids: seq<string>)
    ensures CommandIds(Separated(ids)) == ids
  {
    if |ids| <= 1 {
      LegacyIds(ids);
    } else {
      SeparatedIds(ids[1..]);
      var rest := Separated(ids[1..]);
      var all := [LegacyId(ids[0]), LegacySeparator] + rest;
      assert all[1..] == [LegacySeparator] + rest && all[1..][1..] == rest;
      assert CommandIds(all) == [ids[0]] + CommandIds(all[1..]);
      assert CommandIds(all[1..]) == [] + CommandIds(rest);
    }
  }

  /** A separated list is already clean: it starts with its first id. */
  lemma {:induction false} SeparatedClean(ids: seq<string>)
    ensures Clean(NormalizeItems(Separated(ids)))
    ensures |ids| > 0 ==> |Separated(ids)| > 0 && Separated(ids)[0] == LegacyId(ids[0])
  {
    if |ids| > 1 {
      SeparatedClean(ids[1..]);
      var rest := Separated(ids[1..]);
      var all := [LegacyId(ids[0]), LegacySeparator] + rest;
      var n := NormalizeItems(all);
      var nr := NormalizeItems(rest);
      assert n[0] == CommandItem(ids[0]) && n[1] == MenuSeparator;
      assert n[2] == nr[0] == CommandItem(ids[1]);
      assert n[|n| - 1] == nr[|nr| - 1];
      forall i | 2 <= i < |n| - 1 ensures !(IsSep(n[i]) && IsSep(n[i + 1])) {
        assert n[i] == nr[i - 2] && n[i + 1] == nr[i - 1];
      }
    }
  }

  /** The application menu lists the registered standard items with a
      separator only between two present items. */
  lemma AppleItemsSeparated(reg: Option<Registry>)
    ensures AppleItems(reg) == Separated(AppleIds(reg))
    ensures CommandIds(AppleItems(reg)) == AppleIds(reg)
    ensures Clean(NormalizeItems(AppleItems(reg)))
  {
    var i0: seq<string> := if CommandExists(reg, "app.about") then ["app.about"] else [];
    assert Separated(i0) == if CommandExists(reg, "app.about") then [LegacyId("app.about")] else [];
    var i1 := i0 + (if CommandExists(reg, "app.preferences") then ["app.preferences"] else []);
    if CommandExists(reg, "app.preferences") { SeparatedSnoc(i0, "app.preferences"); }
    else { assert i1 == i0; }
    var i2 := i1 + (if CommandExists(reg, "app.quit") then ["app.quit"] else []);
    if CommandExists(reg, "app.quit") { SeparatedSnoc(i1, "app.quit"); }
    else { assert i2 == i1; }
    assert AppleIds(reg) == i2;
    SeparatedIds(i2);
    SeparatedClean(i2);
  }

  /** Appending an id appends a separator (unless the list was empty) and
      the id; an empty list separates to nothing. */
  lemma {:induction false} SeparatedSnoc(ids: seq<string>, x: string)
    ensures Separated(ids + [x]) == (if ids == [] then [] else Separated(ids) + [LegacySeparator]) + [LegacyId(x)]
    ensures Separated(ids) == [] <==> ids == []
  {
    if |ids| == 0 {
      assert ids + [x] == [x];
    } else if |ids| == 1 {
      assert (ids + [x])[1..] == [x];
    } else {
      SeparatedSnoc(ids[1..], x);
      assert (ids + [x])[1..] == ids[1..] + [x];
      assert (ids + [x])[0] == ids[0];
      SeqAssoc([LegacyId(ids[0]), LegacySeparator], Separated(ids[1..]), [LegacySeparator]);
      SeqAssoc([LegacyId(ids[0]), LegacySeparator], Separated(ids[1..]) + [LegacySeparator], [LegacyId(x)]);
    }
  }

  /** A top-level cascade: the unlabelled application menu, or a labelled
      dropdown. */
  datatype TopMenu = AppleMenu(entries: seq<Entry>) | Dropdown(title: string, entries: seq<Entry>)

  /** `_rebuild` on a mounted menu bar: the application menu first (macOS
      with the automatic application menu), then one dropdown per effective
      menu, populated with the menu's label as its path. */
  function Rebuild(menus: seq<MenuDef>, reg: Option<Registry>, ctx: Context, isMac: bool, autoAppMenu: bool): seq<TopMenu> {
    (if isMac && autoAppMenu then [AppleMenu(Populate(AppleItems(reg), reg, ctx, ["Apple"]))] else [])
    + Dropdowns(EffectiveMenus(menus, isMac, autoAppMenu), reg, ctx)
  }

  function Dropdowns(menus: seq<MenuDef>, reg: Option<Registry>, ctx: Context): (ds: seq<TopMenu>)
    ensures |ds| == |menus|
    ensures forall k :: 0 <= k < |menus| ==>
      ds[k] == Dropdown(menus[k].title, Populate(menus[k].items, reg, ctx, [menus[k].title]))
  {
    seq(|menus|, k requires 0 <= k < |menus| => Dropdown(menus[k].title, Populate(menus[k].items, reg, ctx, [menus[k].title])))
  }

  /** After filtering, no menu names a reserved command at any depth. */
  lemma {:induction false} FilterMenusUnreserved(menus: seq<MenuDef>)
    ensures forall k, j :: 0 <= k < |FilterMenus(menus)| && 0 <= j < |CommandIds(FilterMenus(menus)[k].items)| ==>
      CommandIds(FilterMenus(menus)[k].items)[j] !in Reserved
  {
    if |menus| > 0 {
      FilterMenusUnreserved(menus[1..]);
      var head := FilterItems(menus[0].items);
      var tail := FilterMenus(menus[1..]);
      if head != [] {
        FilterKeepsCommands(menus[0].items);
        UnreservedNone(CommandIds(menus[0].items));
        var out := [MenuDef(menus[0].title, Lift(head))] + tail;
        assert FilterMenus(menus) == out;
        forall k, j | 0 <= k < |out| && 0 <= j < |CommandIds(out[k].items)|
          ensures CommandIds(out[k].items)[j] !in Reserved
        {
          if k > 0 { assert out[k] == tail[k - 1]; }
        }
      } else {
        assert FilterMenus(menus) == tail;
      }
    }
  }

  lemma {:induction false} UnreservedNone(ids: seq<string>)
    ensures forall j :: 0 <= j < |Unreserved(ids)| ==> Unreserved(ids)[j] !in Reserved
  {
    if |ids| > 0 {
      UnreservedNone(ids[1..]);
      var h := if ids[0] in Reserved then [] else [ids[0]];
      assert Unreserved(ids) == h + Unreserved(ids[1..]);
    }
  }

  lemma {:induction false} VisibleIdsWithin(r: Registry, ctx: Context, ids: seq<string>)
    ensures forall x :: x in VisibleIds(r, ctx, ids) ==> x in ids
  {
    if |ids| > 0 {
      VisibleIdsWithin(r, ctx, ids[1..]);
    }
  }

  /** On macOS with the automatic application menu, the menu bar opens with
      the application menu, which offers the visible registered standard
      commands; no other menu offers any of them. */
  lemma ReservedOnlyInAppleMenu(menus: seq<MenuDef>, r: Registry, ctx: Context)
    requires Valid(r)
    ensures var bar := Rebuild(menus, Some(r), ctx, true, true);
      && |bar| == |FilterMenus(menus)| + 1
      && bar[0].AppleMenu?
      && EntryIds(bar[0].entries) == VisibleIds(r, ctx, AppleIds(Some(r)))
      && forall k, x :: 1 <= k < |bar| && x in EntryIds(bar[k].entries) ==> x !in Reserved
  {
    var bar := Rebuild(menus, Some(r), ctx, true, true);
    var fm := FilterMenus(menus);
    AppleItemsSeparated(Some(r));
    PopulateIds(AppleItems(Some(r)), r, ctx, ["Apple"]);
    FilterMenusUnreserved(menus);
    forall k, x | 1 <= k < |bar| && x in EntryIds(bar[k].entries) ensures x !in Reserved {
      var d := fm[k - 1];
      assert bar[k] == Dropdown(d.title, PopulateEach(d.items, r, ctx, [d.title]));
      PopulateIds(d.items, r, ctx, [d.title]);
      VisibleIdsWithin(r, ctx, CommandIds(d.items));
      var j :| 0 <= j < |CommandIds(d.items)| && CommandIds(d.items)[j] == x;
    }
  }

  /** Elsewhere, or without the automatic application menu, the bar is one
      dropdown per menu as given, in order and with its label. */
  lemma RebuildPlain(menus: seq<MenuDef>, reg: Option<Registry>, ctx: Context, isMac: bool, autoAppMenu: bool)
    requires !(isMac && autoAppMenu)
    ensures var bar := Rebuild(menus, reg, ctx, isMac, autoAppMenu);
      && |bar| == |menus|
      && forall k :: 0 <= k < |menus| ==> bar[k] == Dropdown(menus[k].title, Populate(menus[k].items, reg, ctx, [menus[k].title]))
  {
    assert EffectiveMenus(menus, isMac, autoAppMenu) == menus;
    var ds := Dropdowns(menus, reg, ctx);
    assert Rebuild(menus, reg, ctx, isMac, autoAppMenu) == [] + ds;
    assert [] + ds == ds;
  }
}

=== FILE: sidebar.dfy ===
/** The listing step of the sidebar tree (`SidebarTreeView._safe_iterdir`):
    a directory's children are read, dot-files are hidden on request, the
    rest are sorted directories first and then by case-insensitive name,
    and the list is capped. The directory read itself is a parameter: the
    children as (name, is-directory) pairs, or nothing when it raised. */
module Sidebar {
  import opened Base
  import opened Text
  import opened Sorting

  /** A child of the directory being listed. */
  datatype Child = Child(name: string, isDir: bool)

  /** `_is_dotfile`: the name starts with ".". */
  predicate IsDotfile(c: Child) {
    |c.name| > 0 && c.name[0] == '.'
  }

  /** The sort key `(not is_dir, name.lower())` compared as Python compares
      tuples: `False` sorts before `True`, so directories come first. */
  predicate KeyLe(a: Child, b: Child) {
    if a.isDir != b.isDir then a.isDir else LexLe(Lower(a.name), Lower(b.name))
  }

  lemma KeyLeOrders()
    ensures Total(KeyLe) && Transitive(KeyLe)
  {
    forall a: Child, b: Child ensures KeyLe(a, b) || KeyLe(b, a) {
      LexLeTotal(Lower(a.name), Lower(b.name));
    }
    forall a: Child, b: Child, c: Child | KeyLe(a, b) && KeyLe(b, c) ensures KeyLe(a, c) {
      if a.isDir == b.isDir && b.isDir == c.isDir {
        LexLeTransitive(Lower(a.name), Lower(b.name), Lower(c.name));
      }
    }
  }

  /** The children without the dot-files, in listing order. */
  function WithoutDotfiles(cs: seq<Child>): (r: seq<Child>)
    ensures forall i :: 0 <= i < |r| ==> !IsDotfile(r[i])
    ensures multiset(r) <= multiset(cs)
    ensures forall c :: c in cs && !IsDotfile(c) ==> c in r
  {
    if |cs| == 0 then []
    else
      assert cs == [cs[0]] + cs[1..];
      (if IsDotfile(cs[0]) then [] else [cs[0]]) + WithoutDotfiles(cs[1..])
  }

  /** Python's `items[:n]` for the `n` the cap test lets through: a
      negative `n` counts from the end. */
  function Slice(cs: seq<Child>, n: int): (r: seq<Child>)
    ensures r <= cs
  {
    if n >= 0 then cs[..if n <= |cs| then n else |cs|]
    else cs[..if |cs| + n >= 0 then |cs| + n else 0]
  }

  /** `_safe_iterdir`. `listing` is `None` when reading the directory
      raised; `maxChildren` of 0 means no cap. */
  function SafeIterdir(listing: Option<seq<Child>>, hideDotfiles: bool, maxChildren: int): seq<Child> {
    match listing
    case None => []
    case Some(cs) =>
      var shown := if hideDotfiles then WithoutDotfiles(cs) else cs;
      var sorted := SortBy(shown, KeyLe);
      if maxChildren != 0 && |sorted| > maxChildren then Slice(sorted, maxChildren) else sorted
  }

  /** The listing sorted and filtered, before the cap. */
  function Arranged(cs: seq<Child>, hideDotfiles: bool): seq<Child> {
    SortBy(if hideDotfiles then WithoutDotfiles(cs) else cs, KeyLe)
  }

  /** A failed read lists nothing. */
  lemma FailedListingIsEmpty(hideDotfiles: bool, maxChildren: int)
    ensures SafeIterdir(None, hideDotfiles, maxChildren) == []
  {
  }

  /** The result is a prefix of the arranged children: with dot-files
      hidden none is shown, directories precede files, and each group is in
      case-insensitive name order. */
  lemma ListingOrdered(cs: seq<Child>, hideDotfiles: bool, maxChildren: int)
    ensures var r := SafeIterdir(Some(cs), hideDotfiles, maxChildren);
      && r <= Arranged(cs, hideDotfiles)
      && (hideDotfiles ==> forall i :: 0 <= i < |r| ==> !IsDotfile(r[i]))
      && (forall i, j :: 0 <= i < j < |r| ==> r[i].isDir || !r[j].isDir)
      && (forall i, j :: 0 <= i < j < |r| && r[i].isDir == r[j].isDir ==> LexLe(Lower(r[i].name), Lower(r[j].name)))
  {
    var shown := if hideDotfiles then WithoutDotfiles(cs) else cs;
    var sorted := SortBy(shown, KeyLe);
    KeyLeOrders();
    SortBySorted(shown, KeyLe);
    var r := SafeIterdir(Some(cs), hideDotfiles, maxChildren);
    assert r <= sorted;
    forall i, j | 0 <= i < j < |r| ensures KeyLe(r[i], r[j]) {
      assert r[i] == sorted[i] && r[j] == sorted[j];
    }
    if hideDotfiles {
      forall i | 0 <= i < |r| ensures !IsDotfile(r[i]) {
        assert r[i] == sorted[i];
        assert sorted[i] in multiset(shown);
        var k :| 0 <= k < |shown| && shown[k] == sorted[i];
      }
    }
  }

  /** A positive cap bounds the result and zero means no cap; below the
      cap nothing is dropped, so the result is a permutation of the shown
      children, and every entry comes from the listing. */
  lemma ListingCapped(cs: seq<Child>, hideDotfiles: bool, maxChildren: int)
    ensures var r := SafeIterdir(Some(cs), hideDotfiles, maxChildren);
      var shown := if hideDotfiles then WithoutDotfiles(cs) else cs;
      && (maxChildren > 0 ==> |r| <= maxChildren)
      && (maxChildren > 0 && |shown| > maxChildren ==> |r| == maxChildren)
      && ((maxChildren == 0 || |shown| <= maxChildren) ==> multiset(r) == multiset(shown))
      && multiset(r) <= multiset(cs)
  {
    var shown := if hideDotfiles then WithoutDotfiles(cs) else cs;
    var sorted := SortBy(shown, KeyLe);
    var r := SafeIterdir(Some(cs), hideDotfiles, maxChildren);
    PrefixMultiset(r, sorted);
  }

  lemma PrefixMultiset(a: seq<Child>, b: seq<Child>)
    requires a <= b
    ensures multiset(a) <= multiset(b)
  {
    assert b == a + b[|a|..];
  }
}

=== FILE: sorting.dfy ===
/** A stable insertion sort over sequences, used wherever the application
    calls Python's `list.sort` / `sorted` with a key (the command palette,
    `CommandRegistry.all` and the sidebar listing). The comparison `le` is
    "key(a) <= key(b)"; Python's sort is stable, and so is this one. */
module Sorting {

  ghost predicate Total<T(!new)>(le: (T, T) -> bool) {
    forall a, b :: le(a, b) || le(b, a)
  }

  ghost predicate Transitive<T(!new)>(le: (T, T) -> bool) {
    forall a, b, c :: le(a, b) && le(b, c) ==> le(a, c)
  }

  ghost predicate SortedBy<T>(s: seq<T>, le: (T, T) -> bool) {
    forall i, j :: 0 <= i < j < |s| ==> le(s[i], s[j])
  }

  /** Inserts `x` after every element that sorts no later than it. */
  function Insert<T(==)>(x: T, s: seq<T>, le: (T, T) -> bool): (r: seq<T>)
    ensures multiset(r) == multiset(s) + multiset{x}
    ensures |r| == |s| + 1
  {
    if |s| == 0 then [x]
    else if le(s[0], x) then
      assert s == [s[0]] + s[1..];
      [s[0]] + Insert(x, s[1..], le)
    else [x] + s
  }

  /** Python's `sorted(s, key=...)`. */
  function SortBy<T(==)>(s: seq<T>, le: (T, T) -> bool): (r: seq<T>)
    ensures multiset(r) == multiset(s)
    ensures |r| == |s|
  {
    if |s| == 0 then []
    else
      assert s == s[..|s| - 1] + [s[|s| - 1]];
      Insert(s[|s| - 1], SortBy(s[..|s| - 1], le), le)
  }

  lemma {:induction false} InsertSorted<T(!new)>(x: T, s: seq<T>, le: (T, T) -> bool)
    requires Total(le) && Transitive(le)
    requires SortedBy(s, le)
    ensures SortedBy(Insert(x, s, le), le)
  {
    if |s| > 0 && le(s[0], x) {
      InsertSorted(x, s[1..], le);
      var r := Insert(x, s[1..], le);
      forall k | 0 <= k < |r| ensures le(s[0], r[k]) {
        assert r[k] in multiset(r);
        if r[k] != x {
          assert r[k] in multiset(s[1..]);
          var j :| 0 <= j < |s[1..]| && s[1..][j] == r[k];
          assert s[j + 1] == r[k];
        }
      }
    } else if |s| > 0 {
      assert le(x, s[0]);
    }
  }

  /** The sort's output is in order (and, by its contract, a permutation). */
  lemma {:induction false} SortBySorted<T(!new)>(s: seq<T>, le: (T, T) -> bool)
    requires Total(le) && Transitive(le)
    ensures SortedBy(SortBy(s, le), le)
  {
    if |s| > 0 {
      SortBySorted(s[..|s| - 1], le);
      InsertSorted(s[|s| - 1], SortBy(s[..|s| - 1], le), le);
    }
  }
}

=== FILE: startup.dfy ===
/** The command and keymap wiring of `App.__init__`: the default keymap is
    built, the default commands are registered on a fresh registry, and the
    keymap is applied to the registry with `replace=True`. Any exception
    escapes the constructor, so the wiring either yields a registry or the
    error that stopped it. */
module Startup {
  import opened Base
  import opened Text
  import opened Commands
  import opened Keys
  import opened Defaults

  /** The registry start-up leaves behind; `replace` is the flag handed to
      `apply_keymap` (the application passes true). */
  function Startup(isMac: bool, replace: bool): Result<Registry> {
    var km := BuildDefaultKeymap(isMac);
    var reg := RegisterDefaults(EmptyRegistry, isMac);
    if km.Err? then Err(km.error)
    else if reg.outcome.Raised? then Err(reg.outcome.error)
    else
      DefaultKeymapItems(isMac);
      var applied := Apply(km.value, Some(reg.state), replace);
      if applied.Err? then Err(applied.error)
      else if applied.value.outcome.Raised? then Err(applied.value.outcome.error)
      else Ok(applied.value.state)
  }

  /** The shortcut index after start-up: the two default shortcuts plus the
      translations of the keymap's sequences. The comma sequences file
      under "…+COMMA", beside (not over) the registry's "…+," entry. */
  function StartupShortcuts(isMac: bool): map<string, string> {
    if isMac then
      map["CMD+," := PreferencesId, "CMD+Q" := QuitId, "CMD+COMMA" := PreferencesId,
          "CTRL+Q" := QuitId, "CTRL+COMMA" := PreferencesId]
    else
      map["CTRL+," := PreferencesId, "CTRL+Q" := QuitId, "CTRL+COMMA" := PreferencesId]
  }

  /** Start-up is the binding loop over the translated default table,
      run on the freshly registered defaults. */
  lemma StartupBindsTable(isMac: bool, replace: bool)
    ensures var u := BindAll(DefaultShortcuts(isMac), RegisterDefaults(EmptyRegistry, isMac).state, replace);
      Startup(isMac, replace) == if u.outcome.Raised? then Err(u.outcome.error) else Ok(u.state)
  {
    DefaultKeymapItems(isMac);
    DefaultsOnFreshRegistry(isMac);
    DefaultTranslations(isMac);
  }

  /** Start-up with `replace=True` never raises; it registers exactly the
      three default commands in order and leaves the shortcut index above,
      with every key canonical and every value a registered id. */
  lemma StartupSucceeds(isMac: bool)
    ensures Startup(isMac, true).Ok?
    ensures var r := Startup(isMac, true).value;
      && r.ids == [AboutId, PreferencesId, QuitId]
      && r.commands == RegisterDefaults(EmptyRegistry, isMac).state.commands
      && r.shortcuts == StartupShortcuts(isMac)
      && Valid(r) && CanonicalKeys(r)
  {
    StartupBindsTable(isMac, true);
    DefaultsOnFreshRegistry(isMac);
    var reg := RegisterDefaults(EmptyRegistry, isMac).state;
    var pairs := DefaultShortcuts(isMac);
    DefaultShortcutsReady(isMac, reg);
    BindAllReplace(pairs, reg);
    StartupFiles(isMac);
    EmptyRegistryValid();
    RegisterEachValid(EmptyRegistry, DefaultCommands(isMac));
    BindAllValid(pairs, reg, true);
    BindAllCanonical(pairs, reg, true);
  }

  /** Every translated default binding is canonical and names a command the
      default registration provides. */
  lemma DefaultShortcutsReady(isMac: bool, reg: Registry)
    requires reg == RegisterDefaults(EmptyRegistry, isMac).state
    ensures forall i :: 0 <= i < |DefaultShortcuts(isMac)| ==> DefaultShortcuts(isMac)[i].1 in reg.commands
    ensures forall i :: 0 <= i < |DefaultShortcuts(isMac)| ==>
      NormalizeShortcut(DefaultShortcuts(isMac)[i].0) == Ok(DefaultShortcuts(isMac)[i].0)
  {
    DefaultsRegistered(isMac);
    var specs := DefaultSpecs(isMac);
    DefaultSpecsWellFormed(isMac);
    DefaultSpecCommands(isMac);
    forall i | 0 <= i < |specs|
      ensures ExpectedAll(specs)[i].1 in reg.commands
      ensures NormalizeShortcut(ExpectedAll(specs)[i].0) == Ok(ExpectedAll(specs)[i].0)
    {
      ExpectedCanonical(specs[i]);
    }
  }

  /** Filing the translated bindings over the two default shortcuts. */
  lemma StartupFiles(isMac: bool)
    ensures FileAll(DefaultShortcuts(isMac), map[PreferencesShortcut(isMac) := PreferencesId, QuitShortcut(isMac) := QuitId])
      == StartupShortcuts(isMac)
  {
    var pairs := DefaultShortcuts(isMac);
    var t := StartupShortcuts(isMac);
    forall i | 0 <= i < |pairs| ensures pairs[i].0 in t && t[pairs[i].0] == pairs[i].1 {
      if isMac && i >= |MacShortcuts| { assert pairs[i] == ControlShortcuts[i - |MacShortcuts|]; }
    }
    if isMac {
      assert pairs[3].0 == "CMD+COMMA" && pairs[6].0 == "CTRL+Q" && pairs[8].0 == "CTRL+COMMA";
    } else {
      assert pairs[0].0 == "CTRL+Q" && pairs[2].0 == "CTRL+COMMA";
    }
    FileAllInto(pairs, map[PreferencesShortcut(isMac) := PreferencesId, QuitShortcut(isMac) := QuitId], t);
  }

  /** With `replace=False` start-up would fail: the first quit sequence
      translates to the quit command's own default shortcut, which is
      already bound, and binding never overwrites without `replace`. */
  lemma StartupWithoutReplaceRaises(isMac: bool)
    ensures Startup(isMac, false) == Err(ShortcutAlreadyBound)
  {
    StartupBindsTable(isMac, false);
    DefaultsOnFreshRegistry(isMac);
    DefaultsRegistered(isMac);
    DefaultShortcutsCanonical(isMac);
    var reg := RegisterDefaults(EmptyRegistry, isMac).state;
    var pairs := DefaultShortcuts(isMac);
    assert pairs[0] == (QuitShortcut(isMac), QuitId);
    BindAllStep(pairs, reg, false);
  }
}

=== FILE: status.dfy ===
/** `StatusService`: the status-bar state (named sections plus the last
    key sequence and command id), an optional sink that mirrors section
    text, and an optional change callback that receives snapshots. The
    sink and the callback are identified by a number; what they receive
    is recorded, in order, in the service's output trace. */
module Status {
  import opened Base

  /** The sections in insertion order, as a Python dict iterates. */
  type Sections = seq<(string, string)>

  /** `StatusSnapshot`: a copy of the state, so later changes to the
      service cannot reach it. */
  datatype Snapshot = Snapshot(sections: Sections, lastKeyseq: string, lastCommandId: string)

  /** What leaves the service: `sink.set_text(section, value)` or
      `on_change(snapshot)`. */
  datatype Effect = SinkText(sink: nat, section: string, value: string) | Notified(callback: nat, snapshot: Snapshot)

  datatype Service = Service(
    sections: Sections,
    lastKeyseq: string,
    lastCommandId: string,
    sink: Option<nat>,
    onChange: Option<nat>,
    out: seq<Effect>)

  /** The value stored under `key`, if any. */
  function Lookup(ss: Sections, key: string): Option<string> {
    if |ss| == 0 then None
    else if ss[0].0 == key then Some(ss[0].1)
    else Lookup(ss[1..], key)
  }

  function Keys(ss: Sections): seq<string> {
    if |ss| == 0 then [] else [ss[0].0] + Keys(ss[1..])
  }

  /** `sections[key] = value`: an existing key keeps its place, a new key
      goes last. */
  function Put(ss: Sections, key: string, value: string): Sections {
    if |ss| == 0 then [(key, value)]
    else if ss[0].0 == key then [(key, value)] + ss[1..]
    else [ss[0]] + Put(ss[1..], key, value)
  }

  /** After a put the key holds the new value, every other key keeps its
      own, and the key order is unchanged apart from a new key at the end. */
  lemma {:induction false} PutLookup(ss: Sections, key: string, value: string)
    ensures Lookup(Put(ss, key, value), key) == Some(value)
    ensures forall k :: k != key ==> Lookup(Put(ss, key, value), k) == Lookup(ss, k)
    ensures Keys(Put(ss, key, value)) == if Lookup(ss, key).Some? then Keys(ss) else Keys(ss) + [key]
  {
    if |ss| > 0 && ss[0].0 != key {
      PutLookup(ss[1..], key, value);
      var rest := Put(ss[1..], key, value);
      assert ([ss[0]] + rest)[1..] == rest;
    } else if |ss| > 0 {
      assert ([(key, value)] + ss[1..])[1..] == ss[1..];
    }
  }

  /** A fresh service: three empty sections, nothing recorded. */
  const Initial: Service := Service([("left", ""), ("middle", ""), ("right", "")], "", "", None, None, [])

  lemma InitialState()
    ensures Keys(Initial.sections) == ["left", "middle", "right"]
    ensures forall k :: k in Keys(Initial.sections) ==> Lookup(Initial.sections, k) == Some("")
    ensures Initial.lastKeyseq == "" && Initial.lastCommandId == "" && Initial.out == []
  {
  }

  function TakeSnapshot(s: Service): Snapshot {
    Snapshot(s.sections, s.lastKeyseq, s.lastCommandId)
  }

  /** `_notify`: the callback, if any, receives the current snapshot. */
  function Notify(s: Service): (r: Service)
    ensures r.(out := s.out) == s
    ensures r.out == s.out + if s.onChange.Some? then [Notified(s.onChange.value, TakeSnapshot(s))] else []
  {
    match s.onChange
    case None => s
    case Some(cb) => s.(out := s.out + [Notified(cb, TakeSnapshot(s))])
  }

  /** The sink calls `_publish` makes: one per non-empty section, in order. */
  function PublishTo(sink: nat, ss: Sections): seq<Effect> {
    if |ss| == 0 then []
    else (if ss[0].1 == "" then [] else [SinkText(sink, ss[0].0, ss[0].1)]) + PublishTo(sink, ss[1..])
  }

  /** Reference: the non-empty sections, in order. */
  function NonEmpty(ss: Sections): Sections {
    if |ss| == 0 then []
    else (if ss[0].1 == "" then [] else [ss[0]]) + NonEmpty(ss[1..])
  }

  /** What each pushed call carries: its (section, value) pair. */
  function Pushed(es: seq<Effect>): Sections {
    if |es| == 0 then []
    else (if es[0].SinkText? then [(es[0].section, es[0].value)] else []) + Pushed(es[1..])
  }

  /** `attach_sink`: the sink is stored and, when there is one, receives
      the current sections. */
  function AttachSink(s: Service, sink: Option<nat>): (r: Service)
    ensures r.sink == sink && r.sections == s.sections && r.onChange == s.onChange
    ensures sink.None? ==> r.out == s.out
  {
    match sink
    case None => s.(sink := None)
    case Some(k) => s.(sink := sink, out := s.out + PublishTo(k, s.sections))
  }

  /** `set_on_change`: the callback is stored and, when there is one,
      called at once with the current snapshot. */
  function SetOnChange(s: Service, cb: Option<nat>): (r: Service)
    ensures r.onChange == cb && r.sections == s.sections && r.sink == s.sink
    ensures r.out == s.out + if cb.Some? then [Notified(cb.value, TakeSnapshot(s))] else []
  {
    Notify(s.(onChange := cb))
  }

  /** `set(section, message)`: the section changes, the sink is told, then
      the callback is notified. */
  function Set(s: Service, section: string, message: string): Service {
    var stored := s.(sections := Put(s.sections, section, message));
    var told := match s.sink
      case None => stored
      case Some(k) => stored.(out := stored.out + [SinkText(k, section, message)]);
    Notify(told)
  }

  function Clear(s: Service, section: string): Service {
    Set(s, section, "")
  }

  function SetLeft(s: Service, message: string): Service {
    Set(s, "left", message)
  }

  function SetMiddle(s: Service, message: string): Service {
    Set(s, "middle", message)
  }

  function SetRight(s: Service, message: string): Service {
    Set(s, "right", message)
  }

  function SetLastKeyseq(s: Service, keyseq: string): Service {
    Notify(s.(lastKeyseq := keyseq))
  }

  function SetLastCommandId(s: Service, commandId: string): Service {
    Notify(s.(lastCommandId := commandId))
  }

  /** `set` changes only the named section, forwards the pair to the sink
      and then hands the callback a snapshot that already shows it. */
  lemma SetEffects(s: Service, section: string, message: string)
    ensures var r := Set(s, section, message);
      && Lookup(r.sections, section) == Some(message)
      && (forall k :: k != section ==> Lookup(r.sections, k) == Lookup(s.sections, k))
      && r.lastKeyseq == s.lastKeyseq && r.lastCommandId == s.lastCommandId
      && r.sink == s.sink && r.onChange == s.onChange
      && r.out == s.out
         + (if s.sink.Some? then [SinkText(s.sink.value, section, message)] else [])
         + (if s.onChange.Some? then [Notified(s.onChange.value, TakeSnapshot(r))] else [])
  {
    PutLookup(s.sections, section, message);
  }

  /** The named setters and `clear` are `set` on a fixed section or with
      an empty message; the last-seen fields change alone. */
  lemma SettersAgree(s: Service, message: string, section: string, value: string)
    ensures Lookup(SetLeft(s, message).sections, "left") == Some(message)
    ensures Lookup(SetMiddle(s, message).sections, "middle") == Some(message)
    ensures Lookup(SetRight(s, message).sections, "right") == Some(message)
    ensures Lookup(Clear(s, section).sections, section) == Some("")
    ensures var r := SetLastKeyseq(s, value);
      r.lastKeyseq == value && r.sections == s.sections && r.lastCommandId == s.lastCommandId
      && r.out == s.out + if s.onChange.Some? then [Notified(s.onChange.value, TakeSnapshot(r))] else []
    ensures var r := SetLastCommandId(s, value);
      r.lastCommandId == value && r.sections == s.sections && r.lastKeyseq == s.lastKeyseq
      && r.out == s.out + if s.onChange.Some? then [Notified(s.onChange.value, TakeSnapshot(r))] else []
  {
    PutLookup(s.sections, "left", message);
    PutLookup(s.sections, "middle", message);
    PutLookup(s.sections, "right", message);
    PutLookup(s.sections, section, "");
  }

  /** Attaching a sink pushes exactly the non-empty sections to it, in
      order; empty values never overwrite the widget's defaults. */
  lemma {:induction false} PublishNonEmpty(sink: nat, ss: Sections)
    ensures Pushed(PublishTo(sink, ss)) == NonEmpty(ss)
    ensures forall i :: 0 <= i < |PublishTo(sink, ss)| ==>
      PublishTo(sink, ss)[i].SinkText? && PublishTo(sink, ss)[i].sink == sink && PublishTo(sink, ss)[i].value != ""
  {
    if |ss| > 0 {
      PublishNonEmpty(sink, ss[1..]);
      var h := if ss[0].1 == "" then [] else [SinkText(sink, ss[0].0, ss[0].1)];
      var rest := PublishTo(sink, ss[1..]);
      PushedAppend(h, rest);
      assert PublishTo(sink, ss) == h + rest;
    }
  }

  lemma {:induction false} PushedAppend(a: seq<Effect>, b: seq<Effect>)
    ensures Pushed(a + b) == Pushed(a) + Pushed(b)
  {
    if |a| > 0 {
      assert (a + b)[0] == a[0];
      assert (a + b)[1..] == a[1..] + b;
      PushedAppend(a[1..], b);
    } else {
      assert a + b == b;
    }
  }

  /** Attaching a sink to a fresh service pushes nothing: every section is
      still empty. */
  lemma AttachToFresh(sink: Option<nat>)
    ensures AttachSink(Initial, sink).out == []
  {
    if sink.Some? {
      var ss := Initial.sections;
      assert PublishTo(sink.value, ss) == PublishTo(sink.value, ss[1..]);
      assert PublishTo(sink.value, ss[1..]) == PublishTo(sink.value, ss[2..]);
    }
  }

  /** Attaching a sink records, after what was there, one call per
      non-empty section, in section order. */
  lemma AttachSinkPushes(s: Service, sink: nat)
    ensures var r := AttachSink(s, Some(sink));
      && r.out[..|s.out|] == s.out
      && Pushed(r.out[|s.out|..]) == NonEmpty(s.sections)
  {
    var r := AttachSink(s, Some(sink));
    assert r.out[|s.out|..] == PublishTo(sink, s.sections);
    PublishNonEmpty(sink, s.sections);
  }
}

=== FILE: text.dfy ===
/** ASCII string helpers with the semantics of the Python built-ins the
    application uses: `str.strip`, `str.split(sep)`, `sep.join`,
    `str.upper`, `str.lower`, `startswith`, the `in` substring test and
    `<=` on strings. Only the ASCII range is given a case mapping.
 */
module Text {

  /** Python's `str.isspace` restricted to ASCII: space, 9..13 and 28..31. */
  predicate IsSpace(c: char) {
    c == ' ' || (9 <= c as int <= 13) || (28 <= c as int <= 31)
  }

  /** No whitespace at either end. */
  predicate Trimmed(s: string) {
    |s| == 0 || (!IsSpace(s[0]) && !IsSpace(s[|s| - 1]))
  }

  function TrimStart(s: string): (r: string)
    ensures |r| <= |s| && r == s[|s| - |r|..]
    ensures |r| == 0 || !IsSpace(r[0])
    ensures forall k :: 0 <= k < |s| - |r| ==> IsSpace(s[k])
  {
    if |s| > 0 && IsSpace(s[0]) then
      var r := TrimStart(s[1..]);
      assert s[1..][|s| - 1 - |r|..] == s[|s| - |r|..];
      assert forall k :: 0 <= k < |s| - |r| ==> IsSpace(s[k]) by {
        forall k | 0 < k < |s| - |r| ensures IsSpace(s[k]) {
          assert s[k] == s[1..][k - 1];
        }
      }
      r
    else
      s
  }

  function TrimEnd(s: string): (r: string)
    ensures |r| <= |s| && r == s[..|r|]
    ensures |r| == 0 || !IsSpace(r[|r| - 1])
    ensures forall k :: |r| <= k < |s| ==> IsSpace(s[k])
  {
    if |s| > 0 && IsSpace(s[|s| - 1]) then
      var r := TrimEnd(s[..|s| - 1]);
      assert forall k :: 0 <= k < |s| - 1 ==> s[k] == s[..|s| - 1][k];
      r
    else s
  }

  /** `r` is the slice of `s` that starts at `i`, and everything outside it
      is whitespace. */
  predicate StrippedAt(s: string, r: string, i: int) {
    && 0 <= i <= |s| - |r|
    && r == s[i..i + |r|]
    && (forall k :: 0 <= k < i ==> IsSpace(s[k]))
    && (forall k :: i + |r| <= k < |s| ==> IsSpace(s[k]))
  }

  /** Python `s.strip()`: drops the whitespace at both ends and nothing else. */
  function Trim(s: string): (r: string)
    ensures Trimmed(r)
    ensures forall c :: c in r ==> c in s
    ensures exists i :: StrippedAt(s, r, i)
    ensures Trimmed(s) ==> r == s
    ensures r == "" <==> forall k :: 0 <= k < |s| ==> IsSpace(s[k])
  {
    TrimSlice(s);
    TrimKeeps(s);
    TrimOfTrimmed(s);
    TrimEmpty(s);
    TrimEnd(TrimStart(s))
  }

  /** What is left is a slice of the input, with only whitespace cut off
      on either side. */
  lemma TrimSlice(s: string)
    ensures StrippedAt(s, TrimEnd(TrimStart(s)), |s| - |TrimStart(s)|)
  {
    PrefixOfSuffixStripped(s, TrimStart(s), TrimEnd(TrimStart(s)));
  }

  /** Cutting whitespace off the front of `s` (leaving `t`) and then off
      the back of `t` (leaving `r`) leaves a slice of `s`. */
  lemma PrefixOfSuffixStripped(s: string, t: string, r: string)
    requires |t| <= |s| && t == s[|s| - |t|..]
    requires forall k :: 0 <= k < |s| - |t| ==> IsSpace(s[k])
    requires |r| <= |t| && r == t[..|r|]
    requires forall k :: |r| <= k < |t| ==> IsSpace(t[k])
    ensures StrippedAt(s, r, |s| - |t|)
  {
    PrefixOfSuffix(s, t, r);
  }

  /** A prefix `r` of a suffix `t` of `s` is a slice of `s`; what follows
      `r` in `t` follows it in `s` too. */
  lemma PrefixOfSuffix(s: string, t: string, r: string)
    requires |t| <= |s| && t == s[|s| - |t|..]
    requires |r| <= |t| && r == t[..|r|]
    requires forall k :: |r| <= k < |t| ==> IsSpace(t[k])
    ensures r == s[|s| - |t|..|s| - |t| + |r|]
    ensures forall k :: |s| - |t| + |r| <= k < |s| ==> IsSpace(s[k])
  {
    var off := |s| - |t|;
    forall k | off + |r| <= k < |s| ensures IsSpace(s[k]) {
      assert s[k] == t[k - off];
    }
  }

  /** Every character left by stripping comes from the input. */
  lemma TrimKeeps(s: string)
    ensures forall c :: c in TrimEnd(TrimStart(s)) ==> c in s
  {
    var r := TrimEnd(TrimStart(s));
    var off := |s| - |TrimStart(s)|;
    TrimSlice(s);
    SliceKeeps(s, off, off + |r|);
  }

  lemma SliceKeeps(s: string, i: int, j: int)
    requires 0 <= i <= j <= |s|
    ensures forall c :: c in s[i..j] ==> c in s
  {
    forall c | c in s[i..j] ensures c in s {
      var k :| 0 <= k < j - i && s[i..j][k] == c;
      assert s[i + k] == c;
    }
  }

  lemma TrimOfTrimmed(s: string)
    ensures Trimmed(s) ==> TrimEnd(TrimStart(s)) == s
  {
    if Trimmed(s) && |s| > 0 {
      assert TrimStart(s) == s;
    }
  }

  lemma TrimEmpty(s: string)
    ensures TrimEnd(TrimStart(s)) == "" <==> forall k :: 0 <= k < |s| ==> IsSpace(s[k])
  {
    var t := TrimStart(s);
    var r := TrimEnd(t);
    var off := |s| - |t|;
    if r == "" {
      assert |t| == 0;
      assert off == |s|;
    } else {
      assert r == t[..|r|];
      assert !IsSpace(s[off]);
    }
  }

  /** Python `s.split(sep)` for a one-character separator: the pieces
      between separators, so there is always one more piece than separators. */
  function Split(s: string, sep: char): (r: seq<string>)
    ensures |r| >= 1
    ensures forall i :: 0 <= i < |r| ==> sep !in r[i]
    ensures forall i, c :: 0 <= i < |r| && c in r[i] ==> c in s
  {
    if |s| == 0 then [""]
    else
      var rest := Split(s[1..], sep);
      assert forall c :: c in s[1..] ==> c in s;
      if s[0] == sep then [""] + rest
      else [[s[0]] + rest[0]] + rest[1..]
  }

  /** Python `sep.join(parts)`. */
  function Join(parts: seq<string>, sep: char): string
  {
    if |parts| == 0 then ""
    else if |parts| == 1 then parts[0]
    else parts[0] + [sep] + Join(parts[1..], sep)
  }

  lemma {:induction false} SplitWithoutSep(s: string, sep: char)
    requires sep !in s
    ensures Split(s, sep) == [s]
  {
    if |s| > 0 {
      assert sep !in s[1..];
      SplitWithoutSep(s[1..], sep);
      assert [s[0]] + s[1..] == s;
    }
  }

  lemma {:induction false} SplitAfterPiece(a: string, t: string, sep: char)
    requires sep !in a
    ensures Split(a + [sep] + t, sep) == [a] + Split(t, sep)
  {
    if |a| == 0 {
      assert a + [sep] + t == [sep] + t;
      assert ([sep] + t)[1..] == t;
    } else {
      assert (a + [sep] + t)[1..] == a[1..] + [sep] + t;
      assert sep !in a[1..];
      SplitAfterPiece(a[1..], t, sep);
      assert [a[0]] + a[1..] == a;
    }
  }

  /** Splitting a join recovers the parts when no part holds the separator. */
  lemma {:induction false} SplitJoin(parts: seq<string>, sep: char)
    requires |parts| >= 1
    requires forall i :: 0 <= i < |parts| ==> sep !in parts[i]
    ensures Split(Join(parts, sep), sep) == parts
  {
    if |parts| == 1 {
      SplitWithoutSep(parts[0], sep);
    } else {
      SplitJoin(parts[1..], sep);
      SplitAfterPiece(parts[0], Join(parts[1..], sep), sep);
      assert [parts[0]] + parts[1..] == parts;
    }
  }

  /** Every character of a join comes from a part or is the separator. */
  lemma {:induction false} JoinChars(parts: seq<string>, sep: char, c: char)
    requires c in Join(parts, sep)
    ensures c == sep || exists i :: 0 <= i < |parts| && c in parts[i]
  {
    if |parts| > 1 && c != sep && c !in parts[0] {
      JoinChars(parts[1..], sep, c);
      var i :| 0 <= i < |parts[1..]| && c in parts[1..][i];
      assert c in parts[i + 1];
    }
  }

  function UpperChar(c: char): char {
    if 'a' <= c <= 'z' then (c as int - 32) as char else c
  }

  function LowerChar(c: char): char {
    if 'A' <= c <= 'Z' then (c as int + 32) as char else c
  }

  /** Python `s.upper()` on ASCII. */
  function Upper(s: string): (r: string)
    ensures |r| == |s|
    ensures forall i :: 0 <= i < |s| ==> r[i] == UpperChar(s[i])
  {
    seq(|s|, i requires 0 <= i < |s| => UpperChar(s[i]))
  }

  /** Python `s.lower()` on ASCII. */
  function Lower(s: string): (r: string)
    ensures |r| == |s|
    ensures forall i :: 0 <= i < |s| ==> r[i] == LowerChar(s[i])
  {
    seq(|s|, i requires 0 <= i < |s| => LowerChar(s[i]))
  }

  /** Upper-casing is idempotent, keeps every non-letter (so also '+', '-'
      and whitespace) and keeps a string trimmed. */
  lemma UpperFacts(s: string)
    ensures Upper(Upper(s)) == Upper(s)
    ensures forall c :: c in s && !('a' <= c <= 'z') && !('A' <= c <= 'Z') ==> c in Upper(s)
    ensures forall c :: c in Upper(s) && !('A' <= c <= 'Z') ==> c in s
    ensures Trimmed(s) ==> Trimmed(Upper(s))
    ensures |Upper(s)| == 0 <==> |s| == 0
  {
    forall c | c in s && !('a' <= c <= 'z') && !('A' <= c <= 'Z') ensures c in Upper(s) {
      var i :| 0 <= i < |s| && s[i] == c;
      assert Upper(s)[i] == c;
    }
    forall c | c in Upper(s) && !('A' <= c <= 'Z') ensures c in s {
      var i :| 0 <= i < |Upper(s)| && Upper(s)[i] == c;
      assert s[i] == c;
    }
  }

  /** Python `p in s` (substring test). */
  predicate Contains(s: string, p: string) {
    p <= s || (|s| > 0 && Contains(s[1..], p))
  }

  /** A prefix is a substring, so a score given for a prefix match is also
      justified by a substring match. */
  lemma PrefixIsContained(s: string, p: string)
    requires p <= s
    ensures Contains(s, p)
  {
  }

  /** Python `a <= b` on strings: lexicographic by character code, a proper
      prefix ordering first. */
  predicate LexLe(a: string, b: string) {
    |a| == 0 || (|b| > 0 && (a[0] < b[0] || (a[0] == b[0] && LexLe(a[1..], b[1..]))))
  }

  lemma {:induction false} LexLeTotal(a: string, b: string)
    ensures LexLe(a, b) || LexLe(b, a)
  {
    if |a| > 0 && |b| > 0 && a[0] == b[0] {
      LexLeTotal(a[1..], b[1..]);
    }
  }

  lemma {:induction false} LexLeTransitive(a: string, b: string, c: string)
    requires LexLe(a, b) && LexLe(b, c)
    ensures LexLe(a, c)
  {
    if |a| > 0 && a[0] == b[0] && b[0] == c[0] {
      LexLeTransitive(a[1..], b[1..], c[1..]);
    }
  }

  lemma {:induction false} LexLeAntisymmetric(a: string, b: string)
    requires LexLe(a, b) && LexLe(b, a)
    ensures a == b
  {
    if |a| > 0 {
      LexLeAntisymmetric(a[1..], b[1..]);
      assert a == [a[0]] + a[1..] && b == [b[0]] + b[1..];
    }
  }
}
